=== FILE: README.md ===
# 4You Broadband back-office: subscriber lifecycle and billing ledger

This project is a Dafny model of the back-office of a small broadband
provider. Administrators, field engineers and customers all work on one
subscriber table, and each subscriber row carries a plan lifecycle:

- onboarding ("Pending Installation");
- scheduling ("Installation Scheduled");
- activation ("Active", `is_plan_active`);
- renewal or reduction by calendar months;
- the daily expiry sweep ("Expired", payment reset to "Pending").

Billing edits are recorded in an append-style ledger (`billing_history`)
of paired before/after values, which an administrator may later correct
or delete. Around that core the model covers:

- request validation;
- bearer-token authorisation;
- the dashboard figures;
- the daily reminder runs;
- the company billing settings and their QR payload;
- what an invoice PDF says.

Tables are sequences in storage order, so SQL `.first()` is the first
matching index. Dates are stored as the `YYYY-MM-DD` strings the database
holds. `Calendar` and `IsoDates` give them Python's semantics:

- `relativedelta` month arithmetic;
- `timedelta` days and ordinals;
- `strftime`;
- the lenient `strptime` regex.

Some inputs become parameters:

- the clock (`today`, and whether the current instant is past midnight);
- new row ids;
- token decoding;
- a failing commit.

Modules, one per file:

- `Outcomes`, `Strings` and `Tables` are shared helpers.
- `Calendar` and `IsoDates` hold the date arithmetic and the stored date text.
- `Models` holds the stored entities, key uniqueness and the activity invariant.
- `Schemas` holds request validation.
- `Accounts` covers subscriber and plan administration.
- `Billing` covers renewal, billing updates and ledger correction.
- `Expiry` is the daily sweep.
- `Dashboard` computes the dashboard figures.
- `Installations` covers the engineer's onboarding and tasks.
- `Notifications` covers the reminder runs.
- `InvoicePdf` covers invoice content.
- `Auth` covers authorisation.
- `PlanCatalog` is the public plan list.
- `BillingSettings` covers the company settings.

Three table invariants recur:

- `Models.UsersUnique`: id, phone and `cs_id` are keys.
- `Models.ActiveMeansActive`: a subscriber whose plan is active has status "Active".
- `Billing.LedgerIdsUnique`: ledger ids are unique.

Each mutating operation either carries a lemma saying it keeps them, or a
lemma exhibiting the input on which it does not.

## Model

| member | source | states |
|---|---|---|
| Calendar.AddMonths | backend/app.py:622-623 | `d + relativedelta(months=n)`: the result is a valid date exactly `n` months on, with the day clipped to the length of the month reached |
| Calendar.SplitMonths | backend/app.py:623 | a month count splits into whole years and a remainder carrying the count's sign, as relativedelta normalises it |
| Calendar.AddMonthsJanuary31 | backend/app.py:623 | one month after January 31 is the last day of February, 29 in leap years and 28 otherwise |
| Calendar.AddMonthsMonotone | backend/app.py:622-630 | more months never give an earlier date |
| Calendar.AddMonthsInverse | backend/app.py:622-630 | moving `n` months forward then `n` back returns the date when its day fits the month reached |
| Calendar.AddDays | backend/app.py:371-373 | `d + timedelta(days=n)` is the valid date whose ordinal is `n` more |
| Calendar.AddDaysCharacterised | backend/plan_expiry_checker.py:40 | adding days is exactly the date with the shifted ordinal, and a positive shift lands strictly later |
| Calendar.Ordinal | backend/app.py:626 | a valid date's day number (Python's `toordinal`, by which dates compare) is at least its day of the month, and in January of year 1 it is the day itself |
| Calendar.OrdinalOrder | backend/app.py:626-627 | `toordinal` numbers valid dates in chronological order, both directions |
| Calendar.OrdinalInjective | backend/plan_expiry_checker.py:40 | different valid dates have different ordinals |
| IsoDates.Parse | backend/engineer_routes.py:261-263 | `strptime("%Y-%m-%d")` succeeds only with a date Python can hold |
| IsoDates.ParseIff | backend/engineer_routes.py:261-263 | strptime reads a text as a date exactly when the date exists and the text is four year digits, a dash, a month field, a dash and a day field whose values are that year, month and day |
| IsoDates.ParseReadsBack | backend/engineer_routes.py:261-263 | whatever strptime reads is a valid date that the text's three dash-separated fields spell |
| IsoDates.ParseAccepts | backend/engineer_routes.py:261-263 | every spelling of an existing date, padded or not, is read as that date |
| IsoDates.MonthTokenText | backend/engineer_routes.py:261-263 | the `%m` alternatives `1[0-2]`, `0[1-9]` and `[1-9]`, followed by the dash, match exactly the one- or two-digit fields whose value is 1..12, and read that value |
| IsoDates.DayTokenText | backend/engineer_routes.py:261-263 | the `%d` alternatives match exactly the one- or two-digit fields whose value is 1..31, plus a space before one non-zero digit, and read that value |
| IsoDates.Format | backend/plan_expiry_checker.py:19 | `strftime("%Y-%m-%d")` of a date in years 1..9999 is ten characters, digits with dashes at 4 and 7, and the three digit fields read back as the year, the month and the day |
| IsoDates.FormatShape | backend/plan_expiry_checker.py:19 | a formatted date is ten characters with dashes at positions 4 and 7 |
| IsoDates.FormatOrder | backend/plan_expiry_checker.py:19-25 | string order on formatted dates is chronological order, both directions |
| IsoDates.FormatOrderLe | backend/plan_expiry_checker.py:22-25 | the sweep's text `<=` on formatted dates is "not after" |
| IsoDates.FormatInjective | backend/notification_service.py:21-27 | two representable dates format equally exactly when they are equal |
| IsoDates.ParseFormat | backend/app.py:622-634 | reading back a formatted date gives the date: parse after format is the identity |
| IsoDates.NewYear2020 | backend/engineer_routes.py:261-273 | 2020-01-01 formats to "2020-01-01" and reads back to itself |
| IsoDates.ParseUnpadded | backend/engineer_routes.py:261 | strptime accepts unpadded "2025-1-5", rejects February 29 of a common year and rejects trailing data |
| Strings.KeepDigits | backend/engineer_routes.py:32 | what `re.sub(r'\D', '', s)` leaves is digits only and never longer than the input |
| Strings.KeepDigitsConcat | backend/engineer_routes.py:32 | dropping non-digits works piece by piece over a concatenation |
| Strings.KeepDigitsAround | backend/engineer_routes.py:32 | one separator between two runs of digits is dropped and the runs are kept in order |
| Strings.KeepDigitsOfDigits | backend/engineer_routes.py:32 | a string of digits is left as it is |
| Strings.ReplaceAll | backend/auth_helpers.py:32 | `str.replace` never lengthens the text when the replacement is no longer than the pattern, never shortens it when it is no shorter, strictly shortens it when the pattern occurs and the replacement is shorter, and keeps the first character when the text does not start with the pattern |
| Strings.ReplaceLeading | backend/auth_helpers.py:32 | an occurrence at the front is replaced and the scan resumes after it |
| Strings.ReplaceAfterClean | backend/auth_helpers.py:32 | a prefix in which no occurrence starts passes through unchanged |
| Strings.Show | backend/app.py:644 | `str()` of a count is a non-empty run of digits with no leading zero |
| Strings.ShowValue | backend/app.py:644 | the digits `str()` writes read back as the number |
| Strings.ReplaceAbsent | backend/auth_helpers.py:32 | replacing a pattern that does not occur changes nothing |
| Strings.Strip | backend/engineer_routes.py:112-116 | `str.strip()` is a slice of the input with only white space around it, and neither starts nor ends with white space |
| Strings.StripTrimmed | backend/engineer_routes.py:112-116 | a text without surrounding white space is its own strip |
| Strings.FirstWord | backend/engineer_routes.py:162 | the first word of `split()` holds no white space and is no longer than the text |
| Strings.LeadingSpaces | backend/engineer_routes.py:162 | the count of opening white space: everything before it is white space and the character at it is not |
| Strings.FirstWordAfterBlanks | backend/engineer_routes.py:162 | the first word is the maximal run of non-space characters that starts where the leading white space ends, at the one position before which all is blank and at which a non-space stands |
| Strings.LikeContains | backend/engineer_routes.py:162 | `name.contains(word)` holds exactly when the word occurs at some position of the name, character by character up to ASCII case |
| Strings.FirstWordNonEmpty | backend/engineer_routes.py:162 | the first word is empty exactly when the text is blank, when `split()[0]` would raise |
| Models.FindUser | backend/app.py:612-615 | the first row with the id, or none exactly when no row has it |
| Models.FindPlan | backend/app.py:577 | a plan with the id taken from the table, or none exactly when there is none |
| Models.InsertUser | backend/models.py:37-40 | the commit succeeds exactly when id, phone and cs_id are all new; it appends the row and keeps the keys unique |
| Models.AppendKeepsInvariants | backend/models.py:37-40 | a row with fresh keys, Active if its plan is active, keeps both table invariants |
| Models.ReplaceKeepsActive | backend/models.py:50-60 | rewriting a row with one that is Active when its plan is active keeps the activity invariant |
| Models.ReplaceKeepsUnique | backend/models.py:37-40 | rewriting a row without changing its keys, and with a phone nobody else has, keeps keys unique |
| Models.InsertInvoice | backend/models.py:155-183 | an invoice insert needs a number (NOT NULL) and a fresh id and number; it applies the column defaults and keeps the keys unique |
| Models.InsertEngineer | backend/models.py:74-76 | an engineer insert succeeds exactly when id and mobile are new, and keeps them unique |
| Schemas.PriceAccepted | backend/schemas.py:31-42 | a plan price passes exactly when it is in (0, 100000] |
| Schemas.PhoneAccepted | backend/schemas.py:64-77 | a subscriber phone passes exactly when it is ten digits |
| Schemas.DigitsToEnd | backend/schemas.py:81 | `\d+$` matches digits to the end, or digits then one final newline |
| Schemas.MoreDigitsToEnd | backend/schemas.py:81 | `\d*$` matches digits to the end, optionally followed by one final newline |
| Schemas.CsIdPattern | backend/schemas.py:79-83 | a cs_id passes exactly when it is "CS_" then what `\d+$` accepts |
| Schemas.CsIdTrailingNewline | backend/schemas.py:81 | "CS_12\n" passes; "CS_" and "cs_12" do not |
| Schemas.MobileValidator | backend/schemas.py:195-201 | an engineer's mobile or emergency contact passes when absent or empty, or when it is ten digits |
| Schemas.GstinFrom | backend/schemas.py:320 | the GSTIN pattern positions from `i` on hold exactly when each character is in its class |
| Schemas.GstinValidator | backend/schemas.py:316-322 | the GSTIN validator accepts absent or empty values, or the 15-character pattern with at most one final newline |
| Schemas.GstinFieldAccepted | backend/schemas.py:295-322 | with the length constraint first, a GSTIN passes exactly when absent or exactly matching the 15 positions |
| Schemas.GstinExample | backend/schemas.py:320-321 | "22AAAAA0000A1Z5" passes, and with X in place of the fixed Z it fails |
| Schemas.PinAcceptedOnCreate | backend/schemas.py:294-306 | the create-time pin passes exactly when it is six digits |
| Schemas.PinValidatorOnUpdate | backend/schemas.py:344-350 | the update-time pin validator alone passes absent or empty values, or six digits |
| Schemas.PinAcceptedOnUpdate | backend/schemas.py:338-350 | with the length constraint first, an update-time pin passes exactly when absent or six digits |
| Schemas.EmptyPinOnUpdate | backend/schemas.py:338-350 | an empty pin would pass the validator but fails the field's length constraint |
| Schemas.ContactAccepted | backend/schemas.py:296-314 | a contact number passes exactly when absent or ten digits |
| Accounts.PlanDates | backend/app.py:371-373 | a new plan expires one calendar month after its start, day clipped, and payment falls due 15 days after it; none when a year would pass 9999 |
| Accounts.NewSubscriber | backend/app.py:398-416 | a created subscriber carries the form's cs_id, name, phone, email, password, address and plan id, is active and Active, owes nothing, has payment Pending, and has the given dates readable back |
| Accounts.StartDate | backend/app.py:368-369 | the start date is the sent one if non-empty, else today |
| Accounts.CreateUser | backend/app.py:337-416 | a required form field sent empty is 422 before anything else; a malformed phone is 400, a phone in use is 400, an unreadable start date is an error; the insert succeeds exactly when every required field is non-empty, the phone is well formed and free, the start date reads, the plan dates fit and the id and cs_id are free, and then one row is appended |
| Accounts.CreateUserKeepsInvariants | backend/app.py:398-416 | a successful create keeps keys unique and every active plan Active |
| Accounts.IfTruthy | backend/app.py:472-491 | a field is overwritten only by a value that was sent non-empty |
| Accounts.Patched | backend/app.py:471-491 | an edit writes each field sent non-empty and leaves every other column, keys included, unchanged |
| Accounts.UpdateUser | backend/app.py:466-491 | an unknown id is 404; a new phone must be well formed and not held by another subscriber; success keeps keys unique, and keeps the activity invariant unless the status is overridden to something other than Active |
| Accounts.StatusOverrideBreaksInvariant | backend/app.py:488-489 | overriding an active subscriber's status to Suspended breaks "active plan means Active" |
| Accounts.DeletePlan | backend/app.py:302-313 | deleting a plan is 404 for an unknown id and refused while a subscriber is on it; it succeeds exactly when the plan exists and no subscriber is on it, and then the table is the old one without its first row with the id, every other row kept in order, and every subscriber's plan still resolves |
| Accounts.DeleteRow | backend/app.py:311-312 | cutting the found row out leaves one row fewer, only old rows, no row with the id when ids are unique, and every subscriber's plan resolving |
| Billing.MovedExpiry | backend/app.py:622-630 | the moved expiry is the stored date plus `months` calendar months; an unreadable date is an error; a reduction landing before now is refused |
| Billing.RenewalMessageWording | backend/app.py:639-646 | for any non-zero change the message opens "Plan reduced by " exactly when months < 0 and "Plan extended by " exactly when months > 0, ends in "s" exactly when the magnitude is not one, and the digits in between read back as the magnitude |
| Billing.RenewalMessagesSingular | backend/app.py:639-646 | example: a magnitude of one says "month" |
| Billing.RenewalMessagesPlural | backend/app.py:639-646 | examples: 3 and -12 say "months", with "extended" and "reduced" |
| Billing.RenewOrReduce | backend/app.py:612-647 | months outside [-12, 12] are 422, an unknown subscriber is 404, zero months is 400; success moves the expiry, reactivates the plan and sets status Active |
| Billing.RenewKeepsInvariants | backend/app.py:632-635 | a renewal keeps keys unique and every active plan Active |
| Billing.ReduceRefusedIff | backend/app.py:626-630 | after midnight, a reduction is refused exactly when the reduced expiry is not after today |
| Billing.RenewedRow | backend/app.py:632-635 | after a renewal the subscriber is found at the same position, and its stored expiry reads back as the moved date |
| Billing.MoveThereAndBack | backend/app.py:622-630 | on a future expiry whose day fits, extending by `n` months and then reducing by `n` gives back the original date |
| Billing.ExtendThenReduce | backend/app.py:612-635 | through the handler, renewing by `n` and then by `-n` restores the stored expiry |
| Billing.NextLedgerId | backend/models.py:92 | a new ledger row's id is at least 1 and above every existing id |
| Billing.PlanName | backend/app.py:588-591 | a plan name is found exactly when a plan with that id exists |
| Billing.KnownPlanId | backend/app.py:588-591 | the ledger records a plan id only when that plan exists |
| Billing.UpdateBilling | backend/app.py:559-596 | an invalid body is 422 and an unknown subscriber 404; otherwise plan, payment status, arrears and due date are overwritten and one ledger row with the old and new values is appended |
| Billing.UpdateBillingKeepsInvariants | backend/app.py:569-596 | a billing edit keeps keys unique, every active plan Active, and ledger ids unique |
| Billing.Overwrite | backend/app.py:674-686 | a correction field takes the sent value, and otherwise keeps the old one |
| Billing.RefreshedName | backend/app.py:680-686 | after a plan id is written, the stored plan name is looked up again; a null or absent id keeps the old name |
| Billing.ApplyLedgerPatch | backend/app.py:674-686 | a correction overwrites exactly the fields sent, never the id, user or admin, and refreshes plan names |
| Billing.EmptyPatchIdentity | backend/app.py:674-677 | an empty correction changes nothing |
| Billing.NullPlanIdKeepsName | backend/app.py:676-686 | writing a null plan id clears the id but keeps the stale plan name |
| Billing.FindEntry | backend/app.py:669 | the ledger lookup finds the first entry with the id, or none exactly when there is none |
| Billing.UpdateLedgerEntry | backend/app.py:669-689 | a correction is 404 exactly for an unknown id; otherwise only that entry changes, and ledger ids stay unique |
| Billing.DeleteLedgerEntry | backend/app.py:703-708 | a delete is 404 exactly for an unknown id; otherwise the ledger is the old one without its first entry with the id, the others kept in order, and ids stay unique |
| Expiry.Sweep | backend/plan_expiry_checker.py:22-43 | the sweep keeps one row per subscriber; which rows it changes is stated by `Expiry.SweepPointwise` |
| Expiry.Expire | backend/plan_expiry_checker.py:29-43 | an expired subscriber is inactive and Expired, with payment Pending and a new due date; every other column, arrears included, is kept |
| Expiry.SweepPointwise | backend/plan_expiry_checker.py:22-43 | the sweep expires exactly the active rows with expiry not after today, and leaves every other row as it was |
| Expiry.SweepKeeps | backend/plan_expiry_checker.py:33-43 | the sweep never writes keys, contact data, plan id, plan dates or arrears |
| Expiry.SweepIdempotent | backend/plan_expiry_checker.py:22-41 | after a sweep no row is selected, and a second sweep on the same day changes nothing |
| Expiry.SweepPreservesInvariants | backend/plan_expiry_checker.py:33-34 | the sweep keeps keys unique and every active plan Active |
| Expiry.SelectedByDate | backend/plan_expiry_checker.py:19-25 | on formatted dates the string filter selects exactly the active plans expiring on or before today |
| Expiry.ExpireAll | backend/plan_expiry_checker.py:27-45 | the loop's count is the number of selected rows, and the table it leaves is the sweep |
| Expiry.NoneChosen | backend/plan_expiry_checker.py:22-45 | the count is zero exactly when no row is selected |
| Expiry.CheckAndExpire | backend/plan_expiry_checker.py:9-63 | a run succeeds exactly when the commit goes through and, if anyone is selected, today plus 15 days exists; success reports the count and the sweep with that due date; failure rolls back to the unchanged table with no count |
| Dashboard.PriceOf | backend/app.py:824-826 | a subscriber's price exists exactly when its plan does, and is that plan's price |
| Dashboard.Revenue | backend/app.py:818-826 | with non-negative prices the month's revenue is non-negative |
| Dashboard.Collection | backend/app.py:828-833 | with non-negative prices and arrears, the collection still due is non-negative |
| Dashboard.OldDebt | backend/app.py:835 | with non-negative arrears the total old debt is non-negative |
| Dashboard.DashboardStats | backend/app.py:814-844 | the counts never exceed the total; the active count is zero exactly when no plan is active; the money figures are non-negative under those assumptions |
| Dashboard.SumsAppend | backend/app.py:818-835 | revenue, collection and old debt add up over two tables put together |
| Dashboard.StatsOfNewRow | backend/app.py:814-835 | a new row raises the total by one, the active count by one exactly when its plan is active, the pending count by one exactly when its payment is Pending, and each money figure by that row's own share; an empty table reports zeros |
| Dashboard.SweepCounts | backend/app.py:815-816 | after a sweep the active count drops by exactly the rows expired, and the pending count rises by the expired rows that were not Pending |
| Dashboard.SweepMoney | backend/app.py:822-835 | the sweep keeps total old debt, never raises revenue, and never lowers the collection still due |
| Installations.ValidateMobile | backend/engineer_routes.py:30-37 | after dropping non-digits, a mobile passes exactly when ten digits remain and the first is 6 to 9; otherwise the error names the length or the prefix |
| Installations.ValidateMobileIdempotent | backend/engineer_routes.py:30-37 | a normalised number validates to itself |
| Installations.ValidateMobileSeparator | backend/engineer_routes.py:32 | "98765 43210" normalises to "9876543210" |
| Installations.ValidateMobileCountryCode | backend/engineer_routes.py:32-34 | "+91" before ten digits leaves twelve digits, which is refused for length |
| Installations.ValidateMobilePrefix | backend/engineer_routes.py:35-36 | example: ten digits starting with 1 are refused for the prefix |
| Installations.ChoosePlan | backend/engineer_routes.py:162-166 | a blank plan name is an error, and so is an empty catalogue; otherwise a plan from the catalogue, the first containing the name's first word if any does, else the first plan |
| Installations.CustomerCode | backend/engineer_routes.py:168 | the customer code is "CS_" followed by the mobile's last four digits |
| Installations.CheckOnboarding | backend/engineer_routes.py:95-125 | a required form field (name, mobile, address, plan, password) sent empty is 422 first; onboarding passes exactly when those fields are non-empty, the mobile validates, the password has 6 characters, the stripped name 2 and address 10, the mobile is unused and the files are small enough; the mobile error comes first, the password error second, and success yields the normalised mobile |
| Installations.NewCustomer | backend/engineer_routes.py:170-189 | an onboarded customer awaits installation, has an inactive plan, owes nothing and has email defaulting to `<mobile>@4you.in` |
| Installations.AddCustomer | backend/engineer_routes.py:95-201 | a failed check, the 422 for an empty required field included, returns its error; on success exactly one row is appended, with the stored plan and dates |
| Installations.AddCustomerSucceeds | backend/engineer_routes.py:95-201 | onboarding succeeds exactly when the required fields are non-empty and the checks pass, the dates fit, the plan is found, and the id, mobile and customer code are free |
| Installations.AddCustomerKeepsInvariants | backend/engineer_routes.py:170-191 | onboarding keeps keys unique and adds no active plan |
| Installations.SharedLastFourDigits | backend/engineer_routes.py:168-191 | a second customer whose mobile ends in the same four digits cannot be onboarded |
| Installations.TaskSummary | backend/engineer_routes.py:210-236 | the task counts are the number of listed installations in each status, and they add up to the total |
| Installations.FindInstallation | backend/engineer_routes.py:266 | the first installation of the customer, or none exactly when there is none |
| Installations.Schedule | backend/engineer_routes.py:266-279 | scheduling updates the customer's first installation record and no other; with none it appends a new one, refused only for a taken id |
| Installations.ScheduleTask | backend/engineer_routes.py:257-279 | a missing date is 400 and an unreadable one 400; it succeeds exactly when the date is present and readable and the installation write succeeds; success sets only the customer's status, to Installation Scheduled, stores the date in ISO form, keeps keys unique, and keeps the activity invariant for a customer without an active plan |
| Installations.Activated | backend/engineer_routes.py:283-292 | completion makes the customer Active with an active plan and new start, expiry and due dates, touching nothing else |
| Installations.CompleteInstallation | backend/engineer_routes.py:294-297 | the customer's installation record, if any, is marked completed today, and no other record changes |
| Installations.CompleteTask | backend/engineer_routes.py:281-297 | completion succeeds from any status unless a plan date passes year 9999, activating the customer and completing the installation record |
| Installations.CompleteTaskKeepsInvariants | backend/engineer_routes.py:288-292 | completion keeps keys unique and every active plan Active |
| Installations.UpdateTask | backend/engineer_routes.py:242-301 | a status sent empty is 422 before the lookup; an unknown customer is 404 and any status but the two task statuses 400; otherwise it takes the scheduling or completion branch, keeps keys unique, and completion keeps the activity invariant |
| Installations.ScheduleInThePast | backend/engineer_routes.py:260-265 | a scheduled date in the past is accepted |
| Installations.ScheduleActiveCustomer | backend/engineer_routes.py:265 | scheduling a customer whose plan is already active breaks "active plan means Active" |
| Notifications.Recipients | backend/notification_service.py:30-54 | a run reaches one subscriber per selected row with an existing plan |
| Notifications.RecipientsSound | backend/notification_service.py:30-35 | everyone reached was selected, is in the table, and is paired with its own plan |
| Notifications.RecipientsComplete | backend/notification_service.py:30-35 | every selected subscriber whose plan exists is reached |
| Notifications.NoticeFor | backend/notification_service.py:37-129 | payment-due notices go by email and WhatsApp and quote price plus arrears; expiry reminders go by WhatsApp and quote the price; expired notices go by email and quote no amount |
| Notifications.Tomorrow | backend/notification_service.py:21 | tomorrow's text reads back as today plus one day, when that date exists |
| Notifications.Selection | backend/notification_service.py:21-115 | every run has a selection, except the tomorrow-based runs on the last representable day |
| Notifications.Notices | backend/notification_service.py:30-54 | one notice per recipient row, in order, each the run's message for that subscriber and plan |
| Notifications.Send | backend/notification_service.py:14-136 | a run fails only on date overflow; otherwise it sends one notice per recipient and reports their number |
| Notifications.SendNotice | backend/notification_service.py:29-54 | each notice of a run is that run's message to a selected subscriber with an existing plan |
| Notifications.PaymentDueNotice | backend/notification_service.py:21-54 | each payment-due notice goes to a Pending subscriber due tomorrow, by email and WhatsApp, and quotes plan price plus arrears |
| Notifications.ExpiringNotice | backend/notification_service.py:69-93 | each expiry reminder goes by WhatsApp to an active plan expiring tomorrow |
| Notifications.ExpiredNotice | backend/notification_service.py:108-131 | each expired notice goes by email, quoting nothing, to an inactive plan that expired before today |
| Notifications.PaymentDueReachesAll | backend/notification_service.py:24-54 | every Pending subscriber with a plan whose stored due date is tomorrow's text is reminded |
| Notifications.UnpaddedDueDateMissed | backend/notification_service.py:21-27 | a due date stored unpadded ("2025-1-5") names tomorrow but is not selected |
| Notifications.SendAll | backend/notification_service.py:139-159 | the combined run reports success exactly when tomorrow's date exists, and then holds the result of each of the three runs |
| Notifications.ExpiringTomorrowSweptTomorrow | backend/notification_service.py:69-75 | a plan reminded as expiring tomorrow survives today's sweep and is picked by tomorrow's |
| Notifications.ExpiredNoticeADayLate | backend/notification_service.py:108-115 | a plan expired by today's sweep gets its expired notice only in tomorrow's run |
| InvoicePdf.Bill | backend/pdf_generator.py:141-155 | the items are the plan row, plus an arrears row exactly when arrears are positive; GST is 18% of the subtotal; the total is subtotal plus GST |
| InvoicePdf.BillTotal | backend/pdf_generator.py:152-155 | the total is 1.18 times price plus arrears, and is at least the subtotal when that is non-negative |
| InvoicePdf.BillExample | backend/pdf_generator.py:152-155 | example: a 999 plan with nothing owed bills 179.82 GST and 1178.82 in all |
| InvoicePdf.CreditNotShown | backend/pdf_generator.py:142-152 | negative arrears get no row but still lower the subtotal, so the printed rows do not add up to it |
| InvoicePdf.Timestamp | backend/pdf_generator.py:37 | the time stamp is fifteen characters, digits around one underscore; its fields read back as the year, month and day, and as hours below 24, minutes and seconds below 60 that recombine to the second of the day |
| InvoicePdf.InvoiceNumber | backend/pdf_generator.py:38 | the invoice number is the given one, else "INV-" followed by the time stamp |
| InvoicePdf.FileName | backend/pdf_generator.py:39 | the file name is "invoice_" + number + ".pdf" |
| InvoicePdf.NumberOfFileName | backend/pdf_generator.py:39 | a file name of the right shape yields a number twelve characters shorter |
| InvoicePdf.FileNameRoundTrip | backend/pdf_generator.py:39 | the number is recovered from its file name |
| InvoicePdf.FileNameInjective | backend/pdf_generator.py:39 | different invoice numbers give different file names |
| InvoicePdf.AsciiOnly | backend/pdf_generator.py:212 | the filter keeps only characters below code point 128 and never lengthens the text |
| InvoicePdf.AsciiOnlyConcat | backend/pdf_generator.py:212 | filtering a concatenation is concatenating the filtered parts, so the kept characters keep their order |
| InvoicePdf.AsciiOnlySingle | backend/pdf_generator.py:212 | one character is kept exactly when it is ASCII |
| InvoicePdf.AsciiOnlyOfAscii | backend/pdf_generator.py:212 | ASCII text passes unchanged |
| InvoicePdf.Sanitize | backend/pdf_generator.py:209-213 | sanitised text is the first `maxLen` characters of the ASCII-filtered text |
| InvoicePdf.SanitizeTwice | backend/pdf_generator.py:209-213 | sanitising again with a limit no larger is sanitising once with that limit |
| InvoicePdf.SanitizeIdempotent | backend/pdf_generator.py:209-213 | sanitising is idempotent |
| InvoicePdf.UpiLinkFor | backend/pdf_generator.py:190-227 | the payee is the configured UPI id, else the default, and the name is sanitised to 35; the amount is the total in INR; the three invoice references appear exactly when there is a number |
| InvoicePdf.TidIsShortTr | backend/pdf_generator.py:225-227 | the `tid` reference is the `tr` reference cut to 35 characters |
| InvoicePdf.GenerateInvoice | backend/pdf_generator.py:37-228 | the file name encodes the invoice number, absent price and arrears count as 0, and the UPI amount equals the invoice total |
| Auth.TokenFromHeader | backend/auth_helpers.py:15-32 | a missing header is 401 and one not starting with "Bearer " is 401; otherwise every "Bearer " occurrence is removed |
| Auth.TokenOfBearer | backend/auth_helpers.py:25-32 | "Bearer " followed by a token that does not contain it yields the token |
| Auth.InnerBearerRemoved | backend/auth_helpers.py:32 | a "Bearer " inside the token is removed as well |
| Auth.InnerBearerRemovedAll | backend/auth_helpers.py:25-32 | for any two parts free of "Bearer ", the header "Bearer " + a + "Bearer " + b yields the token a + b |
| Auth.BearerClean | backend/auth_helpers.py:32 | no "Bearer " can start inside a part free of it and run into a "Bearer " that follows |
| Auth.CleanThenBearer | backend/auth_helpers.py:32 | a part free of "Bearer ", then "Bearer ", then another such part, loses exactly the middle "Bearer " |
| Auth.Subject | backend/auth_helpers.py:47-59 | a subject is accepted exactly when the token decodes, names a subject and carries the expected role; every later failure is the same 401 |
| Auth.OneRolePerToken | backend/auth_helpers.py:53-55 | a token accepted for one role is refused for any other |
| Auth.CurrentCustomer | backend/auth_helpers.py:47-73 | an existing customer is let in unless Suspended, which is 403; an unknown one is 401 |
| Auth.FindEngineer | backend/auth_helpers.py:102 | an engineer with the id, or none exactly when there is none |
| Auth.CurrentEngineer | backend/auth_helpers.py:88-114 | only an existing Active engineer is let in; any other status is 403 |
| Auth.FindAdmin | backend/auth_helpers.py:143 | an administrator with the id, or none exactly when there is none |
| Auth.CurrentAdmin | backend/auth_helpers.py:129-148 | any existing administrator is let in; every failure is 401 |
| PlanCatalog.DigitRun | backend/plan_routes.py:14 | the longest prefix made only of digits |
| PlanCatalog.DigitRunConcat | backend/plan_routes.py:14 | a digit run followed by a non-digit reads as that run |
| PlanCatalog.ToInt | backend/plan_routes.py:11-15 | nothing when the value has no digit; otherwise the value of the first maximal run of digits |
| PlanCatalog.ToIntShow | backend/plan_routes.py:14-15 | a number followed by a unit, as in "300 Mbps", reads back as the number |
| PlanCatalog.ToIntNoDigitExample | backend/plan_routes.py:14-15 | example: "Unlimited" gives no number |
| PlanCatalog.ListPlan | backend/plan_routes.py:22-32 | a listing keeps the plan's fields; the speed is a number when one can be read, else the text; a data limit with no digit means unlimited |
| PlanCatalog.ListPlans | backend/plan_routes.py:19-32 | the catalogue lists every plan, in storage order |
| BillingSettings.OptionalLine | backend/billing_routes.py:37-44 | an optional line appears exactly when its value is non-empty |
| BillingSettings.AddressText | backend/billing_routes.py:30-44 | the address block opens with a newline and then the full name |
| BillingSettings.QrText | backend/billing_routes.py:30-53 | the QR payload is a slice of the address block with only white space cut from its ends, and it neither starts nor ends with white space |
| BillingSettings.QrTextStartsWithName | backend/billing_routes.py:30-53 | a name without surrounding white space opens the QR payload |
| BillingSettings.AddressTextUpiOnly | backend/billing_routes.py:30-44 | with only a UPI id among the optional fields, the block is the address lines then a blank line and the UPI line |
| BillingSettings.QrTextUpiOnly | backend/billing_routes.py:30-53 | in that case the QR payload is exactly those lines |
| BillingSettings.NewestIndex | backend/billing_routes.py:79 | the position of a record with the highest id |
| BillingSettings.GetSettings | backend/billing_routes.py:79-89 | reading settings is 404 exactly on an empty table, and otherwise returns the record with the highest id |
| BillingSettings.FormAddress | backend/billing_routes.py:114-124 | a created address takes the form's fields, with the country defaulting to India |
| BillingSettings.CreateSettings | backend/billing_routes.py:105-145 | an invalid body is 422 and an existing record 400; otherwise the one record holds the form's address, the layout defaulting to "card", and a QR code of that address |
| BillingSettings.CreateThenGet | backend/billing_routes.py:129-145 | what is created is what is read back |
| BillingSettings.GivenOptional | backend/billing_routes.py:180-182 | an optional field sent replaces the stored one, and one not sent keeps it |
| BillingSettings.Patched | backend/billing_routes.py:178-184 | each address field sent replaces the stored one, and every other field is kept |
| BillingSettings.Updated | backend/billing_routes.py:175-199 | when an address field is sent the QR code encodes the new address; otherwise address and QR code are kept; the layout is overwritten only when sent |
| BillingSettings.FindSettings | backend/billing_routes.py:165 | a record with the id, or none exactly when there is none |
| Tables.FirstIndex | backend/app.py:302 | a `.filter(...).first()` query: the position of the first row that passes the filter, none exactly when no row does |
| BillingSettings.UpdateSettings | backend/billing_routes.py:165-199 | an invalid patch is 422 and an unknown id 404; otherwise that one record is rewritten and returned |
| BillingSettings.EmptyPatchIdentity | backend/billing_routes.py:178-187 | a patch that sends nothing changes nothing |
| BillingSettings.LayoutOnlyKeepsQr | backend/billing_routes.py:183-187 | changing only the layout keeps the stored QR code |
| BillingSettings.UpdateIdempotent | backend/billing_routes.py:178-199 | applying a patch twice is applying it once |
| BillingSettings.RewriteRefreshesQr | backend/billing_routes.py:180-199 | rewriting a field to its current value still regenerates the QR code |
| BillingSettings.DeleteSettings | backend/billing_routes.py:224-233 | a delete is 404 exactly for an unknown id; otherwise that record goes |
| BillingSettings.CreateKeepsConsistent | backend/billing_routes.py:105-141 | after a create there is one record and its QR code is current |
| BillingSettings.UpdateKeepsConsistent | backend/billing_routes.py:175-199 | an update keeps the table consistent, and the returned record's QR code is current |
| BillingSettings.DeleteKeepsConsistent | backend/billing_routes.py:224-233 | a delete keeps the table consistent |
| BillingSettings.GetOnlyRecord | backend/billing_routes.py:79 | in a consistent table, reading returns the one record there is |

## Left out

- HTTP plumbing is left out: routing, dependency injection, response serialisation and CORS. Only the status codes and error kinds of each handler are modelled.
- Of FastAPI's request validation, only the 422 for a required `Form(...)` field sent empty is modelled (`Accounts.NewUserComplete`, `Installations.OnboardingComplete`, the status check of `Installations.UpdateTask`). A missing multipart part or a malformed upload is not. The authentication dependency runs before this validation, so in the program a 401 or 403 comes before the 422; the handlers here take the authenticated caller as given.
- Uploaded files are left out. Photo and document storage is I/O, and only the size rule `validate_file_size` is kept (`Installations.FilesAcceptable`).
- Token signing, password hashing and JWT decoding are left out. Decoding is the parameter `decode`, and `None` stands for any decoding failure.
- Sending email and WhatsApp messages is left out: a run produces the notices it would hand over. The background scheduler is left out too; `CheckAndExpire` and `SendAll` are the jobs it triggers.
- The QR image and its base64 encoding are left out. The stored QR data is modelled by the text it encodes.
- Timestamps are left out (`updated_at`, `created_at` with time of day, and the millisecond row ids). Row ids are parameters, and the clock is a date plus whether the current instant is after midnight.
- Years above 9999 are left out. Where Python raises on date overflow, the model returns an error. `IsoDates.Format` and `InvoicePdf.Timestamp` pad years below 1000 to four digits.
- Unicode normalisation and case folding beyond ASCII are left out. `Strings.IsSpace` is Python's white-space set below U+0100 only.
- SQL `LIKE` is modelled as a substring test that ignores ASCII case (`Strings.LikeContains`). A `%` or `_` inside the requested plan word is taken literally, where SQLite would treat it as a wildcard.
- Floating point is left out. Prices and invoice amounts are `real`, so no rounding happens, and the PDF's two-decimal formatting is not modelled.
- Invoice sequencing and the invoice endpoints are left out. `Models.InsertInvoice` models the table's constraints. `Schemas.InvoiceMonthsAccepted` is a predicate with no handler using it.
- `EmailStr` validation is left out; email addresses are opaque strings.
- Foreign-key enforcement is left out. Deleting a plan is guarded by the handler's own check, and `Accounts.DeletePlan` proves that check keeps plan ids resolving.
- PDF layout, fonts and the document as bytes are left out. `InvoicePdf` states what the invoice says.
- Company settings given to the PDF with a key present but set to None are treated as a missing key.
- Dashboard.Revenue: states non-negativity and additivity (`Dashboard.SumsAppend`) rather than a closed form over the verified rows. The definition itself is row by row.
- Dashboard.DashboardStats: the counts are characterised row by row (`Dashboard.StatsOfNewRow`), not as set cardinalities.
- Digits are the ASCII digits only. Python's `str.isdigit`, `\d`, `\D` and `int()` also accept other Unicode decimal digits; `Schemas.PhoneAccepted`, `Installations.ValidateMobile`, the PIN-code checks, `Schemas.GstinFrom` and `PlanCatalog.ToInt` do not model those.
- The other operations in the repository are not part of this model: exports, backups, migrations, configuration generation and the email/WhatsApp transport services.

## Notes on the code as written

Behaviours of the handlers that a reader might not expect, each stated by a lemma:

- A reduction by negative months that is accepted also sets the plan active and the status to "Active" (`Billing.RenewOrReduce`), even for a plan that had expired.
- The administrator's status override can write any status, and scheduling an installation for an already-active customer writes "Installation Scheduled". Either breaks "an active plan means status Active" (`Accounts.StatusOverrideBreaksInvariant`, `Installations.ScheduleActiveCustomer`). Every other mutating operation keeps it.
- Ledger entries are not append-only: `PUT /api/billing-history/{id}` rewrites an entry in place and `DELETE` removes it (`Billing.UpdateLedgerEntry`, `Billing.DeleteLedgerEntry`).
- Onboarding creates no installation row. Scheduling inserts one when there is none (`Installations.Schedule`).
- The customer code keeps only the mobile's last four digits, so two customers whose mobiles share them cannot both be onboarded (`Installations.SharedLastFourDigits`).
- Scheduling accepts a date in the past (`Installations.ScheduleInThePast`).
- Reminder selection compares stored text with a zero-padded date. A due date stored unpadded, which `strptime` accepts, is never reminded (`Notifications.UnpaddedDueDateMissed`).
- An expired-plan notice goes out a day after the sweep expires the plan (`Notifications.ExpiredNoticeADayLate`).
- Every "Bearer " in the header is removed, not only the leading one (`Auth.InnerBearerRemoved`).
- Negative arrears get no invoice row but still lower the subtotal (`InvoicePdf.CreditNotShown`).
- The QR code is regenerated whenever an address field is sent, even with the value it already has (`BillingSettings.RewriteRefreshesQr`).
- A blank line separates the address from the optional lines (`BillingSettings.AddressTextUpiOnly`).
- The first of the three reminder runs that fails on date overflow ends the combined run (`Notifications.SendAll`).

=== FILE: accounts.dfy ===
/** The administrator's subscriber and plan maintenance: creating a
    subscriber, editing one, and deleting a plan nobody uses. */
module Accounts {
  import opened Outcomes
  import opened Strings
  import opened Tables
  import opened Calendar
  import opened IsoDates
  import opened Models
  import opened Schemas

  /** The phone rule both handlers apply: `isdigit()` and ten long. */
  predicate PhoneWellFormed(phone: string) {
    IsDigits(phone) && |phone| == 10
  }

  /** The form fields of `POST /api/users`. */
  datatype NewUser = NewUser(
    csId: string, name: string, phone: string, email: string, password: string,
    address: string, planId: string, planStart: Option<string>)

  /** FastAPI reads a required `Form(...)` field sent empty as missing and
      answers 422 before the handler runs. */
  predicate NewUserComplete(f: NewUser) {
    && f.csId != "" && f.name != "" && f.phone != "" && f.email != ""
    && f.password != "" && f.address != "" && f.planId != ""
  }

  /** The plan dates a new subscriber gets from its start date: one calendar
      month of service, payment due fifteen days in; `None` where a date
      would pass year 9999. */
  function PlanDates(start: Date): (r: Option<(Date, Date)>)
    requires InRange(start)
    ensures r.Some? ==> InRange(r.value.0) && InRange(r.value.1)
    ensures r.Some? ==> MonthIndex(r.value.0) == MonthIndex(start) + 1
    ensures r.Some? ==> r.value.0.day == Min(start.day, DaysInMonth(r.value.0.year, r.value.0.month))
    ensures r.Some? ==> Ordinal(r.value.1) == Ordinal(start) + 15
    ensures r.Some? <==> AddMonths(start, 1).year <= 9999 && AddDays(start, 15).year <= 9999
  {
    var expiry := AddMonths(start, 1);
    var due := AddDays(start, 15);
    if expiry.year > 9999 || due.year > 9999 then None else Some((expiry, due))
  }

  /** The row `POST /api/users` inserts: active, nothing pending, dates
      stored as strings that read back as the computed dates. */
  function NewSubscriber(f: NewUser, newId: string, start: Date, expiry: Date, due: Date, today: Date): (u: User)
    requires InRange(start) && InRange(expiry) && InRange(due) && InRange(today)
    ensures u.id == newId && u.csId == f.csId && u.phone == f.phone && u.planId == f.planId
    ensures u.name == f.name && u.email == f.email && u.password == f.password && u.address == f.address
    ensures Parse(u.planStart) == Some(start) && Parse(u.planExpiry) == Some(expiry)
    ensures Parse(u.paymentDue) == Some(due)
    ensures u.paymentStatus == PENDING && u.oldPending == 0
    ensures u.isPlanActive && u.status == ACTIVE
    ensures u.lastRenewal.None? && u.createdAt == Format(today)
  {
    ParseFormat(start);
    ParseFormat(expiry);
    ParseFormat(due);
    User(newId, f.csId, f.name, f.phone, f.email, f.password, f.address, f.planId,
         Format(start), Format(expiry), true, None, PENDING, 0, Format(due), ACTIVE, Format(today))
  }

  /** The start date of a new subscriber: the one sent, or today. */
  function StartDate(f: NewUser, today: Date): (r: Option<Date>)
    ensures Truthy(f.planStart) ==> r == Parse(f.planStart.value)
    ensures !Truthy(f.planStart) ==> r == Some(today)
  {
    if Truthy(f.planStart) then Parse(f.planStart.value) else Some(today)
  }

  /** `POST /api/users`. The new row's id (`usr_<milliseconds>`) comes from
      the clock and is a parameter here; the start date is the one sent or
      today. There is no check that the plan exists. */
  function CreateUser(users: seq<User>, f: NewUser, newId: string, clock: Clock): (r: Result<seq<User>>)
    requires InRange(clock.today)
    ensures !NewUserComplete(f) ==> r == Err(Unprocessable)
    ensures NewUserComplete(f) && !PhoneWellFormed(f.phone) ==> r == Err(BadRequest(PhoneFormat))
    ensures NewUserComplete(f) && PhoneWellFormed(f.phone) && PhoneInUse(users, f.phone) ==> r == Err(BadRequest(PhoneTaken))
    ensures (NewUserComplete(f) && PhoneWellFormed(f.phone) && !PhoneInUse(users, f.phone) && StartDate(f, clock.today).None?)
            ==> r == Err(ServerError(UnparsableDate))
    ensures r.Ok? ==> (
      && NewUserComplete(f) && PhoneWellFormed(f.phone) && !PhoneInUse(users, f.phone)
      && StartDate(f, clock.today).Some?
      && var start := StartDate(f, clock.today).value;
      && PlanDates(start).Some?
      && r.value == users + [NewSubscriber(f, newId, start, PlanDates(start).value.0,
                                           PlanDates(start).value.1, clock.today)])
    // the id and the customer code were free
    ensures r.Ok? ==> forall j :: 0 <= j < |users| ==> users[j].id != newId && users[j].csId != f.csId
    // and it succeeds whenever every check passes
    ensures r.Ok? <==> (
      && NewUserComplete(f) && PhoneWellFormed(f.phone) && !PhoneInUse(users, f.phone)
      && StartDate(f, clock.today).Some? && PlanDates(StartDate(f, clock.today).value).Some?
      && forall j :: 0 <= j < |users| ==> users[j].id != newId && users[j].csId != f.csId)
  {
    if !NewUserComplete(f) then Err(Unprocessable)
    else if !PhoneWellFormed(f.phone) then Err(BadRequest(PhoneFormat))
    else if exists j :: 0 <= j < |users| && users[j].phone == f.phone then Err(BadRequest(PhoneTaken))
    else
      match StartDate(f, clock.today)
      case None => Err(ServerError(UnparsableDate))
      case Some(start) =>
        match PlanDates(start)
        case None => Err(ServerError(DateOutOfRange))
        case Some((expiry, due)) =>
          InsertUser(users, NewSubscriber(f, newId, start, expiry, due, clock.today))
  }

  /** A new subscriber is appended with fresh keys, active and Active. */
  lemma CreateUserKeepsInvariants(users: seq<User>, f: NewUser, newId: string, clock: Clock)
    requires InRange(clock.today)
    requires CreateUser(users, f, newId, clock).Ok?
    ensures UsersUnique(users) ==> UsersUnique(CreateUser(users, f, newId, clock).value)
    ensures ActiveMeansActive(users) ==> ActiveMeansActive(CreateUser(users, f, newId, clock).value)
  {
    var start := StartDate(f, clock.today).value;
    var dates := PlanDates(start).value;
    var u := NewSubscriber(f, newId, start, dates.0, dates.1, clock.today);
    AppendKeepsInvariants(users, u);
  }

  /** The text fields of `PUT /api/users/{id}`; `None` is a field not sent.
      Only non-empty values are written. */
  datatype UserPatch = UserPatch(
    name: Option<string>, phone: Option<string>, email: Option<string>,
    password: Option<string>, address: Option<string>, status: Option<string>,
    planId: Option<string>)

  /** `v` when it was sent non-empty, else the current value. */
  function IfTruthy(current: string, v: Option<string>): (r: string)
    ensures Truthy(v) ==> r == v.value
    ensures !Truthy(v) ==> r == current
  {
    if Truthy(v) then v.value else current
  }

  /** The row after writing every non-empty field of the patch. */
  function Patched(u: User, p: UserPatch): (r: User)
    ensures r.id == u.id && r.csId == u.csId
    ensures r.name == IfTruthy(u.name, p.name) && r.phone == IfTruthy(u.phone, p.phone)
    ensures r.email == IfTruthy(u.email, p.email) && r.password == IfTruthy(u.password, p.password)
    ensures r.address == IfTruthy(u.address, p.address) && r.status == IfTruthy(u.status, p.status)
    ensures r.planId == IfTruthy(u.planId, p.planId)
    // the plan dates and billing fields are never touched
    ensures r == u.(name := r.name, phone := r.phone, email := r.email, password := r.password,
                    address := r.address, status := r.status, planId := r.planId)
  {
    u.(name := IfTruthy(u.name, p.name), phone := IfTruthy(u.phone, p.phone),
       email := IfTruthy(u.email, p.email), password := IfTruthy(u.password, p.password),
       address := IfTruthy(u.address, p.address), status := IfTruthy(u.status, p.status),
       planId := IfTruthy(u.planId, p.planId))
  }

  /** Some subscriber other than `id` already has this phone. */
  predicate PhoneHeldByOther(users: seq<User>, phone: string, id: string) {
    exists j :: 0 <= j < |users| && users[j].phone == phone && users[j].id != id
  }

  /** `PUT /api/users/{id}`. A new phone must be well formed and not held
      by a different subscriber; the status is written as given, so an
      administrator can set any status regardless of the plan. */
  function UpdateUser(users: seq<User>, id: string, p: UserPatch): (r: Result<seq<User>>)
    ensures FindUser(users, id).None? ==> r == Err(NotFound)
    ensures (FindUser(users, id).Some? && Truthy(p.phone) && !PhoneWellFormed(p.phone.value))
            ==> r == Err(BadRequest(PhoneFormat))
    ensures (FindUser(users, id).Some? && Truthy(p.phone) && PhoneWellFormed(p.phone.value))
            ==> (r == Err(BadRequest(PhoneTaken)) <==> PhoneHeldByOther(users, p.phone.value, id))
    ensures r.Ok? <==> FindUser(users, id).Some?
                       && (Truthy(p.phone) ==> PhoneWellFormed(p.phone.value) && !PhoneHeldByOther(users, p.phone.value, id))
    ensures r.Ok? ==> (
      var i := FindUser(users, id).value;
      && |r.value| == |users|
      && r.value[i] == Patched(users[i], p)
      && (forall j :: 0 <= j < |users| && j != i ==> r.value[j] == users[j]))
    ensures r.Ok? && UsersUnique(users) ==> UsersUnique(r.value)
    ensures (r.Ok? && ActiveMeansActive(users) && (!Truthy(p.status) || p.status.value == ACTIVE))
            ==> ActiveMeansActive(r.value)
  {
    match FindUser(users, id)
    case None => Err(NotFound)
    case Some(i) =>
      if Truthy(p.phone) && !PhoneWellFormed(p.phone.value) then Err(BadRequest(PhoneFormat))
      else if Truthy(p.phone) && PhoneHeldByOther(users, p.phone.value, id) then Err(BadRequest(PhoneTaken))
      else
        var u := Patched(users[i], p);
        assert UsersUnique(users) ==> UsersUnique(users[i := u]) by {
          if UsersUnique(users) {
            ReplaceKeepsUnique(users, i, u);
          }
        }
        Ok(users[i := u])
  }

  /** The status override is the one edit that can break "an active plan
      means status Active": suspending a subscriber keeps the plan active. */
  lemma StatusOverrideBreaksInvariant(u: User)
    requires u.isPlanActive && u.status == ACTIVE
    ensures ActiveMeansActive([u])
    ensures var r := UpdateUser([u], u.id, UserPatch(None, None, None, None, None, Some(SUSPENDED), None));
            r.Ok? && !ActiveMeansActive(r.value)
  {
    var r := UpdateUser([u], u.id, UserPatch(None, None, None, None, None, Some(SUSPENDED), None));
    assert r.value[0].isPlanActive && r.value[0].status == SUSPENDED;
  }

  /** Every subscriber's plan id names an existing plan. */
  predicate PlansResolve(users: seq<User>, plans: seq<Plan>) {
    forall i :: 0 <= i < |users| ==> exists j :: 0 <= j < |plans| && plans[j].id == users[i].planId
  }

  /** `DELETE /api/plans/{id}`: refused while any subscriber is on the plan. */
  function DeletePlan(plans: seq<Plan>, users: seq<User>, id: string): (r: Result<seq<Plan>>)
    ensures (forall j :: 0 <= j < |plans| ==> plans[j].id != id) ==> r == Err(NotFound)
    ensures ((exists j :: 0 <= j < |plans| && plans[j].id == id)
             && (exists k :: 0 <= k < |users| && users[k].planId == id)) ==> r == Err(BadRequest(PlanInUse))
    ensures r.Ok? <==> (exists j :: 0 <= j < |plans| && plans[j].id == id)
                       && forall k :: 0 <= k < |users| ==> users[k].planId != id
    ensures r.Ok? ==> |r.value| == |plans| - 1 && forall q :: q in r.value ==> q in plans
    ensures r.Ok? && KeysUnique(plans, (q: Plan) => q.id) ==> forall j :: 0 <= j < |r.value| ==> r.value[j].id != id
    ensures r.Ok? && PlansResolve(users, plans) ==> PlansResolve(users, r.value)
    // exactly the first row with the id goes; every other row stays, in order
    ensures r.Ok? ==> RemovesFirst(plans, (q: Plan) => q.id == id, r.value)
  {
    match FirstIndex(plans, (q: Plan) => q.id == id)
    case None => Err(NotFound)
    case Some(i) =>
      if Count(users, (u: User) => u.planId == id) > 0 then Err(BadRequest(PlanInUse))
      else
        DeleteRow(plans, users, id, i);
        Ok(plans[..i] + plans[i + 1..])
  }

  /** The table left once the first row with the id is cut out of it. */
  lemma DeleteRow(plans: seq<Plan>, users: seq<User>, id: string, i: nat)
    requires i < |plans| && plans[i].id == id && forall j :: 0 <= j < i ==> plans[j].id != id
    requires forall k :: 0 <= k < |users| ==> users[k].planId != id
    ensures var rest := plans[..i] + plans[i + 1..];
      && |rest| == |plans| - 1 && (forall q :: q in rest ==> q in plans)
      && (KeysUnique(plans, (q: Plan) => q.id) ==> forall j :: 0 <= j < |rest| ==> rest[j].id != id)
      && (PlansResolve(users, plans) ==> PlansResolve(users, rest))
      && RemovesFirst(plans, (q: Plan) => q.id == id, rest)
  {
    var rest := plans[..i] + plans[i + 1..];
    assert forall j :: 0 <= j < |plans| && j != i ==> plans[j] in rest by {
      forall j | 0 <= j < |plans| && j != i ensures plans[j] in rest {
        if j < i { assert rest[j] == plans[j]; } else { assert rest[j - 1] == plans[j]; }
      }
    }
  }
}

=== FILE: auth.dfy ===
/** Who may call a protected endpoint: the `Authorization` header must carry
    a bearer token, the token's claims must name a subject and the expected
    role, the subject must exist, and customers and engineers are further
    gated on their status. Decoding and checking the token's signature is a
    parameter: `decode` returns `None` where the JWT library raises. */
module Auth {
  import opened Outcomes
  import opened Strings
  import opened Tables
  import opened Models
  import opened Schemas

  const BEARER := "Bearer "

  /** The claims of a decoded token; a claim may be absent. */
  datatype Claims = Claims(sub: Option<string>, role: Option<string>)

  /** `get_token_from_header`. What is returned is the header with every
      occurrence of "Bearer " removed, not only the leading one. */
  function TokenFromHeader(header: Option<string>): (r: Result<string>)
    ensures !Truthy(header) ==> r == Err(Unauthorized(MissingHeader))
    ensures Truthy(header) && !StartsWith(header.value, BEARER) ==> r == Err(Unauthorized(HeaderFormat))
    ensures r.Ok? <==> Truthy(header) && StartsWith(header.value, BEARER)
    ensures r.Ok? ==> r.value == ReplaceAll(header.value, BEARER, "")
  {
    if !Truthy(header) then Err(Unauthorized(MissingHeader))
    else if !StartsWith(header.value, BEARER) then Err(Unauthorized(HeaderFormat))
    else Ok(ReplaceAll(header.value, BEARER, ""))
  }

  /** A token that does not itself contain "Bearer " comes back intact. */
  lemma TokenOfBearer(token: string)
    requires !Contains(token, BEARER)
    ensures TokenFromHeader(Some(BEARER + token)) == Ok(token)
  {
    var h := BEARER + token;
    assert StartsWith(h, BEARER);
    assert h[|BEARER|..] == token;
    assert h != "";
    ReplaceAbsent(token, BEARER);
    assert ReplaceAll(h, BEARER, "") == "" + ReplaceAll(token, BEARER, "");
    assert TokenFromHeader(Some(h)) == Ok(ReplaceAll(h, BEARER, ""));
    assert ReplaceAll(h, BEARER, "") == token;
  }

  /** A second "Bearer " inside the token is removed too. */
  lemma InnerBearerRemoved()
    ensures TokenFromHeader(Some("Bearer aBearer b")) == Ok("ab")
  {
    var h := "Bearer aBearer b";
    assert StartsWith(h, BEARER);
    var t := h[7..];
    assert t == "aBearer b";
    assert t[..7][0] == 'a' && BEARER[0] == 'B';
    assert !StartsWith(t, BEARER);
    assert t[1..] == "Bearer b";
    assert StartsWith(t[1..], BEARER);
    assert t[1..][7..] == "b";
    assert !Contains("b", BEARER);
    ReplaceAbsent("b", BEARER);
    assert ReplaceAll(t[1..], BEARER, "") == "" + ReplaceAll("b", BEARER, "");
    assert ReplaceAll(t, BEARER, "") == ['a'] + ReplaceAll(t[1..], BEARER, "");
    assert ReplaceAll(h, BEARER, "") == "" + ReplaceAll(t, BEARER, "");
    assert ['a'] + "b" == "ab";
    assert ReplaceAll(h, BEARER, "") == "ab";
    assert TokenFromHeader(Some(h)) == Ok(ReplaceAll(h, BEARER, ""));
  }

  /** "Bearer " has no proper border (its "B" occurs only at the front), so
      in a text free of it no occurrence can start that runs into a
      following "Bearer ". */
  lemma BearerClean(a: string, b: string)
    requires !Contains(a, BEARER)
    ensures forall p :: 0 <= p < |a| ==> !StartsWith((a + (BEARER + b))[p..], BEARER)
  {
    var s := a + (BEARER + b);
    forall p | 0 <= p < |a| ensures !StartsWith(s[p..], BEARER) {
      if |a| - p >= |BEARER| {
        assert s[p..][..|BEARER|] == a[p..p + |BEARER|];
        assert !OccursAt(a, BEARER, p);
      } else {
        var k := |a| - p;
        assert s[p..][k] == s[|a|] == 'B';
        assert 0 < k < |BEARER| && BEARER[k] != 'B';
      }
    }
  }

  /** Every "Bearer " is removed, wherever it stands: a header whose token
      is two parts free of it around one more "Bearer " yields the two parts
      joined. */
  lemma InnerBearerRemovedAll(a: string, b: string)
    requires !Contains(a, BEARER) && !Contains(b, BEARER)
    ensures TokenFromHeader(Some(BEARER + a + BEARER + b)) == Ok(a + b)
  {
    var h := BEARER + (a + (BEARER + b));
    assert h == BEARER + a + BEARER + b;
    assert ReplaceAll(h, BEARER, "") == a + b by {
      ReplaceLeading(a + (BEARER + b), BEARER, "");
      CleanThenBearer(a, b);
    }
    assert StartsWith(h, BEARER) && h != "";
    assert TokenFromHeader(Some(h)) == Ok(ReplaceAll(h, BEARER, ""));
  }

  /** The scan passes a clean part and removes the "Bearer " after it. */
  lemma CleanThenBearer(a: string, b: string)
    requires !Contains(a, BEARER) && !Contains(b, BEARER)
    ensures ReplaceAll(a + (BEARER + b), BEARER, "") == a + b
  {
    assert ReplaceAll(a + (BEARER + b), BEARER, "") == a + ReplaceAll(BEARER + b, BEARER, "") by {
      BearerClean(a, b);
      ReplaceAfterClean(a, BEARER + b, BEARER, "");
    }
    assert ReplaceAll(BEARER + b, BEARER, "") == b by {
      ReplaceLeading(b, BEARER, "");
      ReplaceAbsent(b, BEARER);
    }
  }

  /** The subject of a token issued for `role`. Every failure after the
      header check is the same 401. */
  function Subject(header: Option<string>, decode: string -> Option<Claims>, role: string): (r: Result<string>)
    ensures TokenFromHeader(header).Err? ==> r == Err(TokenFromHeader(header).error)
    ensures r.Ok? <==> (
      && TokenFromHeader(header).Ok?
      && decode(TokenFromHeader(header).value).Some?
      && decode(TokenFromHeader(header).value).value.sub.Some?
      && decode(TokenFromHeader(header).value).value.role == Some(role))
    ensures r.Ok? ==> Some(r.value) == decode(TokenFromHeader(header).value).value.sub
    ensures r.Err? && TokenFromHeader(header).Ok? ==> r.error == Unauthorized(BadCredentials)
  {
    match TokenFromHeader(header)
    case Err(e) => Err(e)
    case Ok(token) =>
      match decode(token)
      case None => Err(Unauthorized(BadCredentials))
      case Some(claims) =>
        if claims.sub.None? || claims.role != Some(role) then Err(Unauthorized(BadCredentials))
        else Ok(claims.sub.value)
  }

  /** A token admits its holder in one role only. */
  lemma OneRolePerToken(header: Option<string>, decode: string -> Option<Claims>, role: string, other: string)
    requires role != other
    requires Subject(header, decode, role).Ok?
    ensures Subject(header, decode, other) == Err(Unauthorized(BadCredentials))
  {
  }

  /** `get_current_customer`: every status but "Suspended" is let in,
      expired and not-yet-installed customers included. */
  function CurrentCustomer(header: Option<string>, decode: string -> Option<Claims>, users: seq<User>)
    : (r: Result<User>)
    ensures Subject(header, decode, "customer").Err? ==> r == Err(Subject(header, decode, "customer").error)
    ensures (Subject(header, decode, "customer").Ok?
             && FindUser(users, Subject(header, decode, "customer").value).None?)
            ==> r == Err(Unauthorized(BadCredentials))
    ensures r.Ok? <==> (
      && Subject(header, decode, "customer").Ok?
      && FindUser(users, Subject(header, decode, "customer").value).Some?
      && users[FindUser(users, Subject(header, decode, "customer").value).value].status != SUSPENDED)
    ensures r.Ok? ==> r.value in users && Some(r.value.id) == Subject(header, decode, "customer").ToOption()
    ensures (r.Err? && Subject(header, decode, "customer").Ok?
             && FindUser(users, Subject(header, decode, "customer").value).Some?)
            ==> r.error == Forbidden(Suspended)
  {
    match Subject(header, decode, "customer")
    case Err(e) => Err(e)
    case Ok(id) =>
      match FindUser(users, id)
      case None => Err(Unauthorized(BadCredentials))
      case Some(i) => if users[i].status == SUSPENDED then Err(Forbidden(Suspended)) else Ok(users[i])
  }

  function FindEngineer(engineers: seq<Engineer>, id: string): (r: Option<Engineer>)
    ensures r.Some? ==> r.value in engineers && r.value.id == id
    ensures r.None? <==> forall j :: 0 <= j < |engineers| ==> engineers[j].id != id
  {
    First(engineers, (e: Engineer) => e.id == id)
  }

  /** `get_current_engineer`: only an Active engineer is let in. */
  function CurrentEngineer(header: Option<string>, decode: string -> Option<Claims>, engineers: seq<Engineer>)
    : (r: Result<Engineer>)
    ensures Subject(header, decode, "engineer").Err? ==> r == Err(Subject(header, decode, "engineer").error)
    ensures (Subject(header, decode, "engineer").Ok?
             && FindEngineer(engineers, Subject(header, decode, "engineer").value).None?)
            ==> r == Err(Unauthorized(BadCredentials))
    ensures r.Ok? <==> (
      && Subject(header, decode, "engineer").Ok?
      && FindEngineer(engineers, Subject(header, decode, "engineer").value).Some?
      && FindEngineer(engineers, Subject(header, decode, "engineer").value).value.status == ACTIVE)
    ensures r.Ok? ==> r.value in engineers && Some(r.value.id) == Subject(header, decode, "engineer").ToOption()
    ensures (r.Err? && Subject(header, decode, "engineer").Ok?
             && FindEngineer(engineers, Subject(header, decode, "engineer").value).Some?)
            ==> r.error == Forbidden(NotActive)
  {
    match Subject(header, decode, "engineer")
    case Err(e) => Err(e)
    case Ok(id) =>
      match FindEngineer(engineers, id)
      case None => Err(Unauthorized(BadCredentials))
      case Some(e) => if e.status != ACTIVE then Err(Forbidden(NotActive)) else Ok(e)
  }

  function FindAdmin(admins: seq<Admin>, id: string): (r: Option<Admin>)
    ensures r.Some? ==> r.value in admins && r.value.id == id
    ensures r.None? <==> forall j :: 0 <= j < |admins| ==> admins[j].id != id
  {
    First(admins, (a: Admin) => a.id == id)
  }

  /** `get_current_admin`: any existing administrator is let in; there is no
      status to check. */
  function CurrentAdmin(header: Option<string>, decode: string -> Option<Claims>, admins: seq<Admin>)
    : (r: Result<Admin>)
    ensures Subject(header, decode, "admin").Err? ==> r == Err(Subject(header, decode, "admin").error)
    ensures r.Ok? <==> (
      && Subject(header, decode, "admin").Ok?
      && FindAdmin(admins, Subject(header, decode, "admin").value).Some?)
    ensures r.Ok? ==> r.value in admins && Some(r.value.id) == Subject(header, decode, "admin").ToOption()
    ensures r.Err? ==> r.error.Code() == 401
  {
    match Subject(header, decode, "admin")
    case Err(e) => Err(e)
    case Ok(id) =>
      match FindAdmin(admins, id)
      case None => Err(Unauthorized(BadCredentials))
      case Some(a) => Ok(a)
  }
}

=== FILE: billing.dfy ===
/** The administrator's billing operations: renewing or reducing a plan by a
    number of calendar months, editing a subscriber's billing fields with a
    ledger entry recording the change, and correcting or deleting ledger
    entries afterwards. */
module Billing {
  import opened Outcomes
  import opened Strings
  import opened Tables
  import opened Calendar
  import opened IsoDates
  import opened Models
  import opened Schemas

  // ---------------------------------------------------------------------
  // Renew or reduce

  /** What a successful renewal commits and answers. */
  datatype Renewal = Renewal(users: seq<User>, message: string, newExpiry: string, action: string)

  /** `new_expiry < datetime.now()`: the new expiry, taken at midnight, is
      earlier than the current instant. */
  predicate BeforeNow(e: Date, clock: Clock) {
    Before(e, clock.today) || (e == clock.today && clock.afterMidnight)
  }

  function Plural(n: nat): string {
    if n != 1 then "s" else ""
  }

  function Abs(n: int): nat {
    if n < 0 then -n else n
  }

  /** The date `d + relativedelta(months=n)` for a stored expiry string, or
      the error the handler runs into: an unreadable stored date, a result
      outside the years 1..9999, or a reduction that ends before now. */
  function MovedExpiry(expiry: string, months: int, clock: Clock): (r: Result<Date>)
    ensures r.Ok? <==> && Parse(expiry).Some?
                       && MonthIndex(Parse(expiry).value) + months >= 12
                       && AddMonths(Parse(expiry).value, months).year <= 9999
                       && !(months < 0 && BeforeNow(AddMonths(Parse(expiry).value, months), clock))
    ensures r.Ok? ==> (
      && InRange(r.value)
      && MonthIndex(r.value) == MonthIndex(Parse(expiry).value) + months
      && r.value.day == Min(Parse(expiry).value.day, DaysInMonth(r.value.year, r.value.month)))
    ensures r.Err? && Parse(expiry).None? ==> r.error == ServerError(UnparsableDate)
    ensures (r.Err? && months < 0 && Parse(expiry).Some? && MonthIndex(Parse(expiry).value) + months >= 12) ==>
              (r.error == BadRequest(ReduceBelowToday) <==> BeforeNow(AddMonths(Parse(expiry).value, months), clock))
  {
    match Parse(expiry)
    case None => Err(ServerError(UnparsableDate))
    case Some(current) =>
      if MonthIndex(current) + months < 12 then Err(ServerError(DateOutOfRange))
      else
        var next := AddMonths(current, months);
        if next.year > 9999 then Err(ServerError(DateOutOfRange))
        else if months < 0 && BeforeNow(next, clock) then Err(BadRequest(ReduceBelowToday))
        else Ok(next)
  }

  /** The answer's wording: "Plan reduced by 2 months", "Plan extended by 1 month". */
  function RenewalMessage(months: int): string
    requires months != 0
  {
    var head := if months < 0 then "Plan reduced by " else "Plan extended by ";
    head + Show(Abs(months)) + (" month" + Plural(Abs(months)))
  }

  /** For every non-zero change, the sign alone picks "reduced" or
      "extended", the magnitude alone picks "month" or "months", and the
      number in between reads back as the magnitude. */
  lemma RenewalMessageWording(months: int)
    requires months != 0
    ensures var m := RenewalMessage(months);
      && (StartsWith(m, "Plan reduced by ") <==> months < 0)
      && (StartsWith(m, "Plan extended by ") <==> months > 0)
      && |m| > 0 && (m[|m| - 1] == 's' <==> Abs(months) != 1)
    // between the opening words and " month"/" months" stands the magnitude
    ensures var m := RenewalMessage(months);
            var p := if months < 0 then 16 else 17;
            var q := if Abs(months) != 1 then 7 else 6;
            && p < |m| - q && IsDigits(m[p..|m| - q]) && Value(m[p..|m| - q]) == Abs(months)
  {
    var head := if months < 0 then "Plan reduced by " else "Plan extended by ";
    var tail := " month" + Plural(Abs(months));
    var number := Show(Abs(months));
    var m := RenewalMessage(months);
    assert m == head + number + tail;
    assert |head| == (if months < 0 then 16 else 17);
    assert |tail| == (if Abs(months) != 1 then 7 else 6);
    assert m[..|head|] == head && m[|head|..|m| - |tail|] == number;
    assert m[5] == head[5] && m[|m| - 1] == tail[|tail| - 1];
    ShowValue(Abs(months));
  }

  /** Example (the general rule is `RenewalMessageWording`): "month" stays
      singular for a magnitude of one. */
  lemma RenewalMessagesSingular()
    ensures RenewalMessage(1) == "Plan extended by 1 month"
    ensures RenewalMessage(-1) == "Plan reduced by 1 month"
  {
    assert Show(1) == "1" && Plural(1) == "";
    assert RenewalMessage(1) == "Plan extended by " + "1" + (" month" + "");
    assert RenewalMessage(-1) == "Plan reduced by " + "1" + (" month" + "");
  }

  /** Example (the general rule is `RenewalMessageWording`): "month" is
      pluralised for any other magnitude. */
  lemma RenewalMessagesPlural()
    ensures RenewalMessage(3) == "Plan extended by 3 months"
    ensures RenewalMessage(-12) == "Plan reduced by 12 months"
  {
    assert Show(3) == "3" && Plural(3) == "s";
    assert Show(12) == Show(1) + "2" == "12" && Plural(12) == "s";
    assert RenewalMessage(3) == "Plan extended by " + "3" + (" month" + "s");
    assert RenewalMessage(-12) == "Plan reduced by " + "12" + (" month" + "s");
  }

  /** `POST /api/users/{id}/renew`: move the expiry by `months` calendar
      months (negative reduces). A reduction that would end the plan before
      now is refused; every accepted change, either way, re-activates the
      plan and stamps today as the last renewal. */
  function RenewOrReduce(users: seq<User>, id: string, months: int, clock: Clock): (r: Result<Renewal>)
    requires InRange(clock.today)
    ensures !RenewalMonthsAccepted(months) ==> r == Err(Unprocessable)
    ensures RenewalMonthsAccepted(months) && FindUser(users, id).None? ==> r == Err(NotFound)
    ensures months == 0 && FindUser(users, id).Some? ==> r == Err(BadRequest(ZeroMonths))
    ensures r.Ok? <==> && months != 0 && RenewalMonthsAccepted(months) && FindUser(users, id).Some?
                       && MovedExpiry(users[FindUser(users, id).value].planExpiry, months, clock).Ok?
    ensures r.Ok? ==> (
      var i := FindUser(users, id).value;
      var after := MovedExpiry(users[i].planExpiry, months, clock).value;
      && r.value.newExpiry == Format(after)
      && Parse(r.value.newExpiry) == Some(after)
      // only these four fields of the one row change
      && r.value.users == users[i := users[i].(planExpiry := r.value.newExpiry, isPlanActive := true,
                                               status := ACTIVE, lastRenewal := Some(Format(clock.today)))]
      && (r.value.action == "reduced" <==> months < 0)
      && r.value.message == RenewalMessage(months))
  {
    if !RenewalMonthsAccepted(months) then Err(Unprocessable)
    else match FindUser(users, id)
    case None => Err(NotFound)
    case Some(i) =>
      if months == 0 then Err(BadRequest(ZeroMonths))
      else match MovedExpiry(users[i].planExpiry, months, clock)
      case Err(e) => Err(e)
      case Ok(next) =>
        var expiry := Format(next);
        ParseFormat(next);
        var u := users[i].(planExpiry := expiry, isPlanActive := true, status := ACTIVE,
                           lastRenewal := Some(Format(clock.today)));
        var action := if months < 0 then "reduced" else "extended";
        Ok(Renewal(users[i := u], RenewalMessage(months), expiry, action))
  }

  /** A renewal keeps the keys unique and, since it sets both the flag and
      the status, keeps active plans with Active subscribers. */
  lemma RenewKeepsInvariants(users: seq<User>, id: string, months: int, clock: Clock)
    requires InRange(clock.today)
    requires RenewOrReduce(users, id, months, clock).Ok?
    ensures UsersUnique(users) ==> UsersUnique(RenewOrReduce(users, id, months, clock).value.users)
    ensures ActiveMeansActive(users) ==> ActiveMeansActive(RenewOrReduce(users, id, months, clock).value.users)
  {
    var i := FindUser(users, id).value;
    var after := RenewOrReduce(users, id, months, clock).value.users;
    if UsersUnique(users) {
      ReplaceKeepsUnique(users, i, after[i]);
    }
  }

  /** A reduction is refused exactly when the reduced expiry would fall
      before the current instant; at any instant after midnight that means
      on or before today. */
  lemma ReduceRefusedIff(expiry: string, months: int, clock: Clock)
    requires months < 0
    requires Parse(expiry).Some? && MonthIndex(Parse(expiry).value) + months >= 12
    requires clock.afterMidnight
    ensures MovedExpiry(expiry, months, clock) == Err(BadRequest(ReduceBelowToday))
            <==> NotAfter(AddMonths(Parse(expiry).value, months), clock.today)
  {
  }

  /** An accepted renewal leaves the subscriber where it was, with the
      moved expiry stored. */
  lemma RenewedRow(users: seq<User>, id: string, months: int, clock: Clock)
    requires InRange(clock.today)
    requires RenewOrReduce(users, id, months, clock).Ok?
    ensures var i := FindUser(users, id).value;
            var once := RenewOrReduce(users, id, months, clock).value.users;
            && FindUser(once, id) == Some(i)
            && Parse(once[i].planExpiry) == MovedExpiry(users[i].planExpiry, months, clock).ToOption()
  {
    var i := FindUser(users, id).value;
    var r := RenewOrReduce(users, id, months, clock).value;
    var after := MovedExpiry(users[i].planExpiry, months, clock).value;
    var once := r.users;
    assert once[i].id == id && once[i].planExpiry == r.newExpiry;
    assert Parse(r.newExpiry) == Some(after);
    assert forall j :: 0 <= j < i ==> once[j].id == users[j].id != id;
  }

  /** On one stored expiry: extending by `n` months and then reducing the
      stored result by `n` months on the same day gives the original date
      back, provided the extension did not clamp the day and the original
      expiry is still in the future. */
  lemma MoveThereAndBack(expiry: string, n: int, clock: Clock)
    requires InRange(clock.today)
    requires 1 <= n <= 12
    requires Parse(expiry).Some? && Before(clock.today, Parse(expiry).value)
    requires AddMonths(Parse(expiry).value, n).year <= 9999
    requires Parse(expiry).value.day <= DaysInMonth(AddMonths(Parse(expiry).value, n).year,
                                                    AddMonths(Parse(expiry).value, n).month)
    ensures MovedExpiry(expiry, n, clock).Ok?
    ensures MovedExpiry(Format(MovedExpiry(expiry, n, clock).value), -n, clock) == Ok(Parse(expiry).value)
  {
    var d := Parse(expiry).value;
    var e := AddMonths(d, n);
    assert MovedExpiry(expiry, n, clock) == Ok(e);
    ParseFormat(e);
    AddMonthsInverse(d, n);
    OrdinalOrder(clock.today, d);
  }

  /** The same through the handler: renewing a subscriber by `n` months and
      then reducing by `n` months restores the expiry date. */
  lemma ExtendThenReduce(users: seq<User>, id: string, n: int, clock: Clock)
    requires InRange(clock.today)
    requires 1 <= n <= 12
    requires FindUser(users, id).Some?
    requires var d := Parse(users[FindUser(users, id).value].planExpiry);
             d.Some? && Before(clock.today, d.value) && AddMonths(d.value, n).year <= 9999
             && d.value.day <= DaysInMonth(AddMonths(d.value, n).year, AddMonths(d.value, n).month)
    ensures RenewOrReduce(users, id, n, clock).Ok?
    ensures var once := RenewOrReduce(users, id, n, clock).value.users;
            var twice := RenewOrReduce(once, id, -n, clock);
            && twice.Ok?
            && Parse(twice.value.users[FindUser(users, id).value].planExpiry)
               == Parse(users[FindUser(users, id).value].planExpiry)
  {
    var i := FindUser(users, id).value;
    MoveThereAndBack(users[i].planExpiry, n, clock);
    RenewedRow(users, id, n, clock);
    var once := RenewOrReduce(users, id, n, clock).value;
    assert once.users[i].planExpiry == once.newExpiry;
    ReduceAfterExtend(once.users, i, id, n, clock, Parse(users[i].planExpiry).value);
  }

  /** The second half of the round trip: a reduction whose move succeeds is
      accepted and stores the moved date. */
  lemma ReduceAfterExtend(users: seq<User>, i: nat, id: string, n: int, clock: Clock, d: Date)
    requires InRange(clock.today)
    requires 1 <= n <= 12
    requires FindUser(users, id) == Some(i)
    requires MovedExpiry(users[i].planExpiry, -n, clock) == Ok(d)
    ensures RenewOrReduce(users, id, -n, clock).Ok?
    ensures Parse(RenewOrReduce(users, id, -n, clock).value.users[i].planExpiry) == Some(d)
  {
    RenewedRow(users, id, -n, clock);
  }

  // ---------------------------------------------------------------------
  // Billing edit with ledger append

  /** SQLite's choice of rowid for a new ledger row: one more than the
      largest in use. */
  function NextLedgerId(ledger: seq<LedgerEntry>): (r: nat)
    ensures r >= 1
    ensures forall j :: 0 <= j < |ledger| ==> ledger[j].id < r
  {
    if |ledger| == 0 then 1
    else
      var rest := NextLedgerId(ledger[..|ledger| - 1]);
      var last := ledger[|ledger| - 1].id + 1;
      if rest < last then last else rest
  }

  predicate LedgerIdsUnique(ledger: seq<LedgerEntry>) {
    KeysUnique(ledger, (e: LedgerEntry) => e.id)
  }

  /** The name of the plan with this id, if there is one. */
  function PlanName(plans: seq<Plan>, id: string): (r: Option<string>)
    ensures r.Some? <==> exists j :: 0 <= j < |plans| && plans[j].id == id
  {
    match FindPlan(plans, id)
    case None => None
    case Some(p) => Some(p.name)
  }

  /** The plan id a ledger entry records: the id when such a plan exists,
      otherwise nothing. */
  function KnownPlanId(plans: seq<Plan>, id: string): (r: Option<string>)
    ensures r.Some? ==> r.value == id
    ensures r.Some? <==> PlanName(plans, id).Some?
  {
    if FindPlan(plans, id).Some? then Some(id) else None
  }

  /** `PUT /api/users/{id}/billing`: overwrite plan, payment status, pending
      amount and due date (the start date only when one is supplied), and
      append one ledger entry holding the old and new values. */
  function UpdateBilling(db: Db, id: string, form: BillingUpdateForm, adminEmail: string): (r: Result<Db>)
    ensures !BillingUpdateAccepted(form) ==> r == Err(Unprocessable)
    ensures BillingUpdateAccepted(form) && FindUser(db.users, id).None? ==> r == Err(NotFound)
    ensures r.Ok? <==> BillingUpdateAccepted(form) && FindUser(db.users, id).Some?
    ensures r.Ok? ==>
      var i := FindUser(db.users, id).value;
      var prior := db.users[i];
      && |r.value.users| == |db.users|
      && var u := r.value.users[i];
      // the user row: the billing fields take the request's values ...
      && u.planId == form.planId && u.paymentStatus == form.paymentStatus
      && u.oldPending == form.oldPending && u.paymentDue == form.dueDate
      && u.planStart == (if Truthy(form.planStart) then form.planStart.value else prior.planStart)
      // ... and nothing else moves
      && u == prior.(planId := u.planId, paymentStatus := u.paymentStatus, oldPending := u.oldPending,
                   paymentDue := u.paymentDue, planStart := u.planStart)
      && (forall j :: 0 <= j < |db.users| && j != i ==> r.value.users[j] == db.users[j])
      // exactly one ledger entry is appended, the rest of the store is as it was
      && |r.value.ledger| == |db.ledger| + 1 && r.value.ledger[..|db.ledger|] == db.ledger
      && r.value.plans == db.plans && r.value.engineers == db.engineers
      && r.value.installations == db.installations
      // it records the row before and after
      && var e := r.value.ledger[|db.ledger|];
      && e.userId == id && e.adminEmail == adminEmail
      && e.previous == Snapshot(Some(prior.paymentStatus), Some(prior.oldPending), Some(prior.paymentDue),
                                KnownPlanId(db.plans, prior.planId), PlanName(db.plans, prior.planId))
      && e.next == Snapshot(Some(u.paymentStatus), Some(u.oldPending), Some(u.paymentDue),
                            KnownPlanId(db.plans, u.planId), PlanName(db.plans, u.planId))
      && e.changeType == Some("billing_update")
      && e.notes == Some("Billing updated by " + adminEmail)
      && (forall j :: 0 <= j < |db.ledger| ==> db.ledger[j].id != e.id)
  {
    if !BillingUpdateAccepted(form) then Err(Unprocessable)
    else match FindUser(db.users, id)
    case None => Err(NotFound)
    case Some(i) =>
      var prior := db.users[i];
      var previous := Snapshot(Some(prior.paymentStatus), Some(prior.oldPending), Some(prior.paymentDue),
                               KnownPlanId(db.plans, prior.planId), PlanName(db.plans, prior.planId));
      var u := prior.(planId := form.planId, paymentStatus := form.paymentStatus,
                    oldPending := form.oldPending, paymentDue := form.dueDate);
      var u := if Truthy(form.planStart) then u.(planStart := form.planStart.value) else u;
      var next := Snapshot(Some(form.paymentStatus), Some(form.oldPending), Some(form.dueDate),
                           KnownPlanId(db.plans, form.planId), PlanName(db.plans, form.planId));
      var entry := LedgerEntry(NextLedgerId(db.ledger), id, adminEmail, previous, next,
                               Some("billing_update"), Some("Billing updated by " + adminEmail));
      Ok(db.(users := db.users[i := u], ledger := db.ledger + [entry]))
  }

  /** A billing edit touches no key and neither the flag nor the status, and
      the new ledger entry takes a fresh id. */
  lemma UpdateBillingKeepsInvariants(db: Db, id: string, form: BillingUpdateForm, adminEmail: string)
    requires UpdateBilling(db, id, form, adminEmail).Ok?
    ensures UsersUnique(db.users) ==> UsersUnique(UpdateBilling(db, id, form, adminEmail).value.users)
    ensures ActiveMeansActive(db.users) ==> ActiveMeansActive(UpdateBilling(db, id, form, adminEmail).value.users)
    ensures LedgerIdsUnique(db.ledger) ==> LedgerIdsUnique(UpdateBilling(db, id, form, adminEmail).value.ledger)
  {
    var i := FindUser(db.users, id).value;
    var after := UpdateBilling(db, id, form, adminEmail).value;
    assert after.users == db.users[i := after.users[i]];
    if UsersUnique(db.users) {
      ReplaceKeepsUnique(db.users, i, after.users[i]);
    }
  }

  // ---------------------------------------------------------------------
  // Ledger corrections

  /** The body of a ledger correction. Each field is `None` when it was
      left out of the request, `Some(v)` when it was sent, `v` itself
      possibly null. */
  datatype LedgerPatch = LedgerPatch(
    previousPaymentStatus: Option<Option<string>>,
    newPaymentStatus: Option<Option<string>>,
    previousOldPending: Option<Option<int>>,
    newOldPending: Option<Option<int>>,
    previousDueDate: Option<Option<string>>,
    newDueDate: Option<Option<string>>,
    previousPlanId: Option<Option<string>>,
    newPlanId: Option<Option<string>>,
    changeType: Option<Option<string>>,
    notes: Option<Option<string>>)

  /** `after` is `before` overwritten by the patch value if one was sent. */
  predicate Applied<T(==)>(before: T, p: Option<T>, after: T) {
    if p.Some? then after == p.value else after == before
  }

  function Overwrite<T(==)>(before: T, p: Option<T>): (r: T)
    ensures Applied(before, p, r)
  {
    match p
    case Some(v) => v
    case None => before
  }

  /** The plan name the handler stores after a plan id was written: looked
      up again only when the sent id is not null. */
  function RefreshedName(plans: seq<Plan>, sent: Option<Option<string>>, name: Option<string>): (r: Option<string>)
    ensures (sent.None? || sent.value.None?) ==> r == name
    ensures sent.Some? && sent.value.Some? ==> (r.Some? <==> PlanName(plans, sent.value.value).Some?)
  {
    match sent
    case Some(Some(pid)) => PlanName(plans, pid)
    case _ => name
  }

  function ApplyLedgerPatch(e: LedgerEntry, plans: seq<Plan>, p: LedgerPatch): (r: LedgerEntry)
    ensures r.id == e.id && r.userId == e.userId && r.adminEmail == e.adminEmail
    ensures Applied(e.previous.paymentStatus, p.previousPaymentStatus, r.previous.paymentStatus)
    ensures Applied(e.next.paymentStatus, p.newPaymentStatus, r.next.paymentStatus)
    ensures Applied(e.previous.oldPending, p.previousOldPending, r.previous.oldPending)
    ensures Applied(e.next.oldPending, p.newOldPending, r.next.oldPending)
    ensures Applied(e.previous.dueDate, p.previousDueDate, r.previous.dueDate)
    ensures Applied(e.next.dueDate, p.newDueDate, r.next.dueDate)
    ensures Applied(e.previous.planId, p.previousPlanId, r.previous.planId)
    ensures Applied(e.next.planId, p.newPlanId, r.next.planId)
    ensures Applied(e.changeType, p.changeType, r.changeType)
    ensures Applied(e.notes, p.notes, r.notes)
    ensures r.previous.planName == RefreshedName(plans, p.previousPlanId, e.previous.planName)
    ensures r.next.planName == RefreshedName(plans, p.newPlanId, e.next.planName)
  {
    var previous := Snapshot(
      Overwrite(e.previous.paymentStatus, p.previousPaymentStatus),
      Overwrite(e.previous.oldPending, p.previousOldPending),
      Overwrite(e.previous.dueDate, p.previousDueDate),
      Overwrite(e.previous.planId, p.previousPlanId),
      RefreshedName(plans, p.previousPlanId, e.previous.planName));
    var next := Snapshot(
      Overwrite(e.next.paymentStatus, p.newPaymentStatus),
      Overwrite(e.next.oldPending, p.newOldPending),
      Overwrite(e.next.dueDate, p.newDueDate),
      Overwrite(e.next.planId, p.newPlanId),
      RefreshedName(plans, p.newPlanId, e.next.planName));
    e.(previous := previous, next := next,
       changeType := Overwrite(e.changeType, p.changeType),
       notes := Overwrite(e.notes, p.notes))
  }

  /** An empty correction changes nothing. */
  lemma EmptyPatchIdentity(e: LedgerEntry, plans: seq<Plan>)
    ensures ApplyLedgerPatch(e, plans, LedgerPatch(None, None, None, None, None, None, None, None, None, None)) == e
  {
  }

  /** Writing a plan id of null clears the id but keeps the stale name. */
  lemma NullPlanIdKeepsName(e: LedgerEntry, plans: seq<Plan>)
    ensures var r := ApplyLedgerPatch(e, plans, LedgerPatch(None, None, None, None, None, None, Some(None), None, None, None));
            r.previous.planId.None? && r.previous.planName == e.previous.planName
  {
  }

  function FindEntry(ledger: seq<LedgerEntry>, id: nat): (r: Option<nat>)
    ensures r.Some? ==> r.value < |ledger| && ledger[r.value].id == id
    ensures r.Some? ==> forall j :: 0 <= j < r.value ==> ledger[j].id != id
    ensures r.None? <==> forall j :: 0 <= j < |ledger| ==> ledger[j].id != id
  {
    FirstIndex(ledger, (e: LedgerEntry) => e.id == id)
  }

  /** `PUT /api/billing-history/{id}`: apply a correction to one entry. */
  function UpdateLedgerEntry(ledger: seq<LedgerEntry>, plans: seq<Plan>, id: nat, p: LedgerPatch): (r: Result<seq<LedgerEntry>>)
    ensures r.Err? <==> forall j :: 0 <= j < |ledger| ==> ledger[j].id != id
    ensures r.Err? ==> r.error == NotFound
    ensures r.Ok? ==> (
      var i := FindEntry(ledger, id).value;
      && |r.value| == |ledger|
      && r.value[i] == ApplyLedgerPatch(ledger[i], plans, p)
      && forall j :: 0 <= j < |ledger| && j != i ==> r.value[j] == ledger[j])
    ensures r.Ok? && LedgerIdsUnique(ledger) ==> LedgerIdsUnique(r.value)
  {
    match FindEntry(ledger, id)
    case None => Err(NotFound)
    case Some(i) => Ok(ledger[i := ApplyLedgerPatch(ledger[i], plans, p)])
  }

  /** `DELETE /api/billing-history/{id}`: remove the entry. */
  function DeleteLedgerEntry(ledger: seq<LedgerEntry>, id: nat): (r: Result<seq<LedgerEntry>>)
    ensures r.Err? <==> forall j :: 0 <= j < |ledger| ==> ledger[j].id != id
    ensures r.Err? ==> r.error == NotFound
    ensures r.Ok? ==> |r.value| == |ledger| - 1
    ensures r.Ok? ==> forall e :: e in r.value ==> e in ledger
    ensures r.Ok? && LedgerIdsUnique(ledger) ==>
      LedgerIdsUnique(r.value) && forall j :: 0 <= j < |r.value| ==> r.value[j].id != id
    // exactly the first entry with the id goes; the others stay, in order
    ensures r.Ok? ==> RemovesFirst(ledger, (e: LedgerEntry) => e.id == id, r.value)
  {
    match FindEntry(ledger, id)
    case None => Err(NotFound)
    case Some(i) =>
      assert RemovesFirst(ledger, (e: LedgerEntry) => e.id == id, ledger[..i] + ledger[i + 1..]) by {
        assert ledger[i].id == id && forall j :: 0 <= j < i ==> ledger[j].id != id;
      }
      Ok(ledger[..i] + ledger[i + 1..])
  }
}

=== FILE: billing_settings.dfy ===
/** The company's billing settings: the address printed on invoices, the UPI
    id, the preferred form layout, and a QR code of the address. The table is
    meant to hold a single record; the QR code is kept in step with the
    address by regenerating it whenever an address field is written. The QR
    image is modelled by the text it encodes. */
module BillingSettings {
  import opened Outcomes
  import opened Strings
  import opened Schemas
  import opened Tables

  /** The nine fields the QR code is made from. */
  datatype Address = Address(
    fullName: string, street: string, city: string, state: string, country: string, pinCode: string,
    contactNumber: Option<string>, gstin: Option<string>, upiId: Option<string>)

  /** A `billing_settings` row; `qrCodeData` holds the text the QR image
      encodes. */
  datatype Settings = Settings(id: nat, address: Address, uiLayout: string, qrCodeData: Option<string>)

  // ---------------------------------------------------------------------
  // QR text

  /** The optional line "\n<tag><value>", present only for a truthy value. */
  function OptionalLine(tag: string, v: Option<string>): (r: string)
    ensures r == "" <==> !Truthy(v)
    ensures Truthy(v) ==> r == "\n" + tag + v.value
  {
    if Truthy(v) then "\n" + tag + v.value else ""
  }

  /** The address block before stripping: a leading newline, the name, the
      street, "city, state - pin", the country and a newline, then the
      Contact, GSTIN and UPI lines in that order. */
  function AddressText(a: Address): (t: string)
    ensures |t| >= |a.fullName| + 1
    ensures t[0] == '\n' && t[1..1 + |a.fullName|] == a.fullName
  {
    var head := "\n" + a.fullName + "\n" + a.street + "\n";
    var cityLine := a.city + ", " + a.state + " - " + a.pinCode + "\n";
    var tail := a.country + "\n" + OptionalLine("Contact: ", a.contactNumber) + OptionalLine("GSTIN: ", a.gstin)
      + OptionalLine("UPI: ", a.upiId);
    assert (head + cityLine + tail)[1..1 + |a.fullName|] == head[1..1 + |a.fullName|] == a.fullName;
    head + cityLine + tail
  }

  /** `generate_qr_code`'s payload: the address block with surrounding white
      space stripped; only white space is cut, and only at the ends. */
  function QrText(a: Address): (t: string)
    ensures exists i :: TrimmedAt(AddressText(a), t, i)
    ensures |t| > 0 ==> !IsSpace(t[0]) && !IsSpace(t[|t| - 1])
  {
    Strip(AddressText(a))
  }

  /** A name that neither starts nor ends with white space opens the QR
      text. */
  lemma QrTextStartsWithName(a: Address)
    requires |a.fullName| > 0 && !IsSpace(a.fullName[0]) && !IsSpace(a.fullName[|a.fullName| - 1])
    ensures StartsWith(QrText(a), a.fullName)
  {
    var s := AddressText(a);
    var n := |a.fullName|;
    assert s[1] == a.fullName[0];
    assert s[1..] == s[1..];
    var l := LStrip(s);
    assert l == LStrip(s[1..]);
    assert l == s[1..];
    var r := RStrip(l);
    assert l[n - 1] == a.fullName[n - 1];
    assert |r| >= n;
    assert r[..n] == l[..n] == a.fullName;
  }

  /** The lines of the QR text when only a UPI id among the optional fields
      is given: the country, a blank line and the UPI line come last. */
  function UpiOnlyLines(a: Address): string
    requires Truthy(a.upiId)
  {
    a.fullName + "\n" + a.street + "\n" + a.city + ", " + a.state + " - " + a.pinCode + "\n"
      + a.country + "\n\nUPI: " + a.upiId.value
  }

  lemma AddressTextUpiOnly(a: Address)
    requires !Truthy(a.contactNumber) && !Truthy(a.gstin) && Truthy(a.upiId)
    ensures AddressText(a) == "\n" + UpiOnlyLines(a)
  {
    assert OptionalLine("Contact: ", a.contactNumber) == "" && OptionalLine("GSTIN: ", a.gstin) == "";
  }

  /** With only a UPI id among the optional fields, the QR text is the
      address lines, the country, a blank line and the UPI line. */
  lemma QrTextUpiOnly(a: Address)
    requires !Truthy(a.contactNumber) && !Truthy(a.gstin) && Truthy(a.upiId)
    requires |a.fullName| > 0 && !IsSpace(a.fullName[0])
    requires !IsSpace(a.upiId.value[|a.upiId.value| - 1])
    ensures QrText(a) == UpiOnlyLines(a)
  {
    var x := UpiOnlyLines(a);
    var s := AddressText(a);
    AddressTextUpiOnly(a);
    assert x[0] == a.fullName[0];
    assert x[|x| - 1] == a.upiId.value[|a.upiId.value| - 1];
    assert s[1..] == x;
    assert LStrip(s) == LStrip(x) == x;
    StripTrimmed(x);
  }

  // ---------------------------------------------------------------------
  // The invariant

  /** The stored QR code encodes the stored address. */
  predicate QrCurrent(s: Settings) {
    s.qrCodeData == Some(QrText(s.address))
  }

  /** At most one record, and its QR code is current. */
  predicate Consistent(t: seq<Settings>) {
    |t| <= 1 && forall k :: 0 <= k < |t| ==> QrCurrent(t[k])
  }

  // ---------------------------------------------------------------------
  // Read

  /** The position of the record with the highest id. */
  function NewestIndex(t: seq<Settings>): (i: nat)
    requires |t| > 0
    ensures i < |t| && forall k :: 0 <= k < |t| ==> t[k].id <= t[i].id
  {
    if |t| == 1 then 0
    else
      var j := NewestIndex(t[1..]);
      if t[0].id >= t[1..][j].id then 0 else j + 1
  }

  /** `get_billing_settings`: the record with the highest id, or 404. */
  function GetSettings(t: seq<Settings>): (r: Result<Settings>)
    ensures r.Err? <==> |t| == 0
    ensures r.Err? ==> r.error == NotFound
    ensures r.Ok? ==> r.value in t && forall k :: 0 <= k < |t| ==> t[k].id <= r.value.id
  {
    if |t| == 0 then Err(NotFound) else Ok(t[NewestIndex(t)])
  }

  // ---------------------------------------------------------------------
  // Create

  /** The address of a create body, with the country defaulting to India. */
  function FormAddress(f: SettingsForm): (a: Address)
    ensures a.country == f.country.GetOr("India")
    ensures a.fullName == f.fullName && a.pinCode == f.pinCode && a.upiId == f.upiId
  {
    Address(f.fullName, f.street, f.city, f.state, f.country.GetOr("India"), f.pinCode,
            f.contactNumber, f.gstin, f.upiId)
  }

  /** `create_billing_settings`: the body must pass its schema (422), and no
      record may exist yet (400); the new record gets `newId`, the default
      layout "card" when none is given, and a QR code of its address. */
  function CreateSettings(t: seq<Settings>, f: SettingsForm, newId: nat): (r: Result<seq<Settings>>)
    ensures !SettingsFormAccepted(f) ==> r == Err(Unprocessable)
    ensures SettingsFormAccepted(f) && |t| > 0 ==> r == Err(BadRequest(SettingsExist))
    ensures r.Ok? <==> SettingsFormAccepted(f) && |t| == 0
    ensures r.Ok? ==> |r.value| == 1 && r.value[0].id == newId
                      && r.value[0].address == FormAddress(f)
                      && r.value[0].uiLayout == f.uiLayout.GetOr("card")
                      && QrCurrent(r.value[0])
  {
    if !SettingsFormAccepted(f) then Err(Unprocessable)
    else if |t| > 0 then Err(BadRequest(SettingsExist))
    else
      var a := FormAddress(f);
      Ok([Settings(newId, a, f.uiLayout.GetOr("card"), Some(QrText(a)))])
  }

  /** What is created is what is then read back. */
  lemma CreateThenGet(t: seq<Settings>, f: SettingsForm, newId: nat)
    requires CreateSettings(t, f, newId).Ok?
    ensures GetSettings(CreateSettings(t, f, newId).value) == Ok(CreateSettings(t, f, newId).value[0])
  {
  }

  // ---------------------------------------------------------------------
  // Update

  /** A field the patch gives replaces the stored one. */
  function Given<T>(v: Option<T>, stored: T): T {
    v.GetOr(stored)
  }

  /** An optional field the patch gives replaces the stored one, and one it
      leaves out keeps its value. */
  function GivenOptional<T>(v: Option<T>, stored: Option<T>): (r: Option<T>)
    ensures v.Some? ==> r == v
    ensures v.None? ==> r == stored
  {
    if v.Some? then v else stored
  }

  /** The address after a patch: every field the patch gives (a non-null
      value) is written, every other keeps its value. */
  function Patched(a: Address, p: SettingsPatch): (r: Address)
    ensures p.fullName.Some? ==> r.fullName == p.fullName.value
    ensures p.fullName.None? ==> r.fullName == a.fullName
    ensures p.street.Some? ==> r.street == p.street.value
    ensures p.street.None? ==> r.street == a.street
    ensures p.city.Some? ==> r.city == p.city.value
    ensures p.city.None? ==> r.city == a.city
    ensures p.state.Some? ==> r.state == p.state.value
    ensures p.state.None? ==> r.state == a.state
    ensures p.country.Some? ==> r.country == p.country.value
    ensures p.country.None? ==> r.country == a.country
    ensures p.pinCode.Some? ==> r.pinCode == p.pinCode.value
    ensures p.pinCode.None? ==> r.pinCode == a.pinCode
    ensures p.contactNumber.Some? ==> r.contactNumber == p.contactNumber
    ensures p.contactNumber.None? ==> r.contactNumber == a.contactNumber
    ensures p.gstin.Some? ==> r.gstin == p.gstin
    ensures p.gstin.None? ==> r.gstin == a.gstin
    ensures p.upiId.Some? ==> r.upiId == p.upiId
    ensures p.upiId.None? ==> r.upiId == a.upiId
  {
    Address(
      Given(p.fullName, a.fullName), Given(p.street, a.street), Given(p.city, a.city),
      Given(p.state, a.state), Given(p.country, a.country), Given(p.pinCode, a.pinCode),
      GivenOptional(p.contactNumber, a.contactNumber), GivenOptional(p.gstin, a.gstin),
      GivenOptional(p.upiId, a.upiId))
  }

  /** The patch writes one of the nine address fields; `ui_layout` is not
      one of them. */
  predicate AddressTouched(p: SettingsPatch) {
    || p.fullName.Some? || p.street.Some? || p.city.Some? || p.state.Some? || p.country.Some?
    || p.pinCode.Some? || p.contactNumber.Some? || p.gstin.Some? || p.upiId.Some?
  }

  /** One record after a patch. The QR code is regenerated when an address
      field was written, even to the value it already had, and is otherwise
      left as it was. */
  function Updated(s: Settings, p: SettingsPatch): (r: Settings)
    ensures r.id == s.id && r.address == Patched(s.address, p)
    ensures p.uiLayout.Some? ==> r.uiLayout == p.uiLayout.value
    ensures p.uiLayout.None? ==> r.uiLayout == s.uiLayout
    ensures AddressTouched(p) ==> QrCurrent(r)
    ensures !AddressTouched(p) ==> r.address == s.address && r.qrCodeData == s.qrCodeData
  {
    var a := Patched(s.address, p);
    var qr := if AddressTouched(p) then Some(QrText(a)) else s.qrCodeData;
    Settings(s.id, a, Given(p.uiLayout, s.uiLayout), qr)
  }

  /** The position of the first record with `id`. */
  function FindSettings(t: seq<Settings>, id: nat): (r: Option<nat>)
    ensures r.None? <==> forall k :: 0 <= k < |t| ==> t[k].id != id
    ensures r.Some? ==> r.value < |t| && t[r.value].id == id
                        && forall k :: 0 <= k < r.value ==> t[k].id != id
  {
    FirstIndex(t, (x: Settings) => x.id == id)
  }

  /** The table after a write and the record the handler returns. */
  datatype Written = Written(table: seq<Settings>, row: Settings)

  /** `update_billing_settings`: the patch must pass its schema (422), the
      record must exist (404); it alone changes. */
  function UpdateSettings(t: seq<Settings>, id: nat, p: SettingsPatch): (r: Result<Written>)
    ensures !SettingsPatchAccepted(p) ==> r == Err(Unprocessable)
    ensures SettingsPatchAccepted(p) && FindSettings(t, id).None? ==> r == Err(NotFound)
    ensures r.Ok? <==> SettingsPatchAccepted(p) && exists k :: 0 <= k < |t| && t[k].id == id
    ensures r.Ok? ==> var i := FindSettings(t, id).value;
                      r.value.row == Updated(t[i], p) && r.value.table == t[i := r.value.row]
  {
    if !SettingsPatchAccepted(p) then Err(Unprocessable)
    else match FindSettings(t, id)
      case None => Err(NotFound)
      case Some(i) =>
        var row := Updated(t[i], p);
        Ok(Written(t[i := row], row))
  }

  /** A patch that gives nothing changes nothing. */
  lemma EmptyPatchIdentity(s: Settings)
    ensures Updated(s, SettingsPatch(None, None, None, None, None, None, None, None, None, None)) == s
  {
  }

  /** Changing only the layout keeps the stored QR code, whatever it is. */
  lemma LayoutOnlyKeepsQr(s: Settings, layout: string)
    ensures var r := Updated(s, SettingsPatch(None, None, None, None, None, None, None, None, None, Some(layout)));
      r.qrCodeData == s.qrCodeData && r.address == s.address && r.uiLayout == layout
  {
  }

  /** Applying the same patch twice is applying it once. */
  lemma UpdateIdempotent(s: Settings, p: SettingsPatch)
    ensures Updated(Updated(s, p), p) == Updated(s, p)
  {
  }

  /** Writing an address field to the value it already has still produces
      a QR code of the address, even where the stored one was stale. */
  lemma RewriteRefreshesQr(s: Settings)
    ensures var r := Updated(s, SettingsPatch(Some(s.address.fullName), None, None, None, None, None, None, None, None, None));
      r.address == s.address && QrCurrent(r)
  {
  }

  // ---------------------------------------------------------------------
  // Delete

  /** `delete_billing_settings`: the first record with `id` is removed, or
      404. */
  function DeleteSettings(t: seq<Settings>, id: nat): (r: Result<seq<Settings>>)
    ensures r.Err? <==> forall k :: 0 <= k < |t| ==> t[k].id != id
    ensures r.Err? ==> r.error == NotFound
    ensures r.Ok? ==> var i := FindSettings(t, id).value;
                      r.value == t[..i] + t[i + 1..] && |r.value| == |t| - 1
  {
    match FindSettings(t, id)
    case None => Err(NotFound)
    case Some(i) => Ok(t[..i] + t[i + 1..])
  }

  // ---------------------------------------------------------------------
  // The invariant is kept

  lemma CreateKeepsConsistent(t: seq<Settings>, f: SettingsForm, newId: nat)
    requires CreateSettings(t, f, newId).Ok?
    ensures Consistent(CreateSettings(t, f, newId).value)
  {
  }

  /** An update keeps the QR code current: either it writes an address
      field and regenerates the code, or it leaves both alone. */
  lemma UpdateKeepsConsistent(t: seq<Settings>, id: nat, p: SettingsPatch)
    requires Consistent(t) && UpdateSettings(t, id, p).Ok?
    ensures Consistent(UpdateSettings(t, id, p).value.table)
    ensures QrCurrent(UpdateSettings(t, id, p).value.row)
  {
    var i := FindSettings(t, id).value;
    var row := Updated(t[i], p);
    assert QrCurrent(t[i]);
    if !AddressTouched(p) {
      assert row.address == t[i].address && row.qrCodeData == t[i].qrCodeData;
    }
    assert QrCurrent(row);
  }

  lemma DeleteKeepsConsistent(t: seq<Settings>, id: nat)
    requires Consistent(t) && DeleteSettings(t, id).Ok?
    ensures Consistent(DeleteSettings(t, id).value)
  {
  }

  /** In a consistent table, reading returns the one record there is. */
  lemma GetOnlyRecord(t: seq<Settings>)
    requires Consistent(t) && |t| > 0
    ensures GetSettings(t) == Ok(t[0])
  {
  }
}

=== FILE: calendar.dfy ===
/** The proleptic Gregorian calendar as Python's `datetime.date` uses it, with
    the two pieces of date arithmetic the back-office performs:
    `date + relativedelta(months=n)` (calendar months, day clamped to the
    target month's length) and `date + timedelta(days=n)`. */
module Calendar {

  datatype Date = Date(year: int, month: int, day: int)

  predicate IsLeap(y: int) {
    y % 4 == 0 && (y % 100 != 0 || y % 400 == 0)
  }

  function DaysInMonth(y: int, m: int): (n: int)
    requires 1 <= m <= 12
    ensures 28 <= n <= 31
  {
    if m == 2 then (if IsLeap(y) then 29 else 28)
    else if m == 4 || m == 6 || m == 9 || m == 11 then 30
    else 31
  }

  function DaysInYear(y: int): int {
    if IsLeap(y) then 366 else 365
  }

  /** A date Python can represent; the upper limit, year 9999, is not
      modelled. */
  predicate Valid(d: Date) {
    1 <= d.year && 1 <= d.month <= 12 && 1 <= d.day <= DaysInMonth(d.year, d.month)
  }

  /** Chronological order: year, then month, then day. */
  predicate Before(a: Date, b: Date) {
    a.year < b.year
    || (a.year == b.year && a.month < b.month)
    || (a.year == b.year && a.month == b.month && a.day < b.day)
  }

  predicate NotAfter(a: Date, b: Date) {
    Before(a, b) || a == b
  }

  function Min(a: int, b: int): int {
    if a <= b then a else b
  }

  /** Months elapsed since January of year 0. */
  function MonthIndex(d: Date): int {
    d.year * 12 + d.month - 1
  }

  // ---------------------------------------------------------------------
  // relativedelta(months=n)

  /** `relativedelta(months=n)` normalises `n` into whole years and a month
      remainder carrying the sign of `n` (dateutil's `_fix`). */
  function SplitMonths(n: int): (r: (int, int))
    ensures r.0 * 12 + r.1 == n
    ensures -11 <= r.1 <= 11
    ensures n >= 0 ==> r.1 >= 0
    ensures n <= 0 ==> r.1 <= 0
  {
    if n > 11 then (n / 12, n % 12)
    else if n < -11 then (-((-n) / 12), -((-n) % 12))
    else (0, n)
  }

  /** `d + relativedelta(months=n)`, step for step as dateutil adds it to a
      date: years first, then the month remainder with one carry, then the
      day clamped to the length of the month reached. */
  function AddMonths(d: Date, n: int): (r: Date)
    requires Valid(d)
    requires MonthIndex(d) + n >= 12
    ensures Valid(r)
    ensures MonthIndex(r) == MonthIndex(d) + n
    ensures r.day == if d.day <= DaysInMonth(r.year, r.month) then d.day else DaysInMonth(r.year, r.month)
  {
    var (years, months) := SplitMonths(n);
    var year0 := d.year + years;
    var month0 := d.month + months;
    var (year, month) :=
      if month0 > 12 then (year0 + 1, month0 - 12)
      else if month0 < 1 then (year0 - 1, month0 + 12)
      else (year0, month0);
    var day := if DaysInMonth(year, month) < d.day then DaysInMonth(year, month) else d.day;
    Date(year, month, day)
  }

  /** Adding months is determined by the month reached: the day of month is
      kept unless the target month is too short, in which case it becomes
      that month's last day. Jan 31 + 1 month is Feb 28 or Feb 29. */
  lemma AddMonthsJanuary31(y: int)
    requires y >= 1
    ensures AddMonths(Date(y, 1, 31), 1) == Date(y, 2, if IsLeap(y) then 29 else 28)
  {
  }

  /** Adding months is monotone: more months never give an earlier date. */
  lemma AddMonthsMonotone(d: Date, n: int, m: int)
    requires Valid(d) && MonthIndex(d) + n >= 12
    requires n <= m
    ensures NotAfter(AddMonths(d, n), AddMonths(d, m))
  {
    var a, b := AddMonths(d, n), AddMonths(d, m);
    MonthIndexOrder(a, b);
    if n == m {
      MonthIndexInjective(a, b);
    }
  }

  lemma MonthIndexOrder(a: Date, b: Date)
    requires 1 <= a.month <= 12 && 1 <= b.month <= 12
    ensures MonthIndex(a) < MonthIndex(b) <==> a.year < b.year || (a.year == b.year && a.month < b.month)
  {
  }

  lemma MonthIndexInjective(a: Date, b: Date)
    requires 1 <= a.month <= 12 && 1 <= b.month <= 12
    requires MonthIndex(a) == MonthIndex(b)
    ensures a.year == b.year && a.month == b.month
  {
  }

  /** A whole number of months forward then the same number back returns
      the start date whenever no clamping happened on the way. */
  lemma AddMonthsInverse(d: Date, n: int)
    requires Valid(d) && MonthIndex(d) + n >= 12 && MonthIndex(d) >= 12
    requires d.day <= DaysInMonth(AddMonths(d, n).year, AddMonths(d, n).month)
    ensures AddMonths(AddMonths(d, n), -n) == d
  {
    var r := AddMonths(d, n);
    var b := AddMonths(r, -n);
    MonthIndexInjective(b, d);
  }

  // ---------------------------------------------------------------------
  // timedelta(days=n)

  /** Days from 0001-01-01 to January 1st of year `y` (Python's
      `_days_before_year`). */
  function DaysBeforeYear(y: int): int
    requires y >= 1
  {
    var p := y - 1;
    p * 365 + p / 4 - p / 100 + p / 400
  }

  /** Days in year `y` before the first of month `m` (Python's
      `_days_before_month`). */
  function DaysBeforeMonth(y: int, m: int): int
    requires 1 <= m <= 12
  {
    var table := [0, 0, 31, 59, 90, 120, 151, 181, 212, 243, 273, 304, 334];
    table[m] + (if m > 2 && IsLeap(y) then 1 else 0)
  }

  /** Python's `date.toordinal()`: 0001-01-01 is day 1. */
  function Ordinal(d: Date): (r: int)
    requires Valid(d)
    ensures r >= d.day >= 1
    ensures d.year == 1 && d.month == 1 ==> r == d.day
  {
    DaysBeforeYear(d.year) + DaysBeforeMonth(d.year, d.month) + d.day
  }

  lemma YearLength(y: int)
    requires y >= 1
    ensures DaysBeforeYear(y + 1) == DaysBeforeYear(y) + DaysInYear(y)
  {
    var p := y - 1;
    assert (p + 1) / 4 == p / 4 + (if y % 4 == 0 then 1 else 0);
    assert (p + 1) / 100 == p / 100 + (if y % 100 == 0 then 1 else 0);
    assert (p + 1) / 400 == p / 400 + (if y % 400 == 0 then 1 else 0);
  }

  lemma MonthLength(y: int, m: int)
    requires 1 <= m <= 12
    ensures m < 12 ==> DaysBeforeMonth(y, m + 1) == DaysBeforeMonth(y, m) + DaysInMonth(y, m)
    ensures m == 12 ==> DaysBeforeMonth(y, m) + DaysInMonth(y, m) == DaysInYear(y)
  {
  }

  /** The day after `d`. */
  function NextDay(d: Date): (r: Date)
    requires Valid(d)
    ensures Valid(r)
    ensures Ordinal(r) == Ordinal(d) + 1
    ensures Before(d, r)
  {
    MonthLength(d.year, d.month);
    if d.day < DaysInMonth(d.year, d.month) then Date(d.year, d.month, d.day + 1)
    else if d.month < 12 then Date(d.year, d.month + 1, 1)
    else (YearLength(d.year); Date(d.year + 1, 1, 1))
  }

  /** `d + timedelta(days=n)`: the date whose ordinal is `n` more. */
  function AddDays(d: Date, n: nat): (r: Date)
    requires Valid(d)
    ensures Valid(r)
    ensures Ordinal(r) == Ordinal(d) + n
    decreases n
  {
    if n == 0 then d else AddDays(NextDay(d), n - 1)
  }

  /** Days before a month plus the days in it never exceed the year. */
  lemma MonthFitsYear(y: int, m: int)
    requires 1 <= m <= 12
    ensures DaysBeforeMonth(y, m) + DaysInMonth(y, m) <= DaysInYear(y)
  {
  }

  lemma {:induction false} DaysBeforeYearMonotone(y: int, z: int)
    requires 1 <= y < z
    ensures DaysBeforeYear(y) + DaysInYear(y) <= DaysBeforeYear(z)
    decreases z - y
  {
    YearLength(y);
    if y + 1 < z {
      DaysBeforeYearMonotone(y + 1, z);
    }
  }

  /** The ordinal numbers dates in chronological order. */
  lemma OrdinalOrder(a: Date, b: Date)
    requires Valid(a) && Valid(b)
    ensures Before(a, b) <==> Ordinal(a) < Ordinal(b)
  {
    if a.year < b.year {
      MonthFitsYear(a.year, a.month);
      DaysBeforeYearMonotone(a.year, b.year);
    } else if b.year < a.year {
      MonthFitsYear(b.year, b.month);
      DaysBeforeYearMonotone(b.year, a.year);
    } else if a.month < b.month {
      MonthsBefore(a.year, a.month, b.month);
    } else if b.month < a.month {
      MonthsBefore(a.year, b.month, a.month);
    }
  }

  lemma {:induction false} MonthsBefore(y: int, m: int, k: int)
    requires 1 <= m < k <= 12
    ensures DaysBeforeMonth(y, m) + DaysInMonth(y, m) <= DaysBeforeMonth(y, k)
    decreases k - m
  {
    MonthLength(y, m);
    if m + 1 < k {
      MonthsBefore(y, m + 1, k);
    }
  }

  lemma OrdinalInjective(a: Date, b: Date)
    requires Valid(a) && Valid(b)
    requires Ordinal(a) == Ordinal(b)
    ensures a == b
  {
    OrdinalOrder(a, b);
    OrdinalOrder(b, a);
  }

  /** Adding days agrees with Python's `fromordinal(toordinal() + n)`: it is
      the one valid date `n` days on, and it is later than `d` when `n > 0`. */
  lemma AddDaysCharacterised(d: Date, n: nat, e: Date)
    requires Valid(d) && Valid(e)
    ensures AddDays(d, n) == e <==> Ordinal(e) == Ordinal(d) + n
    ensures n > 0 ==> Before(d, AddDays(d, n))
  {
    if Ordinal(e) == Ordinal(d) + n {
      OrdinalInjective(AddDays(d, n), e);
    }
    OrdinalOrder(d, AddDays(d, n));
  }
}

=== FILE: dashboard.dfy ===
/** The administrator's dashboard figures: head counts by plan and payment
    state, the month's verified revenue, what is still to be collected and
    the total carried-over debt. */
module Dashboard {
  import opened Outcomes
  import opened Tables
  import opened Models
  import opened Expiry

  datatype Stats = Stats(
    totalUsers: nat,
    activeUsers: nat,
    pendingPayments: nat,
    monthlyRevenue: real,
    pendingCollection: real,
    totalOldDebt: int)

  function HasActivePlan(): User -> bool {
    (u: User) => u.isPlanActive
  }

  function PaymentPending(): User -> bool {
    (u: User) => u.paymentStatus == PENDING
  }

  predicate Verified(u: User) {
    u.paymentStatus == VERIFIED_BY_CASH || u.paymentStatus == VERIFIED_BY_UPI
  }

  /** The price of the subscriber's plan; `None` when the plan is gone. */
  function PriceOf(plans: seq<Plan>, u: User): (r: Option<real>)
    ensures r.Some? <==> exists j :: 0 <= j < |plans| && plans[j].id == u.planId
    ensures r.Some? ==> exists j :: 0 <= j < |plans| && plans[j].id == u.planId && plans[j].price == r.value
  {
    match FindPlan(plans, u.planId)
    case None => None
    case Some(p) => Some(p.price)
  }

  predicate PricesNonNegative(plans: seq<Plan>) {
    forall j :: 0 <= j < |plans| ==> plans[j].price >= 0.0
  }

  predicate DebtsNonNegative(users: seq<User>) {
    forall i :: 0 <= i < |users| ==> users[i].oldPending >= 0
  }

  /** One subscriber's share of the revenue: the plan price when payment is
      verified and the plan exists. */
  function RevenueOf(plans: seq<Plan>, u: User): real {
    if Verified(u) && PriceOf(plans, u).Some? then PriceOf(plans, u).value else 0.0
  }

  /** One subscriber's share of the collection still due: plan price plus
      arrears when payment is pending and the plan exists. */
  function CollectionOf(plans: seq<Plan>, u: User): real {
    if u.paymentStatus == PENDING && PriceOf(plans, u).Some?
    then PriceOf(plans, u).value + u.oldPending as real
    else 0.0
  }

  function Revenue(users: seq<User>, plans: seq<Plan>): (r: real)
    ensures PricesNonNegative(plans) ==> r >= 0.0
  {
    if |users| == 0 then 0.0 else RevenueOf(plans, users[0]) + Revenue(users[1..], plans)
  }

  function Collection(users: seq<User>, plans: seq<Plan>): (r: real)
    ensures PricesNonNegative(plans) && DebtsNonNegative(users) ==> r >= 0.0
  {
    if |users| == 0 then 0.0 else CollectionOf(plans, users[0]) + Collection(users[1..], plans)
  }

  /** `SUM(old_pending_amount)`, 0 on an empty table. */
  function OldDebt(users: seq<User>): (r: int)
    ensures DebtsNonNegative(users) ==> r >= 0
  {
    if |users| == 0 then 0 else users[0].oldPending + OldDebt(users[1..])
  }

  /** `GET /api/dashboard/stats`. */
  function DashboardStats(users: seq<User>, plans: seq<Plan>): (r: Stats)
    ensures r.totalUsers == |users|
    ensures r.activeUsers <= r.totalUsers && r.pendingPayments <= r.totalUsers
    ensures r.activeUsers == 0 <==> forall i :: 0 <= i < |users| ==> !users[i].isPlanActive
    ensures PricesNonNegative(plans) ==> r.monthlyRevenue >= 0.0
    ensures PricesNonNegative(plans) && DebtsNonNegative(users) ==> r.pendingCollection >= 0.0
  {
    Stats(|users|, Count(users, HasActivePlan()), Count(users, PaymentPending()),
          Revenue(users, plans), Collection(users, plans), OldDebt(users))
  }

  /** The three sums are taken row by row, so the figures of two tables put
      together are the figures of each added up. */
  lemma {:induction false} SumsAppend(a: seq<User>, b: seq<User>, plans: seq<Plan>)
    ensures Revenue(a + b, plans) == Revenue(a, plans) + Revenue(b, plans)
    ensures Collection(a + b, plans) == Collection(a, plans) + Collection(b, plans)
    ensures OldDebt(a + b) == OldDebt(a) + OldDebt(b)
  {
    if |a| == 0 {
      assert a + b == b;
    } else {
      assert (a + b)[0] == a[0];
      assert (a + b)[1..] == a[1..] + b;
      SumsAppend(a[1..], b, plans);
    }
  }

  /** A subscriber added to the table adds its own share to each figure. */
  lemma StatsOfNewRow(users: seq<User>, plans: seq<Plan>, u: User)
    ensures var before := DashboardStats(users, plans);
      var after := DashboardStats(users + [u], plans);
      && after.totalUsers == before.totalUsers + 1
      && after.activeUsers == before.activeUsers + (if u.isPlanActive then 1 else 0)
      && after.pendingPayments == before.pendingPayments + (if u.paymentStatus == PENDING then 1 else 0)
      && after.monthlyRevenue == before.monthlyRevenue + RevenueOf(plans, u)
      && after.pendingCollection == before.pendingCollection + CollectionOf(plans, u)
      && after.totalOldDebt == before.totalOldDebt + u.oldPending
    // and an empty table has nothing to report
    ensures DashboardStats([], plans) == Stats(0, 0, 0, 0.0, 0.0, 0)
  {
    SumsAppend(users, [u], plans);
    CountAppend(users, [u], HasActivePlan());
    CountAppend(users, [u], PaymentPending());
    assert [u][1..] == [];
  }

  /** After a sweep the active count drops by exactly the number of plans
      the sweep expired, and the pending count grows by those it moved from
      a verified (or any other) payment state to Pending. */
  lemma {:induction false} SweepCounts(users: seq<User>, today: string, due: string)
    ensures Count(Sweep(users, today, due), HasActivePlan()) + Count(users, Chosen(today))
            == Count(users, HasActivePlan())
    ensures Count(Sweep(users, today, due), PaymentPending())
            == Count(users, PaymentPending())
               + Count(users, (u: User) => Selected(u, today) && u.paymentStatus != PENDING)
  {
    if |users| > 0 {
      SweepCounts(users[1..], today, due);
    }
  }

  /** The sweep never touches arrears, and with non-negative prices it can
      only move money from revenue to the collection still due. */
  lemma {:induction false} SweepMoney(users: seq<User>, plans: seq<Plan>, today: string, due: string)
    requires PricesNonNegative(plans)
    ensures OldDebt(Sweep(users, today, due)) == OldDebt(users)
    ensures Revenue(Sweep(users, today, due), plans) <= Revenue(users, plans)
    ensures DebtsNonNegative(users) ==> Collection(Sweep(users, today, due), plans) >= Collection(users, plans)
  {
    if |users| > 0 {
      SweepMoney(users[1..], plans, today, due);
    }
  }
}

=== FILE: expiry.dfy ===
/** The daily expiry sweep: every subscriber whose plan is still marked
    active and whose expiry date is today or earlier is marked expired,
    reset to payment Pending and given a payment due date fifteen days out.
    The whole batch is one transaction. */
module Expiry {
  import opened Outcomes
  import opened Strings
  import opened Tables
  import opened Calendar
  import opened IsoDates
  import opened Models

  /** The sweep's filter: `is_plan_active` and `plan_expiry_date <= today`
      compared as strings. */
  predicate Selected(u: User, today: string) {
    u.isPlanActive && Le(u.planExpiry, today)
  }

  /** The sweep's filter as the query's row predicate. */
  function Chosen(today: string): User -> bool {
    (u: User) => Selected(u, today)
  }

  /** One subscriber's expiry; `old_pending_amount` is kept. */
  function Expire(u: User, due: string): (r: User)
    ensures !r.isPlanActive && r.status == EXPIRED && r.paymentStatus == PENDING && r.paymentDue == due
    ensures r == u.(isPlanActive := r.isPlanActive, status := r.status, paymentStatus := r.paymentStatus,
                    paymentDue := r.paymentDue)
  {
    u.(isPlanActive := false, status := EXPIRED, paymentStatus := PENDING, paymentDue := due)
  }

  function Step(u: User, today: string, due: string): User {
    if Selected(u, today) then Expire(u, due) else u
  }

  /** The table after a committed sweep on day `today`, with `due` the
      formatted date fifteen days on. */
  function Sweep(users: seq<User>, today: string, due: string): (r: seq<User>)
    ensures |r| == |users|
  {
    if |users| == 0 then [] else [Step(users[0], today, due)] + Sweep(users[1..], today, due)
  }

  /** The sweep expires exactly the selected subscribers and leaves every
      other row as it was. */
  lemma {:induction false} SweepPointwise(users: seq<User>, today: string, due: string)
    ensures forall i :: 0 <= i < |users| && Selected(users[i], today) ==>
      Sweep(users, today, due)[i] == Expire(users[i], due)
    ensures forall i :: 0 <= i < |users| && !Selected(users[i], today) ==>
      Sweep(users, today, due)[i] == users[i]
  {
    if |users| > 0 {
      SweepPointwise(users[1..], today, due);
      var r := Sweep(users, today, due);
      assert forall i :: 1 <= i < |users| ==> r[i] == Sweep(users[1..], today, due)[i - 1];
    }
  }

  /** Fields the sweep never writes: keys, contact data, plan id and dates,
      the pending amount and the renewal stamp. */
  lemma SweepKeeps(users: seq<User>, today: string, due: string, i: nat)
    requires i < |users|
    ensures var v := Sweep(users, today, due)[i];
            && (Selected(users[i], today) ==> v == Expire(users[i], due))
            && (!Selected(users[i], today) ==> v == users[i])
            && v.id == users[i].id && v.phone == users[i].phone && v.csId == users[i].csId
            && v.planId == users[i].planId && v.planStart == users[i].planStart
            && v.planExpiry == users[i].planExpiry && v.oldPending == users[i].oldPending
            && v.lastRenewal == users[i].lastRenewal
  {
    SweepPointwise(users, today, due);
  }

  /** Running the sweep twice on the same day changes nothing the second
      time: nobody it leaves behind is still selected. */
  lemma SweepIdempotent(users: seq<User>, today: string, due: string)
    ensures forall i :: 0 <= i < |users| ==> !Selected(Sweep(users, today, due)[i], today)
    ensures Sweep(Sweep(users, today, due), today, due) == Sweep(users, today, due)
  {
    var once := Sweep(users, today, due);
    var twice := Sweep(once, today, due);
    SweepPointwise(users, today, due);
    SweepPointwise(once, today, due);
    assert forall i :: 0 <= i < |users| ==> twice[i] == once[i];
  }

  /** The sweep keeps the table's keys unique and the invariant that an
      active plan means status Active (it only ever deactivates). */
  lemma SweepPreservesInvariants(users: seq<User>, today: string, due: string)
    ensures UsersUnique(users) ==> UsersUnique(Sweep(users, today, due))
    ensures ActiveMeansActive(users) ==> ActiveMeansActive(Sweep(users, today, due))
  {
    var r := Sweep(users, today, due);
    SweepPointwise(users, today, due);
    assert forall i :: 0 <= i < |users| ==> r[i].id == users[i].id && r[i].phone == users[i].phone && r[i].csId == users[i].csId;
  }

  /** On stored dates in `YYYY-MM-DD` form the string filter is the date
      filter: a subscriber is selected exactly when the plan is active and
      its expiry date is not after today. */
  lemma SelectedByDate(u: User, e: Date, today: Date)
    requires InRange(e) && InRange(today)
    requires u.planExpiry == Format(e)
    ensures Selected(u, Format(today)) <==> u.isPlanActive && NotAfter(e, today)
  {
    FormatOrderLe(e, today);
  }

  /** What the run reports: the committed table, and a count of expired
      plans when it succeeded. On failure the table is the one it started
      from. */
  datatype SweepReport = SweepReport(success: bool, expiredCount: Option<nat>, users: seq<User>)

  /** The loop over the selected subscribers with the due date `due`. */
  method ExpireAll(users: seq<User>, today: string, due: string) returns (out: seq<User>, count: nat)
    ensures count == Count(users, Chosen(today))
    ensures out == Sweep(users, today, due)
  {
    out := [];
    count := 0;
    var i := 0;
    while i < |users|
      invariant 0 <= i <= |users|
      invariant count + Count(users[i..], Chosen(today)) == Count(users, Chosen(today))
      invariant out + Sweep(users[i..], today, due) == Sweep(users, today, due)
    {
      assert users[i..][1..] == users[i + 1..];
      count := count + (if Selected(users[i], today) then 1 else 0);
      out := out + [Step(users[i], today, due)];
      i := i + 1;
    }
  }

  lemma NoneChosen(users: seq<User>, today: string)
    ensures Count(users, Chosen(today)) == 0 <==> forall j :: 0 <= j < |users| ==> !Selected(users[j], today)
  {
    assert forall j :: 0 <= j < |users| ==> (Chosen(today)(users[j]) <==> Selected(users[j], today));
  }

  /** `check_and_expire_plans`, run at some instant of `clock.today`. The
      due date is computed for each selected subscriber, so a run where
      today + 15 days would pass year 9999 fails only if somebody is
      selected; `commitFails` is the database refusing the commit. Either
      failure rolls the whole batch back. */
  method CheckAndExpire(users: seq<User>, clock: Clock, commitFails: bool) returns (report: SweepReport)
    requires InRange(clock.today)
    ensures var today := Format(clock.today);
            var selected := Count(users, Chosen(today));
            report.success <==> !commitFails && (selected == 0 || AddDays(clock.today, 15).year <= 9999)
    ensures report.success ==> (
      var today := Format(clock.today);
      var due := AddDays(clock.today, 15);
      && report.expiredCount == Some(Count(users, Chosen(today)))
      && (due.year <= 9999 ==> report.users == Sweep(users, today, Format(due)))
      && (due.year > 9999 ==> report.users == users))
    ensures !report.success ==> report.users == users && report.expiredCount.None?
  {
    var today := Format(clock.today);
    var due := AddDays(clock.today, 15);
    if due.year > 9999 {
      // the due date is computed, and overflows, at the first selected
      // subscriber; the rollback discards what the loop did before it
      NoneChosen(users, today);
      if exists j | 0 <= j < |users| :: Selected(users[j], today) {
        return SweepReport(false, None, users);
      }
      if commitFails {
        return SweepReport(false, None, users);
      }
      return SweepReport(true, Some(0), users);
    }
    var out, count := ExpireAll(users, today, Format(due));
    if commitFails {
      return SweepReport(false, None, users);
    }
    return SweepReport(true, Some(count), out);
  }
}

=== FILE: installations.dfy ===
/** The field engineer's side of the lifecycle: onboarding a new customer
    (who waits as "Pending Installation"), the installation task list, and
    moving a task to "Installation Scheduled" or "Completed", the latter
    starting the customer's first month of service. */
module Installations {
  import opened Outcomes
  import opened Strings
  import opened Tables
  import opened Calendar
  import opened IsoDates
  import opened Models
  import opened Schemas
  import opened Accounts

  const MAX_PHOTO_SIZE: nat := 5 * 1024 * 1024
  const MAX_DOCUMENT_SIZE: nat := 10 * 1024 * 1024

  // ---------------------------------------------------------------------
  // Mobile numbers and uploads

  /** `validate_mobile`: drop every non-digit, then demand ten digits
      starting with 6, 7, 8 or 9; the normalised number is returned. */
  function ValidateMobile(mobile: string): (r: Result<string>)
    ensures r.Ok? <==> |KeepDigits(mobile)| == 10 && '6' <= KeepDigits(mobile)[0] <= '9'
    ensures r.Ok? ==> r.value == KeepDigits(mobile)
    ensures r.Err? && |KeepDigits(mobile)| != 10 ==> r.error == BadRequest(MobileLength)
    ensures r.Err? && |KeepDigits(mobile)| == 10 ==> r.error == BadRequest(MobilePrefix)
  {
    var digits := KeepDigits(mobile);
    if |digits| != 10 then Err(BadRequest(MobileLength))
    else if !(digits[0] == '6' || digits[0] == '7' || digits[0] == '8' || digits[0] == '9')
    then Err(BadRequest(MobilePrefix))
    else Ok(digits)
  }

  /** A normalised number validates to itself. */
  lemma ValidateMobileIdempotent(mobile: string)
    requires ValidateMobile(mobile).Ok?
    ensures ValidateMobile(ValidateMobile(mobile).value) == ValidateMobile(mobile)
  {
    KeepDigitsOfDigits(KeepDigits(mobile));
  }

  /** A space between the digit groups is dropped. */
  lemma ValidateMobileSeparator()
    ensures ValidateMobile("98765 43210") == Ok("9876543210")
  {
    KeepDigitsAround("98765", ' ', "43210");
    assert "98765" + [' '] + "43210" == "98765 43210";
    assert "98765" + "43210" == "9876543210";
    assert KeepDigits("98765 43210") == "9876543210";
  }

  /** A "+91" country code in front of a ten-digit number makes it too
      long. */
  lemma ValidateMobileCountryCode(n: string)
    requires IsDigits(n) && |n| == 10
    ensures ValidateMobile("+91" + n) == Err(BadRequest(MobileLength))
  {
    KeepDigitsConcat("+91", n);
    KeepDigitsOfDigits(n);
    assert "+91"[1..] == "91" && "91"[1..] == "1" && "1"[1..] == "";
    assert KeepDigits("+91") == "91";
    assert |KeepDigits("+91" + n)| == 12;
  }

  /** Example (the general rule is `ValidateMobile`'s contract): ten digits
      starting with 1 are refused for the prefix. */
  lemma ValidateMobilePrefix()
    ensures ValidateMobile("1234567890") == Err(BadRequest(MobilePrefix))
  {
    KeepDigitsOfDigits("1234567890");
  }

  /** `validate_file_size` over the photo and each document: an absent file
      passes, a present one must not exceed its limit. */
  predicate FilesAcceptable(photo: Option<nat>, documents: seq<Option<nat>>) {
    && (photo.Some? ==> photo.value <= MAX_PHOTO_SIZE)
    && forall k :: 0 <= k < |documents| && documents[k].Some? ==> documents[k].value <= MAX_DOCUMENT_SIZE
  }

  // ---------------------------------------------------------------------
  // Onboarding

  /** The form of `POST /api/engineer/add-customer`; file contents are
      reduced to their sizes. */
  datatype Onboarding = Onboarding(
    name: string, mobile: string, email: Option<string>, address: string, plan: string,
    password: string, photoSize: Option<nat>, documentSizes: seq<Option<nat>>)

  /** Every required form field was sent non-empty; FastAPI answers 422
      for one sent empty before the handler runs. The email is optional. */
  predicate OnboardingComplete(f: Onboarding) {
    f.name != "" && f.mobile != "" && f.address != "" && f.plan != "" && f.password != ""
  }

  datatype Onboarded = Onboarded(users: seq<User>, csId: string, planName: string)

  /** The plan an onboarding form names: the first plan whose name contains
      the first word of the request (LIKE, so ignoring ASCII case), else the
      first plan of all. */
  function ChoosePlan(plans: seq<Plan>, requested: string): (r: Result<Plan>)
    ensures IsBlank(requested) ==> r == Err(ServerError(EmptyPlanName))
    ensures !IsBlank(requested) && |plans| == 0 ==> r == Err(BadRequest(NoPlans))
    ensures r.Ok? <==> !IsBlank(requested) && |plans| > 0
    ensures r.Ok? ==> r.value in plans
    ensures r.Ok? ==> var word := FirstWord(requested);
      if exists j :: 0 <= j < |plans| && LikeContains(plans[j].name, word)
      then LikeContains(r.value.name, word)
           && exists j :: 0 <= j < |plans| && plans[j] == r.value
                          && forall k :: 0 <= k < j ==> !LikeContains(plans[k].name, word)
      else r.value == plans[0]
  {
    var word := FirstWord(requested);
    FirstWordNonEmpty(requested);
    if word == "" then Err(ServerError(EmptyPlanName))
    else match FirstIndex(plans, (p: Plan) => LikeContains(p.name, word))
    case Some(j) => Ok(plans[j])
    case None =>
      if |plans| == 0 then Err(BadRequest(NoPlans)) else Ok(plans[0])
  }

  /** The customer code derived from a normalised mobile number. */
  function CustomerCode(mobile: string): (c: string)
    requires |mobile| == 10
    ensures |c| == 7 && StartsWith(c, "CS_") && c[3..] == mobile[6..]
  {
    "CS_" + mobile[6..]
  }

  /** The checks `add_new_customer` makes before it writes anything, in
      the order it makes them; on success the normalised mobile number. */
  function CheckOnboarding(users: seq<User>, f: Onboarding): (r: Result<string>)
    ensures !OnboardingComplete(f) ==> r == Err(Unprocessable)
    ensures OnboardingComplete(f) && ValidateMobile(f.mobile).Err? ==> r == Err(ValidateMobile(f.mobile).error)
    ensures OnboardingComplete(f) && ValidateMobile(f.mobile).Ok? && |f.password| < 6 ==> r == Err(BadRequest(PasswordTooShort))
    ensures (OnboardingComplete(f) && ValidateMobile(f.mobile).Ok? && |f.password| >= 6 && |Strip(f.name)| >= 2 && |Strip(f.address)| >= 10
             && PhoneInUse(users, ValidateMobile(f.mobile).value)) ==> r == Err(BadRequest(PhoneTaken))
    ensures r.Ok? <==> (
      && OnboardingComplete(f) && ValidateMobile(f.mobile).Ok?
      && |f.password| >= 6 && |Strip(f.name)| >= 2 && |Strip(f.address)| >= 10
      && !PhoneInUse(users, ValidateMobile(f.mobile).value)
      && FilesAcceptable(f.photoSize, f.documentSizes))
    ensures r.Ok? ==> r.value == ValidateMobile(f.mobile).value
  {
    if !OnboardingComplete(f) then Err(Unprocessable)
    else match ValidateMobile(f.mobile)
    case Err(e) => Err(e)
    case Ok(mobile) =>
      if |f.password| < 6 then Err(BadRequest(PasswordTooShort))
      else if |Strip(f.name)| < 2 then Err(BadRequest(NameTooShort))
      else if |Strip(f.address)| < 10 then Err(BadRequest(AddressTooShort))
      else if PhoneInUse(users, mobile) then Err(BadRequest(PhoneTaken))
      else if !FilesAcceptable(f.photoSize, f.documentSizes) then Err(BadRequest(FileTooLarge))
      else Ok(mobile)
  }

  /** The row `add_new_customer` writes: awaiting installation, inactive,
      Pending payment and no arrears, yet with its plan dates already
      counted from today. Without an email the address is made up from the
      mobile number. */
  function NewCustomer(f: Onboarding, mobile: string, plan: Plan, newId: string, today: Date, expiry: Date, due: Date)
    : (u: User)
    requires |mobile| == 10 && InRange(today) && InRange(expiry) && InRange(due)
    ensures u.id == newId && u.phone == mobile && u.csId == CustomerCode(mobile) && u.planId == plan.id
    ensures u.name == Strip(f.name) && u.address == Strip(f.address) && u.password == f.password
    ensures u.email == (if Truthy(f.email) then Strip(f.email.value) else mobile + "@4you.in")
    ensures u.status == PENDING_INSTALLATION && !u.isPlanActive
    ensures u.paymentStatus == PENDING && u.oldPending == 0 && u.lastRenewal.None?
    ensures Parse(u.planStart) == Some(today) && Parse(u.planExpiry) == Some(expiry)
    ensures Parse(u.paymentDue) == Some(due) && Parse(u.createdAt) == Some(today)
  {
    ParseFormat(today);
    ParseFormat(expiry);
    ParseFormat(due);
    var email := if Truthy(f.email) then Strip(f.email.value) else mobile + "@4you.in";
    User(newId, CustomerCode(mobile), Strip(f.name), mobile, email, f.password, Strip(f.address),
         plan.id, Format(today), Format(expiry), false, None, PENDING, 0,
         Format(due), PENDING_INSTALLATION, Format(today))
  }

  /** `POST /api/engineer/add-customer`. The row id (`usr_<milliseconds>`)
      is a parameter. No installation record is created. */
  function AddCustomer(users: seq<User>, plans: seq<Plan>, f: Onboarding, newId: string, clock: Clock)
    : (r: Result<Onboarded>)
    requires InRange(clock.today)
    ensures CheckOnboarding(users, f).Err? ==> r == Err(CheckOnboarding(users, f).error)
    ensures (CheckOnboarding(users, f).Ok? && PlanDates(clock.today).Some?
             && ChoosePlan(plans, f.plan).Err?) ==> r == Err(ChoosePlan(plans, f.plan).error)
    ensures r.Ok? ==> (
      && CheckOnboarding(users, f).Ok?
      && PlanDates(clock.today).Some?
      && ChoosePlan(plans, f.plan).Ok?
      && var plan := ChoosePlan(plans, f.plan).value;
      && var mobile := CheckOnboarding(users, f).value;
      && r.value.users == users + [NewCustomer(f, mobile, plan, newId, clock.today,
                                               PlanDates(clock.today).value.0, PlanDates(clock.today).value.1)]
      && r.value.csId == CustomerCode(mobile) && r.value.planName == plan.name
      // the id, the phone and the customer code were all free
      && forall j :: 0 <= j < |users| ==>
           users[j].id != newId && users[j].phone != mobile && users[j].csId != CustomerCode(mobile))
  {
    match CheckOnboarding(users, f)
    case Err(e) => Err(e)
    case Ok(mobile) =>
      match PlanDates(clock.today)
      case None => Err(ServerError(DateOutOfRange))
      case Some((expiry, due)) =>
        match ChoosePlan(plans, f.plan)
        case Err(e) => Err(e)
        case Ok(plan) =>
          var u := NewCustomer(f, mobile, plan, newId, clock.today, expiry, due);
          match InsertUser(users, u)
          case Err(e) => Err(e)
          case Ok(users') => Ok(Onboarded(users', u.csId, plan.name))
  }

  /** Onboarding succeeds exactly when the form passes its checks, the
      dates fit, the plan is found, and the id, the mobile number and the
      customer code are all free. */
  lemma AddCustomerSucceeds(users: seq<User>, plans: seq<Plan>, f: Onboarding, newId: string, clock: Clock)
    requires InRange(clock.today)
    ensures (
      && CheckOnboarding(users, f).Ok? && PlanDates(clock.today).Some? && ChoosePlan(plans, f.plan).Ok?
      && var mobile := CheckOnboarding(users, f).value;
      && forall j :: 0 <= j < |users| ==>
           users[j].id != newId && users[j].phone != mobile && users[j].csId != CustomerCode(mobile))
      <==> AddCustomer(users, plans, f, newId, clock).Ok?
  {
    if CheckOnboarding(users, f).Ok? && PlanDates(clock.today).Some? && ChoosePlan(plans, f.plan).Ok? {
      var mobile := CheckOnboarding(users, f).value;
      var plan := ChoosePlan(plans, f.plan).value;
      var (expiry, due) := PlanDates(clock.today).value;
      var u := NewCustomer(f, mobile, plan, newId, clock.today, expiry, due);
      assert u.id == newId && u.phone == mobile && u.csId == CustomerCode(mobile);
      if forall j :: 0 <= j < |users| ==>
           users[j].id != newId && users[j].phone != mobile && users[j].csId != CustomerCode(mobile) {
        assert forall j :: 0 <= j < |users| ==>
          users[j].id != u.id && users[j].phone != u.phone && users[j].csId != u.csId;
        InsertFresh(users, u);
        assert AddCustomer(users, plans, f, newId, clock) == Ok(Onboarded(users + [u], u.csId, plan.name));
      }
    }
  }

  /** Onboarding keeps the keys unique and adds no active plan. */
  lemma AddCustomerKeepsInvariants(users: seq<User>, plans: seq<Plan>, f: Onboarding, newId: string, clock: Clock)
    requires InRange(clock.today)
    requires AddCustomer(users, plans, f, newId, clock).Ok?
    ensures UsersUnique(users) ==> UsersUnique(AddCustomer(users, plans, f, newId, clock).value.users)
    ensures ActiveMeansActive(users) ==> ActiveMeansActive(AddCustomer(users, plans, f, newId, clock).value.users)
  {
    var mobile := CheckOnboarding(users, f).value;
    var plan := ChoosePlan(plans, f.plan).value;
    var (expiry, due) := PlanDates(clock.today).value;
    var u := NewCustomer(f, mobile, plan, newId, clock.today, expiry, due);
    AppendKeepsInvariants(users, u);
  }

  /** The customer code keeps only the last four digits, so a second
      customer whose number ends like an existing customer's cannot be
      onboarded: the unique customer code refuses the insert. */
  lemma SharedLastFourDigits(users: seq<User>, plans: seq<Plan>, f: Onboarding, g: Onboarding,
                             id1: string, id2: string, clock: Clock)
    requires InRange(clock.today)
    requires AddCustomer(users, plans, f, id1, clock).Ok?
    requires ValidateMobile(g.mobile).Ok?
    requires ValidateMobile(g.mobile).value[6..] == ValidateMobile(f.mobile).value[6..]
    ensures AddCustomer(AddCustomer(users, plans, f, id1, clock).value.users, plans, g, id2, clock).Err?
  {
    var once := AddCustomer(users, plans, f, id1, clock).value.users;
    var c := CustomerCode(ValidateMobile(f.mobile).value);
    assert once[|users|].csId == c;
    assert CustomerCode(ValidateMobile(g.mobile).value) == c;
    assert exists j :: 0 <= j < |once| && once[j].csId == c;
  }

  // ---------------------------------------------------------------------
  // The task list

  datatype Summary = Summary(pending: nat, scheduled: nat, completed: nat, total: nat)

  predicate TaskStatus(s: string) {
    s == PENDING_INSTALLATION || s == INSTALLATION_SCHEDULED || s == COMPLETED
  }

  /** An installation appears on the task list when its status is one of
      the three task statuses and its customer still exists. */
  function Listed(users: seq<User>): Installation -> bool {
    (i: Installation) => TaskStatus(i.status) && FindUser(users, i.userId).Some?
  }

  function ListedWith(users: seq<User>, status: string): Installation -> bool {
    (i: Installation) => i.status == status && FindUser(users, i.userId).Some?
  }

  /** `GET /api/engineer/tasks` summary counts. */
  function TaskSummary(installations: seq<Installation>, users: seq<User>): (r: Summary)
    ensures r.pending + r.scheduled + r.completed == r.total
    ensures r.total == Count(installations, Listed(users))
    ensures r.pending == Count(installations, ListedWith(users, PENDING_INSTALLATION))
    ensures r.scheduled == Count(installations, ListedWith(users, INSTALLATION_SCHEDULED))
    ensures r.completed == Count(installations, ListedWith(users, COMPLETED))
  {
    if |installations| == 0 then Summary(0, 0, 0, 0)
    else
      var rest := TaskSummary(installations[1..], users);
      var i := installations[0];
      var known := FindUser(users, i.userId).Some?;
      var p := if known && i.status == PENDING_INSTALLATION then 1 else 0;
      var s := if known && i.status == INSTALLATION_SCHEDULED then 1 else 0;
      var c := if known && i.status == COMPLETED then 1 else 0;
      Summary(rest.pending + p, rest.scheduled + s, rest.completed + c, rest.total + p + s + c)
  }

  // ---------------------------------------------------------------------
  // Scheduling and completion

  datatype TaskUpdate = TaskUpdate(users: seq<User>, installations: seq<Installation>)

  /** The installation record of a customer: the first one with that user. */
  function FindInstallation(installations: seq<Installation>, userId: string): (r: Option<nat>)
    ensures r.Some? ==> r.value < |installations| && installations[r.value].userId == userId
    ensures r.Some? ==> forall k :: 0 <= k < r.value ==> installations[k].userId != userId
    ensures r.None? <==> forall k :: 0 <= k < |installations| ==> installations[k].userId != userId
  {
    FirstIndex(installations, (i: Installation) => i.userId == userId)
  }

  /** Scheduling: record the engineer and date on the customer's
      installation, creating it (with id `newId`) if there is none. */
  function Schedule(installations: seq<Installation>, userId: string, engineerId: string, date: string, newId: string)
    : (r: Result<seq<Installation>>)
    ensures FindInstallation(installations, userId).Some? ==> (
      var k := FindInstallation(installations, userId).value;
      && r.Ok?
      && |r.value| == |installations|
      && r.value[k] == installations[k].(status := INSTALLATION_SCHEDULED, engineerId := Some(engineerId),
                                         scheduledDate := Some(date))
      && forall j :: 0 <= j < |installations| && j != k ==> r.value[j] == installations[j])
    ensures FindInstallation(installations, userId).None? ==>
      (r.Ok? <==> forall j :: 0 <= j < |installations| ==> installations[j].id != newId)
    ensures FindInstallation(installations, userId).None? && r.Ok? ==>
      r.value == installations + [Installation(newId, userId, Some(engineerId), INSTALLATION_SCHEDULED, Some(date), None)]
    ensures r.Err? ==> r.error == ServerError(DuplicateKey)
  {
    match FindInstallation(installations, userId)
    case Some(k) =>
      Ok(installations[k := installations[k].(status := INSTALLATION_SCHEDULED, engineerId := Some(engineerId),
                                              scheduledDate := Some(date))])
    case None =>
      if exists j :: 0 <= j < |installations| && installations[j].id == newId then Err(ServerError(DuplicateKey))
      else Ok(installations + [Installation(newId, userId, Some(engineerId), INSTALLATION_SCHEDULED, Some(date), None)])
  }

  /** The scheduling branch of `update_task` for the customer at index
      `i`: only the customer's status changes, and the installation record
      gets the engineer and the date, written back in ISO form. */
  function ScheduleTask(db: Db, i: nat, scheduledDate: Option<string>, engineerId: string, newId: string)
    : (r: Result<TaskUpdate>)
    requires i < |db.users|
    ensures !Truthy(scheduledDate) ==> r == Err(BadRequest(ScheduledDateMissing))
    ensures Truthy(scheduledDate) && Parse(scheduledDate.value).None? ==> r == Err(BadRequest(ScheduledDateFormat))
    ensures r.Ok? ==> (
      && Truthy(scheduledDate) && Parse(scheduledDate.value).Some?
      && r.value.users == db.users[i := db.users[i].(status := INSTALLATION_SCHEDULED)]
      && Schedule(db.installations, db.users[i].id, engineerId, Format(Parse(scheduledDate.value).value), newId)
         == Ok(r.value.installations))
    ensures r.Ok? <==> (
      && Truthy(scheduledDate) && Parse(scheduledDate.value).Some?
      && Schedule(db.installations, db.users[i].id, engineerId, Format(Parse(scheduledDate.value).value), newId).Ok?)
    ensures r.Ok? && UsersUnique(db.users) ==> UsersUnique(r.value.users)
    ensures r.Ok? && ActiveMeansActive(db.users) && !db.users[i].isPlanActive ==> ActiveMeansActive(r.value.users)
  {
    if !Truthy(scheduledDate) then Err(BadRequest(ScheduledDateMissing))
    else match Parse(scheduledDate.value)
    case None => Err(BadRequest(ScheduledDateFormat))
    case Some(dt) =>
      var u := db.users[i].(status := INSTALLATION_SCHEDULED);
      assert UsersUnique(db.users) ==> UsersUnique(db.users[i := u]) by {
        if UsersUnique(db.users) { ReplaceKeepsUnique(db.users, i, u); }
      }
      match Schedule(db.installations, db.users[i].id, engineerId, Format(dt), newId)
      case Err(e) => Err(e)
      case Ok(installations) => Ok(TaskUpdate(db.users[i := u], installations))
  }

  /** The customer row on completion: status Active, plan active, and a
      month of service from today; nothing else changes. */
  function Activated(u: User, today: Date, expiry: Date, due: Date): (r: User)
    requires InRange(today) && InRange(expiry) && InRange(due)
    ensures r.status == ACTIVE && r.isPlanActive
    ensures Parse(r.planStart) == Some(today) && Parse(r.planExpiry) == Some(expiry) && Parse(r.paymentDue) == Some(due)
    ensures r == u.(status := r.status, isPlanActive := r.isPlanActive, planStart := r.planStart,
                    planExpiry := r.planExpiry, paymentDue := r.paymentDue)
  {
    ParseFormat(today);
    ParseFormat(expiry);
    ParseFormat(due);
    u.(status := ACTIVE, isPlanActive := true, planStart := Format(today),
       planExpiry := Format(expiry), paymentDue := Format(due))
  }

  /** The customer's installation record, if there is one, is completed
      today; every other record stays as it was. */
  function CompleteInstallation(installations: seq<Installation>, userId: string, today: Date)
    : (r: seq<Installation>)
    requires InRange(today)
    ensures |r| == |installations|
    ensures FindInstallation(installations, userId).None? ==> r == installations
    ensures FindInstallation(installations, userId).Some? ==> (
      var k := FindInstallation(installations, userId).value;
      && r[k] == installations[k].(status := COMPLETED, completedDate := Some(Format(today)))
      && forall j :: 0 <= j < |installations| && j != k ==> r[j] == installations[j])
  {
    match FindInstallation(installations, userId)
    case None => installations
    case Some(k) => installations[k := installations[k].(status := COMPLETED, completedDate := Some(Format(today)))]
  }

  /** The completion branch of `update_task`, from whatever status the
      customer had; it fails only when a plan date would pass year 9999. */
  function CompleteTask(db: Db, i: nat, clock: Clock): (r: Result<TaskUpdate>)
    requires i < |db.users| && InRange(clock.today)
    ensures r.Ok? <==> PlanDates(clock.today).Some?
    ensures r.Err? ==> r.error == ServerError(DateOutOfRange)
    ensures r.Ok? ==> (
      var (expiry, due) := PlanDates(clock.today).value;
      && r.value.users == db.users[i := Activated(db.users[i], clock.today, expiry, due)]
      && r.value.installations == CompleteInstallation(db.installations, db.users[i].id, clock.today))
  {
    match PlanDates(clock.today)
    case None => Err(ServerError(DateOutOfRange))
    case Some((expiry, due)) =>
      Ok(TaskUpdate(db.users[i := Activated(db.users[i], clock.today, expiry, due)],
                    CompleteInstallation(db.installations, db.users[i].id, clock.today)))
  }

  /** Completion keeps the keys unique and leaves every active plan with
      status Active: the completed customer is made Active together with
      the plan. */
  lemma CompleteTaskKeepsInvariants(db: Db, i: nat, clock: Clock)
    requires i < |db.users| && InRange(clock.today)
    requires CompleteTask(db, i, clock).Ok?
    ensures UsersUnique(db.users) ==> UsersUnique(CompleteTask(db, i, clock).value.users)
    ensures ActiveMeansActive(db.users) ==> ActiveMeansActive(CompleteTask(db, i, clock).value.users)
  {
    var (expiry, due) := PlanDates(clock.today).value;
    ActivationKeepsInvariants(db.users, i, clock.today, expiry, due);
  }

  lemma ActivationKeepsInvariants(users: seq<User>, i: nat, today: Date, expiry: Date, due: Date)
    requires i < |users| && InRange(today) && InRange(expiry) && InRange(due)
    ensures UsersUnique(users) ==> UsersUnique(users[i := Activated(users[i], today, expiry, due)])
    ensures ActiveMeansActive(users) ==> ActiveMeansActive(users[i := Activated(users[i], today, expiry, due)])
  {
    var u := Activated(users[i], today, expiry, due);
    if UsersUnique(users) {
      ReplaceKeepsUnique(users, i, u);
    }
    if ActiveMeansActive(users) {
      ReplaceKeepsActive(users, i, u);
    }
  }

  /** `PUT /api/engineer/update-task/{id}`: an unknown customer is 404, a
      status other than "Installation Scheduled" or "Completed" is refused,
      and the two statuses go to their branches. Scheduling accepts any
      date that parses, past ones included. `newId` is the id a new
      installation record would get. */
  function UpdateTask(db: Db, userId: string, status: string, scheduledDate: Option<string>,
                      engineerId: string, newId: string, clock: Clock): (r: Result<TaskUpdate>)
    requires InRange(clock.today)
    // a required form field sent empty is a 422 before the handler runs
    ensures status == "" ==> r == Err(Unprocessable)
    ensures status != "" && FindUser(db.users, userId).None? ==> r == Err(NotFound)
    ensures status != "" && FindUser(db.users, userId).Some? && status != INSTALLATION_SCHEDULED && status != COMPLETED
            ==> r == Err(BadRequest(InvalidTaskStatus))
    ensures (FindUser(db.users, userId).Some? && status == INSTALLATION_SCHEDULED)
            ==> r == ScheduleTask(db, FindUser(db.users, userId).value, scheduledDate, engineerId, newId)
    ensures (FindUser(db.users, userId).Some? && status == COMPLETED)
            ==> r == CompleteTask(db, FindUser(db.users, userId).value, clock)
    ensures r.Ok? && UsersUnique(db.users) ==> UsersUnique(r.value.users)
    ensures r.Ok? && status == COMPLETED && ActiveMeansActive(db.users) ==> ActiveMeansActive(r.value.users)
  {
    if status == "" then Err(Unprocessable)
    else match FindUser(db.users, userId)
    case None => Err(NotFound)
    case Some(i) =>
      if status == INSTALLATION_SCHEDULED then ScheduleTask(db, i, scheduledDate, engineerId, newId)
      else if status == COMPLETED then
        var done := CompleteTask(db, i, clock);
        if done.Ok? then CompleteTaskKeepsInvariants(db, i, clock); done else done
      else Err(BadRequest(InvalidTaskStatus))
  }

  /** Scheduling accepts a date in the past. */
  lemma ScheduleInThePast(u: User, engineerId: string, clock: Clock)
    requires InRange(clock.today) && Before(Date(2020, 1, 1), clock.today)
    ensures var r := UpdateTask(Db([], [u], [], [], []), u.id, INSTALLATION_SCHEDULED, Some("2020-01-01"),
                                engineerId, "ins_1", clock);
            r.Ok? && r.value.installations[0].scheduledDate == Some("2020-01-01")
  {
    NewYear2020();
  }

  /** Scheduling a customer whose plan is already active (say, renewed
      before installation) leaves an active plan with status "Installation
      Scheduled": the one lifecycle transition that can break the rule that
      an active plan means status Active. */
  lemma ScheduleActiveCustomer(u: User, engineerId: string, clock: Clock)
    requires InRange(clock.today)
    requires u.isPlanActive && u.status == ACTIVE
    ensures ActiveMeansActive([u])
    ensures var r := UpdateTask(Db([], [u], [], [], []), u.id, INSTALLATION_SCHEDULED, Some("2020-01-01"),
                                engineerId, "ins_1", clock);
            r.Ok? && !ActiveMeansActive(r.value.users)
  {
    NewYear2020();
    var db := Db([], [u], [], [], []);
    assert FindUser(db.users, u.id) == Some(0);
    assert Schedule([], u.id, engineerId, "2020-01-01", "ins_1").Ok?;
    var s := ScheduleTask(db, 0, Some("2020-01-01"), engineerId, "ins_1");
    assert s.Ok? && s.value.users == [u.(status := INSTALLATION_SCHEDULED)];
    assert !ActiveMeansActive(s.value.users) by {
      assert s.value.users[0].isPlanActive && s.value.users[0].status != ACTIVE;
    }
  }
}

=== FILE: invoice_pdf.dfy ===
/** What an invoice PDF says, as opposed to how it is laid out: the charge
    rows, the one-month arithmetic with 18% GST, the invoice number and file
    name, and the parameters of the UPI payment link printed as a QR code. */
module InvoicePdf {
  import opened Outcomes
  import opened Strings
  import opened Calendar
  import opened IsoDates
  import opened Schemas

  const GST_PERCENT: real := 18.0
  const DEFAULT_UPI_ID := "4youbroadband@upi"
  const COMPANY_NAME := "4You Broadband"

  // ---------------------------------------------------------------------
  // Charges

  /** A row of the items table: the plan, then arrears when there are any. */
  datatype Item = PlanItem(name: string, amount: real) | ArrearsItem(amount: real)

  datatype Charges = Charges(items: seq<Item>, subtotal: real, gst: real, total: real)

  /** One month of the plan plus any arrears, with GST on the lot; no
      multiplier for the months renewed and no rounding. */
  function Bill(planName: string, price: real, oldPending: real): (c: Charges)
    ensures 1 <= |c.items| <= 2 && c.items[0] == PlanItem(planName, price)
    ensures |c.items| == 2 <==> oldPending > 0.0
    ensures |c.items| == 1 || c.items[1] == ArrearsItem(oldPending)
    // the subtotal is what the rows add up to
    ensures c.subtotal == ItemsTotal(c.items) + (if oldPending > 0.0 then 0.0 else oldPending)
    ensures c.gst * 100.0 == c.subtotal * GST_PERCENT
    ensures c.total == c.subtotal + c.gst
  {
    var items := [PlanItem(planName, price)] + (if oldPending > 0.0 then [ArrearsItem(oldPending)] else []);
    var subtotal := price + oldPending;
    assert items[1..] == (if oldPending > 0.0 then [ArrearsItem(oldPending)] else []);
    assert ItemsTotal(items) == price + ItemsTotal(items[1..]);
    assert oldPending > 0.0 ==> ItemsTotal(items[1..]) == oldPending + ItemsTotal(items[2..]);
    var gst := subtotal * GST_PERCENT / 100.0;
    Charges(items, subtotal, gst, subtotal + gst)
  }

  function ItemsTotal(items: seq<Item>): real {
    if |items| == 0 then 0.0 else items[0].amount + ItemsTotal(items[1..])
  }

  /** The total is the subtotal plus 18%; with a non-negative price and no
      credit it is at least the subtotal. */
  lemma BillTotal(planName: string, price: real, oldPending: real)
    ensures Bill(planName, price, oldPending).total == (price + oldPending) * 1.18
    ensures price + oldPending >= 0.0 ==> Bill(planName, price, oldPending).total >= price + oldPending
  {
  }

  /** Example (the general rule is `BillTotal`): a 999 plan with nothing
      outstanding gives 179.82 of GST, 1178.82 in all. */
  lemma BillExample()
    ensures var c := Bill("Basic", 999.0, 0.0);
      |c.items| == 1 && c.subtotal == 999.0 && c.gst == 179.82 && c.total == 1178.82
  {
  }

  /** A negative arrears figure gets no row but still lowers the subtotal,
      so the rows printed do not add up to it. */
  lemma CreditNotShown()
    ensures var c := Bill("Basic", 999.0, -100.0);
      |c.items| == 1 && ItemsTotal(c.items) == 999.0 && c.subtotal == 899.0
  {
  }

  // ---------------------------------------------------------------------
  // Invoice number and file name

  /** `datetime.now().strftime("%Y%m%d_%H%M%S")` for a date and a second of
      that day. */
  function Timestamp(d: Date, second: nat): (r: string)
    requires InRange(d) && second < 86400
    ensures |r| == 15 && r[8] == '_'
    ensures forall i :: 0 <= i < 15 && i != 8 ==> IsDigit(r[i])
    ensures Value(r[..4]) == d.year && Value(r[4..6]) == d.month && Value(r[6..8]) == d.day
    ensures Value(r[9..11]) < 24 && Value(r[11..13]) < 60 && Value(r[13..15]) < 60
    ensures Value(r[9..11]) * 3600 + Value(r[11..13]) * 60 + Value(r[13..15]) == second
  {
    var hh, mm, ss := second / 3600, second / 60 % 60, second % 60;
    ClockFields(second);
    var date := Pad(d.year, 4) + Pad(d.month, 2) + Pad(d.day, 2);
    var time := Pad(hh, 2) + Pad(mm, 2) + Pad(ss, 2);
    var r := date + "_" + time;
    assert r[..8] == date && r[9..] == time;
    assert date[..4] == Pad(d.year, 4) && date[4..6] == Pad(d.month, 2) && date[6..] == Pad(d.day, 2);
    assert time[..2] == Pad(hh, 2) && time[2..4] == Pad(mm, 2) && time[4..] == Pad(ss, 2);
    assert r[..4] == date[..4] && r[4..6] == date[4..6] && r[6..8] == date[6..];
    assert r[9..11] == time[..2] && r[11..13] == time[2..4] && r[13..15] == time[4..];
    assert Pow10(2) == 100 && Pow10(4) == 10000;
    PadValue(d.year, 4);
    PadValue(d.month, 2);
    PadValue(d.day, 2);
    PadValue(hh, 2);
    PadValue(mm, 2);
    PadValue(ss, 2);
    r
  }

  /** Hours, minutes and seconds of a second of the day. */
  lemma ClockFields(second: nat)
    requires second < 86400
    ensures second / 3600 < 24 && second / 60 % 60 < 60 && second % 60 < 60
    ensures second / 3600 * 3600 + second / 60 % 60 * 60 + second % 60 == second
  {
    var m := second / 60;
    assert second == m * 60 + second % 60;
    assert m == m / 60 * 60 + m % 60;
    assert second / 3600 == m / 60;
  }

  /** The number given with the billing data, else one made from the time. */
  function InvoiceNumber(given: Option<string>, stamp: string): (n: string)
    ensures given.Some? ==> n == given.value
    ensures given.None? ==> StartsWith(n, "INV-") && n[4..] == stamp
  {
    match given
    case Some(g) => g
    case None => "INV-" + stamp
  }

  function FileName(number: string): (f: string)
    ensures |f| == |number| + 12 && StartsWith(f, "invoice_")
  {
    "invoice_" + number + ".pdf"
  }

  /** The number a file name was made from, if it has the shape. */
  function NumberOfFileName(f: string): (r: Option<string>)
    ensures r.Some? ==> |r.value| + 12 == |f|
  {
    if |f| >= 12 && f[..8] == "invoice_" && f[|f| - 4..] == ".pdf" then Some(f[8..|f| - 4]) else None
  }

  /** The file name determines the invoice number. */
  lemma FileNameRoundTrip(number: string)
    ensures NumberOfFileName(FileName(number)) == Some(number)
  {
    var f := FileName(number);
    assert f[..8] == "invoice_";
    assert f[|f| - 4..] == ".pdf";
    assert f[8..|f| - 4] == number;
  }

  lemma FileNameInjective(a: string, b: string)
    requires FileName(a) == FileName(b)
    ensures a == b
  {
    FileNameRoundTrip(a);
    FileNameRoundTrip(b);
  }

  // ---------------------------------------------------------------------
  // UPI link

  predicate IsAscii(c: char) {
    c as int < 128
  }

  /** The characters below code 128, in order. */
  function AsciiOnly(s: string): (r: string)
    ensures |r| <= |s|
    ensures forall i :: 0 <= i < |r| ==> IsAscii(r[i])
  {
    if |s| == 0 then "" else (if IsAscii(s[0]) then [s[0]] else "") + AsciiOnly(s[1..])
  }

  lemma {:induction false} AsciiOnlyOfAscii(s: string)
    requires forall i :: 0 <= i < |s| ==> IsAscii(s[i])
    ensures AsciiOnly(s) == s
  {
    if |s| > 0 {
      AsciiOnlyOfAscii(s[1..]);
    }
  }

  /** Filtering works piece by piece: a character is kept exactly when it
      is ASCII, and the order of what is kept is the order of the input. */
  lemma {:induction false} AsciiOnlyConcat(a: string, b: string)
    ensures AsciiOnly(a + b) == AsciiOnly(a) + AsciiOnly(b)
  {
    if |a| == 0 {
      assert a + b == b;
    } else {
      assert (a + b)[0] == a[0];
      assert (a + b)[1..] == a[1..] + b;
      AsciiOnlyConcat(a[1..], b);
    }
  }

  lemma AsciiOnlySingle(c: char)
    ensures AsciiOnly([c]) == if IsAscii(c) then [c] else []
  {
    assert [c][1..] == [];
  }

  /** `_sanitize_upi_text`: ASCII only, at most `maxLen` characters, and
      what is kept is the start of the ASCII-filtered text. */
  function Sanitize(text: string, maxLen: nat): (r: string)
    ensures |r| <= maxLen
    ensures forall i :: 0 <= i < |r| ==> IsAscii(r[i])
    ensures |r| == Min(maxLen, |AsciiOnly(text)|) && r == AsciiOnly(text)[..|r|]
  {
    var s := AsciiOnly(text);
    if |s| <= maxLen then s else s[..maxLen]
  }

  /** Sanitising twice with a limit no larger than the first is sanitising
      once with the smaller limit; in particular sanitising is idempotent. */
  lemma SanitizeTwice(text: string, n: nat, m: nat)
    requires m <= n
    ensures Sanitize(Sanitize(text, n), m) == Sanitize(text, m)
  {
    AsciiOnlyOfAscii(Sanitize(text, n));
  }

  lemma SanitizeIdempotent(text: string, n: nat)
    ensures Sanitize(Sanitize(text, n), n) == Sanitize(text, n)
  {
    SanitizeTwice(text, n, n);
  }

  /** The billing settings the generator may be given; `None` is a key not
      present. */
  datatype Company = Company(name: Option<string>, upiId: Option<string>)

  /** The query parameters of the `upi://pay` link: payee address and name,
      amount, currency, and the three references to the invoice. */
  datatype UpiLink = UpiLink(
    pa: string, pn: string, am: real, cu: string,
    tn: Option<string>, tr: Option<string>, tid: Option<string>)

  function UpiLinkFor(company: Option<Company>, number: string, total: real): (r: UpiLink)
    ensures r.pa == (if company.Some? && Truthy(company.value.upiId) then company.value.upiId.value else DEFAULT_UPI_ID)
    ensures r.pn == Sanitize(if company.Some? && company.value.name.Some? then company.value.name.value else COMPANY_NAME, 35)
    ensures r.am == total && r.cu == "INR"
    ensures r.tn.Some? <==> number != ""
    ensures r.tr.Some? <==> number != ""
    ensures r.tid.Some? <==> number != ""
    ensures number != "" ==> r.tn == Some(Sanitize("Invoice " + number, 50))
                             && r.tr == Some(Sanitize(number, 50)) && r.tid == Some(Sanitize(number, 35))
  {
    var pa := if company.Some? && Truthy(company.value.upiId) then company.value.upiId.value else DEFAULT_UPI_ID;
    var name := if company.Some? && company.value.name.Some? then company.value.name.value else COMPANY_NAME;
    if number == "" then UpiLink(pa, Sanitize(name, 35), total, "INR", None, None, None)
    else UpiLink(pa, Sanitize(name, 35), total, "INR",
                 Some(Sanitize("Invoice " + number, 50)), Some(Sanitize(number, 50)), Some(Sanitize(number, 35)))
  }

  /** The `tid` reference is the `tr` reference cut to 35 characters. */
  lemma TidIsShortTr(company: Option<Company>, number: string, total: real)
    requires number != ""
    ensures var r := UpiLinkFor(company, number, total);
      r.tid == Some(Sanitize(r.tr.value, 35))
  {
    SanitizeTwice(number, 50, 35);
  }

  /** Everything the generator decides for one invoice. */
  datatype Invoice = Invoice(number: string, fileName: string, charges: Charges, upi: UpiLink)

  /** `generate_invoice_pdf`, less the layout: the price and arrears default
      to 0 when absent, the number to one made from `stamp`, and the UPI
      amount is the invoice total. */
  function GenerateInvoice(planName: string, price: Option<real>, oldPending: Option<real>,
                           number: Option<string>, company: Option<Company>, stamp: string): (r: Invoice)
    ensures r.number == InvoiceNumber(number, stamp)
    ensures NumberOfFileName(r.fileName) == Some(r.number)
    ensures r.charges == Bill(planName, price.GetOr(0.0), oldPending.GetOr(0.0))
    ensures r.upi.am == r.charges.total
    ensures r.upi == UpiLinkFor(company, r.number, r.charges.total)
  {
    var n := InvoiceNumber(number, stamp);
    var charges := Bill(planName, price.GetOr(0.0), oldPending.GetOr(0.0));
    FileNameRoundTrip(n);
    Invoice(n, FileName(n), charges, UpiLinkFor(company, n, charges.total))
  }
}

=== FILE: iso_dates.dfy ===
/** Dates as the back-office stores them: `YYYY-MM-DD` strings written by
    `strftime("%Y-%m-%d")` and read back by `strptime(s, "%Y-%m-%d")`. The
    expiry sweep and the reminder queries compare these strings, not dates,
    so the key fact here is that string order is date order. */
module IsoDates {
  import opened Outcomes
  import opened Strings
  import opened Calendar

  /** `strftime("%Y-%m-%d")`. The year is zero-padded to four digits. */
  function Format(d: Date): (s: string)
    requires Valid(d)
    ensures InRange(d) ==> |s| == 10 && s[4] == '-' && s[7] == '-'
    ensures InRange(d) ==> IsDigits(s[..4]) && IsDigits(s[5..7]) && IsDigits(s[8..10])
    ensures InRange(d) ==> Value(s[..4]) == d.year && Value(s[5..7]) == d.month && Value(s[8..10]) == d.day
  {
    var s := Pad(d.year, 4) + ("-" + (Pad(d.month, 2) + ("-" + Pad(d.day, 2))));
    assert Pow10(2) == 100 && Pow10(4) == 10000;
    PadValue(d.month, 2);
    PadValue(d.day, 2);
    if d.year <= 9999 then
      PadValue(d.year, 4);
      assert s[..4] == Pad(d.year, 4) && s[5..7] == Pad(d.month, 2) && s[8..10] == Pad(d.day, 2);
      s
    else s
  }

  /** Years Python's `date` type can hold. */
  predicate InRange(d: Date) {
    Valid(d) && d.year <= 9999
  }

  lemma FormatShape(d: Date)
    requires InRange(d)
    ensures |Format(d)| == 10 && Format(d)[4] == '-' && Format(d)[7] == '-'
  {
  }

  // ---------------------------------------------------------------------
  // string order is date order

  lemma DashLt(u: string, v: string)
    ensures Lt("-" + u, "-" + v) <==> Lt(u, v)
  {
    LtConcat("-", u, "-", v);
  }

  /** Comparing two formatted dates as strings (what SQL `<` on the text
      column and Python `<` do) is comparing the dates. */
  lemma {:induction false} FormatOrder(a: Date, b: Date)
    requires InRange(a) && InRange(b)
    ensures Lt(Format(a), Format(b)) <==> Before(a, b)
  {
    var ma := "-" + (Pad(a.month, 2) + ("-" + Pad(a.day, 2)));
    var mb := "-" + (Pad(b.month, 2) + ("-" + Pad(b.day, 2)));
    LtConcat(Pad(a.year, 4), ma, Pad(b.year, 4), mb);
    PadLt(a.year, b.year, 4);
    PadInjective(a.year, b.year, 4);
    DashLt(Pad(a.month, 2) + ("-" + Pad(a.day, 2)), Pad(b.month, 2) + ("-" + Pad(b.day, 2)));
    LtConcat(Pad(a.month, 2), "-" + Pad(a.day, 2), Pad(b.month, 2), "-" + Pad(b.day, 2));
    PadLt(a.month, b.month, 2);
    PadInjective(a.month, b.month, 2);
    DashLt(Pad(a.day, 2), Pad(b.day, 2));
    PadLt(a.day, b.day, 2);
  }

  /** Formatting is one-to-one on representable dates. */
  lemma FormatInjective(a: Date, b: Date)
    requires InRange(a) && InRange(b)
    ensures Format(a) == Format(b) <==> a == b
  {
    if Format(a) == Format(b) {
      FormatOrder(a, b);
      FormatOrder(b, a);
      assert !Lt(Format(a), Format(b));
    }
  }

  /** The `<=` of the sweep's SQL filter on formatted dates is "not after". */
  lemma FormatOrderLe(a: Date, b: Date)
    requires InRange(a) && InRange(b)
    ensures Le(Format(a), Format(b)) <==> NotAfter(a, b)
  {
    FormatOrder(a, b);
    FormatInjective(a, b);
  }

  // ---------------------------------------------------------------------
  // strptime(s, "%Y-%m-%d")

  /** The `%m` group `1[0-2]|0[1-9]|[1-9]` at the start of `t`: the month and
      the number of characters it took. The literal `-` that must follow
      makes the first alternative that matches the only one that can. */
  function MonthToken(t: string): (r: Option<(int, nat)>)
    ensures r.Some? ==> 1 <= r.value.0 <= 12 && 1 <= r.value.1 <= 2 && r.value.1 <= |t|
  {
    if |t| >= 2 && t[0] == '1' && '0' <= t[1] <= '2' then Some((10 + DigitValue(t[1]), 2))
    else if |t| >= 2 && t[0] == '0' && '1' <= t[1] <= '9' then Some((DigitValue(t[1]), 2))
    else if |t| >= 1 && '1' <= t[0] <= '9' then Some((DigitValue(t[0]), 1))
    else None
  }

  /** The `%d` group `3[01]|[12]\d|0[1-9]|[1-9]| [1-9]` consuming all of `t`
      (strptime refuses unconverted trailing data). */
  function DayToken(t: string): (r: Option<int>)
    ensures r.Some? ==> 1 <= r.value <= 31
  {
    if |t| == 2 && t[0] == '3' && '0' <= t[1] <= '1' then Some(30 + DigitValue(t[1]))
    else if |t| == 2 && '1' <= t[0] <= '2' && IsDigit(t[1]) then Some(DigitValue(t[0]) * 10 + DigitValue(t[1]))
    else if |t| == 2 && (t[0] == '0' || t[0] == ' ') && '1' <= t[1] <= '9' then Some(DigitValue(t[1]))
    else if |t| == 1 && '1' <= t[0] <= '9' then Some(DigitValue(t[0]))
    else None
  }

  /** `datetime.strptime(s, "%Y-%m-%d").date()`, `None` where it raises
      `ValueError`: four digits of year, a dash, a one- or two-digit month, a
      dash, a one- or two-digit day, nothing after; the day must exist in
      that month and year 0 does not exist. */
  function Parse(s: string): (r: Option<Date>)
    ensures r.Some? ==> InRange(r.value)
  {
    if |s| < 7 || !(IsDigit(s[0]) && IsDigit(s[1]) && IsDigit(s[2]) && IsDigit(s[3])) || s[4] != '-' then None
    else
      match MonthToken(s[5..])
      case None => None
      case Some((month, k)) =>
        var rest := s[5 + k..];
        if |rest| == 0 || rest[0] != '-' then None
        else
          match DayToken(rest[1..])
          case None => None
          case Some(day) =>
            var year := Value(s[..4]);
            assert year < 10000 by { ValueBound(s[..4]); }
            if year >= 1 && day <= DaysInMonth(year, month) then Some(Date(year, month, day)) else None
  }

  // ---------------------------------------------------------------------
  // the fields strptime accepts, stated on the digits rather than the regex

  /** A `%m` field: one or two digits naming a month. */
  predicate MonthText(t: string) {
    1 <= |t| <= 2 && IsDigits(t) && 1 <= Value(t) <= 12
  }

  /** A `%d` field naming `day`: one or two digits with that value, or a
      space followed by one non-zero digit. */
  predicate DayText(t: string, day: int) {
    || (1 <= |t| <= 2 && IsDigits(t) && 1 <= Value(t) <= 31 && day == Value(t))
    || (|t| == 2 && t[0] == ' ' && '1' <= t[1] <= '9' && day == DigitValue(t[1]))
  }

  /** `s` is a four-digit year, a dash, a `k`-character month field, a dash
      and a day field, which read as `d`'s year, month and day. */
  predicate Spells(s: string, d: Date, k: nat) {
    && 1 <= k <= 2 && |s| >= 7 + k && s[4] == '-' && s[5 + k] == '-'
    && IsDigits(s[..4]) && Value(s[..4]) == d.year
    && MonthText(s[5..5 + k]) && Value(s[5..5 + k]) == d.month
    && DayText(s[6 + k..], d.day)
  }

  predicate Denotes(s: string, d: Date) {
    exists k: nat | 1 <= k <= 2 :: Spells(s, d, k)
  }

  lemma ValueTwo(t: string)
    requires |t| == 2 && IsDigits(t)
    ensures Value(t) == DigitValue(t[0]) * 10 + DigitValue(t[1])
  {
    assert Value(t) == Value(t[..1]) * 10 + DigitValue(t[1]);
    assert t[..1][..0] == "" && t[..1][0] == t[0];
  }

  lemma ValueOne(t: string)
    requires |t| == 1 && IsDigits(t)
    ensures Value(t) == DigitValue(t[0])
  {
    assert t[..0] == "";
  }

  /** The month alternatives, read on the digits: a token is a month field,
      and a month field followed by the dash is the token. */
  lemma MonthTokenText(t: string)
    ensures MonthToken(t).Some? ==> var (m, k) := MonthToken(t).value; MonthText(t[..k]) && Value(t[..k]) == m
    ensures forall k :: 1 <= k < |t| && t[k] == '-' && MonthText(t[..k]) ==> MonthToken(t) == Some((Value(t[..k]), k))
  {
    if |t| >= 2 && IsDigits(t[..2]) { ValueTwo(t[..2]); }
    if |t| >= 1 && IsDigits(t[..1]) { ValueOne(t[..1]); }
  }

  /** The day alternatives, read on the digits. */
  lemma DayTokenText(t: string)
    ensures forall day :: DayToken(t) == Some(day) <==> DayText(t, day)
  {
    if |t| == 2 && IsDigits(t) { ValueTwo(t); }
    if |t| == 1 && IsDigits(t) { ValueOne(t); }
  }

  /** strptime reads `s` as `d` exactly when `d` is a date and `s` spells it. */
  lemma ParseIff(s: string, d: Date)
    ensures Parse(s) == Some(d) <==> Valid(d) && Denotes(s, d)
  {
    if Parse(s) == Some(d) { ParseReadsBack(s); }
    if Valid(d) && Denotes(s, d) {
      var k: nat :| 1 <= k <= 2 && Spells(s, d, k);
      ParseAccepts(s, d, k);
    }
  }

  /** What is read is what the three fields say. */
  lemma ParseReadsBack(s: string)
    requires Parse(s).Some?
    ensures Valid(Parse(s).value) && Denotes(s, Parse(s).value)
  {
    var d := Parse(s).value;
    var (month, k) := MonthToken(s[5..]).value;
    var rest := s[5 + k..];
    MonthTokenText(s[5..]);
    DayTokenText(rest[1..]);
    assert s[5..][..k] == s[5..5 + k] && rest[1..] == s[6 + k..];
    assert Spells(s, d, k);
  }

  /** Every spelling of a date is read as that date. */
  lemma ParseAccepts(s: string, d: Date, k: nat)
    requires Valid(d) && Spells(s, d, k)
    ensures Parse(s) == Some(d)
  {
    assert s[5..][..k] == s[5..5 + k] && s[5..][k] == '-';
    MonthTokenText(s[5..]);
    assert MonthToken(s[5..]) == Some((d.month, k));
    var rest := s[5 + k..];
    assert rest[1..] == s[6 + k..];
    DayTokenText(rest[1..]);
  }

  lemma {:induction false} ValueBound(s: string)
    requires forall i :: 0 <= i < |s| ==> IsDigit(s[i])
    ensures Value(s) < Pow10(|s|)
  {
    if |s| > 0 {
      ValueBound(s[..|s| - 1]);
    }
  }

  /** Reading a formatted date gives the date back. */
  lemma ParseFormat(d: Date)
    requires InRange(d)
    ensures Parse(Format(d)) == Some(d)
  {
    var s := Format(d);
    assert Spells(s, d, 2) by {
      assert s[8..] == s[6 + 2..] == s[8..10];
    }
    ParseAccepts(s, d, 2);
  }

  /** A date written and read in full. */
  lemma NewYear2020()
    ensures Format(Date(2020, 1, 1)) == "2020-01-01"
    ensures Parse("2020-01-01") == Some(Date(2020, 1, 1))
  {
    assert Format(Date(2020, 1, 1)) == "2020-01-01" by {
      assert Pad(2, 1) == "2" && Pad(20, 2) == "20" && Pad(202, 3) == "202" && Pad(2020, 4) == "2020";
      assert Pad(0, 1) == "0" && Pad(1, 2) == "01";
      assert Format(Date(2020, 1, 1)) == "2020" + ("-" + ("01" + ("-" + "01")));
    }
    ParseFormat(Date(2020, 1, 1));
  }

  /** strptime is lenient: month and day need not be zero-padded. */
  lemma ParseUnpadded()
    ensures Parse("2025-1-5") == Some(Date(2025, 1, 5))
    ensures Parse("2025-02-29") == None
    ensures Parse("2025-01-05 ") == None
  {
    assert "2025-1-5"[..4] == "2025";
    assert Value("2025") == 2025 by {
      assert "2025"[..3] == "202";
      assert "202"[..2] == "20";
      assert "20"[..1] == "2";
      assert "2"[..0] == "";
    }
    assert "2025-1-5"[5..] == "1-5";
    assert "2025-1-5"[6..] == "-5";
    assert "-5"[1..] == "5";
    assert "2025-02-29"[..4] == "2025";
    assert "2025-02-29"[5..] == "02-29";
    assert "2025-02-29"[7..] == "-29";
    assert "-29"[1..] == "29";
    assert "2025-01-05 "[5..] == "01-05 ";
    assert "2025-01-05 "[7..] == "-05 ";
    assert "-05 "[1..] == "05 ";
  }
}

=== FILE: models.dfy ===
/** The persistent entities of the back-office (the SQLAlchemy models), the
    named status values the lifecycle uses, and the table constraints the
    database enforces: primary keys and unique columns. */
module Models {
  import opened Outcomes
  import opened Tables
  import opened Calendar

  // Subscriber status values (`users.status`, `installations.status`).
  const ACTIVE := "Active"
  const EXPIRED := "Expired"
  const SUSPENDED := "Suspended"
  const PENDING_INSTALLATION := "Pending Installation"
  const INSTALLATION_SCHEDULED := "Installation Scheduled"
  const COMPLETED := "Completed"

  // Payment status values (`users.payment_status`).
  const PENDING := "Pending"
  const VERIFIED_BY_CASH := "VerifiedByCash"
  const VERIFIED_BY_UPI := "VerifiedByUpi"

  /** The injected clock: today's date, and whether the current instant is
      already past midnight (it is, except at the very first instant of the
      day), which decides `datetime.now()` comparisons against a date. */
  datatype Clock = Clock(today: Date, afterMidnight: bool)

  datatype Plan = Plan(id: string, name: string, price: real, speed: string, dataLimit: string, commitment: string)

  /** A subscriber. Dates are the `YYYY-MM-DD` strings the table stores;
      status and payment status are free strings because an administrator
      may write any status. Photo and document paths are not modelled. */
  datatype User = User(
    id: string,
    csId: string,
    name: string,
    phone: string,
    email: string,
    password: string,
    address: string,
    planId: string,
    planStart: string,
    planExpiry: string,
    isPlanActive: bool,
    lastRenewal: Option<string>,
    paymentStatus: string,
    oldPending: int,
    paymentDue: string,
    status: string,
    createdAt: string)

  datatype Engineer = Engineer(
    id: string,
    name: string,
    mobile: string,
    password: string,
    email: Option<string>,
    specialization: Option<string>,
    status: string,
    joiningDate: Option<string>,
    address: Option<string>,
    emergencyContact: Option<string>)

  datatype Admin = Admin(id: string, email: string)

  /** The billing fields a ledger entry records before and after a change.
      Every column is nullable. */
  datatype Snapshot = Snapshot(
    paymentStatus: Option<string>,
    oldPending: Option<int>,
    dueDate: Option<string>,
    planId: Option<string>,
    planName: Option<string>)

  /** A `billing_history` row: paired previous/new values of the billing
      fields, who changed them and why. */
  datatype LedgerEntry = LedgerEntry(
    id: nat,
    userId: string,
    adminEmail: string,
    previous: Snapshot,
    next: Snapshot,
    changeType: Option<string>,
    notes: Option<string>)

  datatype Installation = Installation(
    id: string,
    userId: string,
    engineerId: Option<string>,
    status: string,
    scheduledDate: Option<string>,
    completedDate: Option<string>)

  datatype Invoice = Invoice(
    id: nat,
    number: string,
    userId: string,
    planId: string,
    planName: string,
    planPrice: real,
    oldPending: int,
    subtotal: real,
    gstRate: real,
    gstAmount: real,
    total: real,
    paymentStatus: string,
    monthsRenewed: int,
    invoiceDate: string,
    dueDate: string,
    billingPeriod: string,
    generatedBy: string)

  /** The whole store the lifecycle operations read and write. */
  datatype Db = Db(
    plans: seq<Plan>,
    users: seq<User>,
    engineers: seq<Engineer>,
    installations: seq<Installation>,
    ledger: seq<LedgerEntry>)

  // ---------------------------------------------------------------------
  // Table constraints

  /** `users.id` is the primary key; `phone` and `cs_id` are unique. */
  predicate UsersUnique(users: seq<User>) {
    && KeysUnique(users, (u: User) => u.id)
    && KeysUnique(users, (u: User) => u.phone)
    && KeysUnique(users, (u: User) => u.csId)
  }

  /** `engineers.id` is the primary key; `mobile` is unique. */
  predicate EngineersUnique(engineers: seq<Engineer>) {
    && KeysUnique(engineers, (e: Engineer) => e.id)
    && KeysUnique(engineers, (e: Engineer) => e.mobile)
  }

  /** `invoices.id` is the primary key; `invoice_number` is unique. */
  predicate InvoicesUnique(invoices: seq<Invoice>) {
    && KeysUnique(invoices, (v: Invoice) => v.id)
    && KeysUnique(invoices, (v: Invoice) => v.number)
  }

  /** The activity invariant: a subscriber whose plan is active has status
      "Active". */
  predicate ActiveMeansActive(users: seq<User>) {
    forall i :: 0 <= i < |users| ==> users[i].isPlanActive ==> users[i].status == ACTIVE
  }

  function FindUser(users: seq<User>, id: string): (r: Option<nat>)
    ensures r.Some? ==> r.value < |users| && users[r.value].id == id
    ensures r.Some? ==> forall j :: 0 <= j < r.value ==> users[j].id != id
    ensures r.None? <==> forall j :: 0 <= j < |users| ==> users[j].id != id
  {
    FirstIndex(users, (u: User) => u.id == id)
  }

  function FindPlan(plans: seq<Plan>, id: string): (r: Option<Plan>)
    ensures r.Some? ==> r.value in plans && r.value.id == id
    ensures r.None? <==> forall j :: 0 <= j < |plans| ==> plans[j].id != id
  {
    First(plans, (p: Plan) => p.id == id)
  }

  predicate PhoneInUse(users: seq<User>, phone: string) {
    exists j :: 0 <= j < |users| && users[j].phone == phone
  }

  /** Inserting a subscriber row: the database refuses the commit when the
      id, the phone or the customer code is already present. */
  function InsertUser(users: seq<User>, u: User): (r: Result<seq<User>>)
    ensures r.Ok? <==> forall j :: 0 <= j < |users| ==>
      users[j].id != u.id && users[j].phone != u.phone && users[j].csId != u.csId
    ensures r.Ok? ==> r.value == users + [u]
    ensures r.Err? ==> r.error == ServerError(DuplicateKey)
    ensures r.Ok? && UsersUnique(users) ==> UsersUnique(r.value)
  {
    if exists j :: 0 <= j < |users| && (users[j].id == u.id || users[j].phone == u.phone || users[j].csId == u.csId)
    then Err(ServerError(DuplicateKey))
    else Ok(users + [u])
  }

  /** A row whose keys are all free is appended. */
  lemma InsertFresh(users: seq<User>, u: User)
    requires forall j :: 0 <= j < |users| ==> users[j].id != u.id && users[j].phone != u.phone && users[j].csId != u.csId
    ensures InsertUser(users, u) == Ok(users + [u])
  {
  }

  /** Appending a row with fresh keys that is Active if its plan is active
      keeps both table invariants. */
  lemma AppendKeepsInvariants(users: seq<User>, u: User)
    requires forall j :: 0 <= j < |users| ==> users[j].id != u.id && users[j].phone != u.phone && users[j].csId != u.csId
    requires u.isPlanActive ==> u.status == ACTIVE
    ensures UsersUnique(users) ==> UsersUnique(users + [u])
    ensures ActiveMeansActive(users) ==> ActiveMeansActive(users + [u])
  {
    var after := users + [u];
    assert forall i :: 0 <= i < |after| ==> after[i] == if i < |users| then users[i] else u;
  }

  /** Rewriting one row with one that is Active if its plan is active keeps
      every active plan with an Active subscriber. */
  lemma ReplaceKeepsActive(users: seq<User>, i: nat, u: User)
    requires i < |users| && ActiveMeansActive(users)
    requires u.isPlanActive ==> u.status == ACTIVE
    ensures ActiveMeansActive(users[i := u])
  {
    var after := users[i := u];
    assert forall j :: 0 <= j < |after| ==> after[j] == if j == i then u else users[j];
  }

  /** Rewriting one row without touching its keys keeps the keys unique. */
  lemma ReplaceKeepsUnique(users: seq<User>, i: nat, u: User)
    requires i < |users| && UsersUnique(users)
    requires u.id == users[i].id && u.csId == users[i].csId
    requires forall j :: 0 <= j < |users| && j != i ==> users[j].phone != u.phone
    ensures UsersUnique(users[i := u])
  {
  }

  // ---------------------------------------------------------------------
  // Invoice rows

  /** The columns an invoice insert supplies; `None` leaves the column to
      its default (or, for the number, to NULL). */
  datatype InvoiceDraft = InvoiceDraft(
    id: nat,
    number: Option<string>,
    userId: string,
    planId: string,
    planName: string,
    planPrice: real,
    oldPending: Option<int>,
    subtotal: real,
    gstRate: Option<real>,
    gstAmount: real,
    total: real,
    paymentStatus: Option<string>,
    monthsRenewed: Option<int>,
    invoiceDate: string,
    dueDate: string,
    billingPeriod: string,
    generatedBy: string)

  const DEFAULT_GST_RATE: real := 18.0
  const DEFAULT_INVOICE_STATUS := PENDING
  const DEFAULT_MONTHS_RENEWED := 1

  /** Inserting an invoice row: a missing number violates NOT NULL, a
      repeated number or id violates uniqueness; otherwise the row is
      appended with the column defaults filled in. */
  function InsertInvoice(invoices: seq<Invoice>, d: InvoiceDraft): (r: Result<seq<Invoice>>)
    ensures d.number.None? ==> r.Err?
    ensures r.Ok? <==> d.number.Some? && forall j :: 0 <= j < |invoices| ==>
      invoices[j].id != d.id && invoices[j].number != d.number.value
    ensures r.Ok? ==> |r.value| == |invoices| + 1 && r.value[..|invoices|] == invoices
    ensures r.Ok? ==> var v := r.value[|invoices|];
      && v.number == d.number.value
      && v.gstRate == d.gstRate.GetOr(18.0)
      && v.paymentStatus == d.paymentStatus.GetOr("Pending")
      && v.monthsRenewed == d.monthsRenewed.GetOr(1)
      && v.oldPending == d.oldPending.GetOr(0)
    ensures r.Ok? && InvoicesUnique(invoices) ==> InvoicesUnique(r.value)
  {
    match d.number
    case None => Err(ServerError(DuplicateKey))
    case Some(number) =>
      if exists j :: 0 <= j < |invoices| && (invoices[j].id == d.id || invoices[j].number == number)
      then Err(ServerError(DuplicateKey))
      else
        var v := Invoice(d.id, number, d.userId, d.planId, d.planName, d.planPrice,
                         d.oldPending.GetOr(0), d.subtotal, d.gstRate.GetOr(DEFAULT_GST_RATE),
                         d.gstAmount, d.total, d.paymentStatus.GetOr(DEFAULT_INVOICE_STATUS),
                         d.monthsRenewed.GetOr(DEFAULT_MONTHS_RENEWED), d.invoiceDate, d.dueDate,
                         d.billingPeriod, d.generatedBy);
        Ok(invoices + [v])
  }

  /** Inserting an engineer row: id and mobile must be new. */
  function InsertEngineer(engineers: seq<Engineer>, e: Engineer): (r: Result<seq<Engineer>>)
    ensures r.Ok? <==> forall j :: 0 <= j < |engineers| ==> engineers[j].id != e.id && engineers[j].mobile != e.mobile
    ensures r.Ok? ==> r.value == engineers + [e]
    ensures r.Ok? && EngineersUnique(engineers) ==> EngineersUnique(r.value)
  {
    if exists j :: 0 <= j < |engineers| && (engineers[j].id == e.id || engineers[j].mobile == e.mobile)
    then Err(ServerError(DuplicateKey))
    else Ok(engineers + [e])
  }
}

=== FILE: notifications.dfy ===
/** The daily reminder runs: who is told that a payment is due tomorrow,
    that a plan expires tomorrow, or that a plan has expired, and what
    amount each message quotes. The messages themselves (email, WhatsApp)
    are handed to transports that are not part of this model. */
module Notifications {
  import opened Outcomes
  import opened Strings
  import opened Tables
  import opened Calendar
  import opened IsoDates
  import opened Models
  import opened Expiry

  datatype Channel = Email | WhatsApp

  /** One reminder to one subscriber, over the given channels. */
  datatype Notice = Notice(channels: set<Channel>, user: User, planName: string, amount: Option<real>, date: string)

  /** Payment due on `day` and still Pending. */
  function DueOn(day: string): User -> bool {
    (u: User) => u.paymentDue == day && u.paymentStatus == PENDING
  }

  /** An active plan that expires on `day`. */
  function ExpiresOn(day: string): User -> bool {
    (u: User) => u.planExpiry == day && u.isPlanActive
  }

  /** An expired plan whose expiry date is strictly before `day`. */
  function LapsedBefore(day: string): User -> bool {
    (u: User) => Lt(u.planExpiry, day) && !u.isPlanActive && u.status == EXPIRED
  }

  /** Selected and with a plan that still exists: the only users a run
      sends to and counts. */
  function Reached(plans: seq<Plan>, selected: User -> bool): User -> bool {
    (u: User) => selected(u) && FindPlan(plans, u.planId).Some?
  }

  /** The users a run reaches, in storage order, each with its plan. */
  function Recipients(users: seq<User>, plans: seq<Plan>, selected: User -> bool): (r: seq<(User, Plan)>)
    ensures |r| == Count(users, Reached(plans, selected))
  {
    if |users| == 0 then []
    else
      var rest := Recipients(users[1..], plans, selected);
      match FindPlan(plans, users[0].planId)
      case Some(p) => if selected(users[0]) then [(users[0], p)] + rest else rest
      case None => rest
  }

  /** Everyone reached was selected, is a subscriber, and is quoted the
      plan the subscriber's plan id names. */
  lemma {:induction false} RecipientsSound(users: seq<User>, plans: seq<Plan>, selected: User -> bool, k: nat)
    requires k < |Recipients(users, plans, selected)|
    ensures var e := Recipients(users, plans, selected)[k];
      selected(e.0) && e.0 in users && FindPlan(plans, e.0.planId) == Some(e.1)
  {
    var r := Recipients(users, plans, selected);
    var rest := Recipients(users[1..], plans, selected);
    var head := FindPlan(plans, users[0].planId).Some? && selected(users[0]);
    assert r == if head then [(users[0], FindPlan(plans, users[0].planId).value)] + rest else rest;
    if head && k == 0 {
      assert r[0] == (users[0], FindPlan(plans, users[0].planId).value);
    } else {
      var j := if head then k - 1 else k;
      assert r[k] == rest[j];
      RecipientsSound(users[1..], plans, selected, j);
      assert rest[j].0 in users[1..];
    }
  }

  /** Every selected subscriber whose plan exists is reached. */
  lemma {:induction false} RecipientsComplete(users: seq<User>, plans: seq<Plan>, selected: User -> bool, u: User)
    requires u in users && selected(u) && FindPlan(plans, u.planId).Some?
    ensures exists k :: 0 <= k < |Recipients(users, plans, selected)| && Recipients(users, plans, selected)[k].0 == u
  {
    var r := Recipients(users, plans, selected);
    var rest := Recipients(users[1..], plans, selected);
    if users[0] == u {
      assert r[0].0 == u;
    } else {
      assert u in users[1..];
      RecipientsComplete(users[1..], plans, selected, u);
      var k :| 0 <= k < |rest| && rest[k].0 == u;
      if FindPlan(plans, users[0].planId).Some? && selected(users[0]) {
        assert r[k + 1].0 == u;
      } else {
        assert r[k].0 == u;
      }
    }
  }

  /** The summary a run logs: the notices handed over and their number. */
  datatype Run = Run(notices: seq<Notice>, sent: nat)

  /** The three runs. */
  datatype Kind = PaymentDue | ExpiringTomorrow | Expired

  /** The message of each run: payment-due reminders go by email and
      WhatsApp and quote the plan price plus arrears; expiry reminders go by
      WhatsApp and quote the plan price; expired notices go by email and
      quote nothing. */
  function NoticeFor(kind: Kind, u: User, p: Plan): (n: Notice)
    ensures n.user == u && n.planName == p.name
    ensures kind == PaymentDue ==> n.channels == {Email, WhatsApp} && n.amount == Some(p.price + u.oldPending as real)
    ensures kind == ExpiringTomorrow ==> n.channels == {WhatsApp} && n.amount == Some(p.price)
    ensures kind == Expired ==> n.channels == {Email} && n.amount.None?
  {
    match kind
    case PaymentDue => Notice({Email, WhatsApp}, u, p.name, Some(p.price + u.oldPending as real), u.paymentDue)
    case ExpiringTomorrow => Notice({WhatsApp}, u, p.name, Some(p.price), u.planExpiry)
    case Expired => Notice({Email}, u, p.name, None, u.planExpiry)
  }

  function Notices(kind: Kind, rs: seq<(User, Plan)>): (r: seq<Notice>)
    ensures |r| == |rs|
    ensures forall k :: 0 <= k < |rs| ==> r[k] == NoticeFor(kind, rs[k].0, rs[k].1)
  {
    if |rs| == 0 then [] else [NoticeFor(kind, rs[0].0, rs[0].1)] + Notices(kind, rs[1..])
  }

  /** Tomorrow's date as the runs write it; `None` where `date + timedelta`
      would pass year 9999 and raise. */
  function Tomorrow(today: Date): (r: Option<string>)
    requires InRange(today)
    ensures r.Some? <==> AddDays(today, 1).year <= 9999
    ensures r.Some? ==> InRange(AddDays(today, 1)) && Parse(r.value) == Some(AddDays(today, 1))
  {
    var t := AddDays(today, 1);
    if t.year > 9999 then None else ParseFormat(t); Some(Format(t))
  }

  /** The selection of each run on a given day. */
  function Selection(kind: Kind, today: Date): (r: Option<User -> bool>)
    requires InRange(today)
    ensures r.Some? <==> kind == Expired || Tomorrow(today).Some?
  {
    match kind
    case PaymentDue => if Tomorrow(today).Some? then Some(DueOn(Tomorrow(today).value)) else None
    case ExpiringTomorrow => if Tomorrow(today).Some? then Some(ExpiresOn(Tomorrow(today).value)) else None
    case Expired => Some(LapsedBefore(Format(today)))
  }

  /** `send_payment_due_tomorrow_reminders`, `send_plan_expiry_tomorrow_reminders`
      and `send_expired_plan_notifications`: one notice per selected
      subscriber whose plan exists, counted as sent. The first two fail
      when tomorrow would pass year 9999. */
  function Send(kind: Kind, users: seq<User>, plans: seq<Plan>, today: Date): (r: Result<Run>)
    requires InRange(today)
    ensures r.Ok? <==> Selection(kind, today).Some?
    ensures r.Err? ==> r.error == ServerError(DateOutOfRange)
    ensures r.Ok? ==> r.value.sent == |r.value.notices|
                      == Count(users, Reached(plans, Selection(kind, today).value))
    ensures r.Ok? ==> r.value.notices == Notices(kind, Recipients(users, plans, Selection(kind, today).value))
  {
    match Selection(kind, today)
    case None => Err(ServerError(DateOutOfRange))
    case Some(selected) =>
      var notices := Notices(kind, Recipients(users, plans, selected));
      Ok(Run(notices, |notices|))
  }

  /** The `k`-th notice of a run is the run's message to a selected
      subscriber, quoting the plan the subscriber's plan id names. */
  lemma SendNotice(kind: Kind, users: seq<User>, plans: seq<Plan>, today: Date, k: nat)
    requires InRange(today) && Send(kind, users, plans, today).Ok?
    requires k < |Send(kind, users, plans, today).value.notices|
    ensures var n := Send(kind, users, plans, today).value.notices[k];
      && n.user in users && Selection(kind, today).value(n.user)
      && FindPlan(plans, n.user.planId).Some?
      && n == NoticeFor(kind, n.user, FindPlan(plans, n.user.planId).value)
  {
    var selected := Selection(kind, today).value;
    var rs := Recipients(users, plans, selected);
    RecipientsSound(users, plans, selected, k);
    assert Send(kind, users, plans, today).value.notices[k] == NoticeFor(kind, rs[k].0, rs[k].1);
  }

  /** Each payment-due reminder goes to a Pending subscriber due tomorrow,
      by email and WhatsApp, and quotes the plan price plus arrears. */
  lemma PaymentDueNotice(users: seq<User>, plans: seq<Plan>, today: Date, k: nat)
    requires InRange(today) && Send(PaymentDue, users, plans, today).Ok?
    requires k < |Send(PaymentDue, users, plans, today).value.notices|
    ensures var n := Send(PaymentDue, users, plans, today).value.notices[k];
      && n.user in users && n.channels == {Email, WhatsApp}
      && n.user.paymentStatus == PENDING && n.user.paymentDue == Format(AddDays(today, 1))
      && FindPlan(plans, n.user.planId).Some?
      && n.amount == Some(FindPlan(plans, n.user.planId).value.price + n.user.oldPending as real)
  {
    SendNotice(PaymentDue, users, plans, today, k);
    assert Selection(PaymentDue, today).value == DueOn(Format(AddDays(today, 1)));
  }

  /** Each expiry reminder goes to an active plan expiring tomorrow, by
      WhatsApp, and quotes the plan price alone. */
  lemma ExpiringNotice(users: seq<User>, plans: seq<Plan>, today: Date, k: nat)
    requires InRange(today) && Send(ExpiringTomorrow, users, plans, today).Ok?
    requires k < |Send(ExpiringTomorrow, users, plans, today).value.notices|
    ensures var n := Send(ExpiringTomorrow, users, plans, today).value.notices[k];
      && n.user in users && n.channels == {WhatsApp}
      && n.user.isPlanActive && n.user.planExpiry == Format(AddDays(today, 1))
      && FindPlan(plans, n.user.planId).Some?
      && n.amount == Some(FindPlan(plans, n.user.planId).value.price)
  {
    SendNotice(ExpiringTomorrow, users, plans, today, k);
    assert Selection(ExpiringTomorrow, today).value == ExpiresOn(Format(AddDays(today, 1)));
  }

  /** Each expired notice goes by email, quoting nothing, to an inactive
      plan with status Expired whose expiry date is before today. */
  lemma ExpiredNotice(users: seq<User>, plans: seq<Plan>, today: Date, k: nat)
    requires InRange(today)
    requires k < |Send(Expired, users, plans, today).value.notices|
    ensures var n := Send(Expired, users, plans, today).value.notices[k];
      && n.user in users && n.channels == {Email} && n.amount.None?
      && !n.user.isPlanActive && n.user.status == EXPIRED && Lt(n.user.planExpiry, Format(today))
      && FindPlan(plans, n.user.planId).Some?
  {
    SendNotice(Expired, users, plans, today, k);
  }

  /** A subscriber due tomorrow, still Pending and with an existing plan,
      is reminded. */
  lemma PaymentDueReachesAll(users: seq<User>, plans: seq<Plan>, today: Date, u: User)
    requires InRange(today) && Tomorrow(today).Some?
    requires u in users && u.paymentStatus == PENDING && u.paymentDue == Format(AddDays(today, 1))
    requires FindPlan(plans, u.planId).Some?
    ensures exists k :: 0 <= k < |Send(PaymentDue, users, plans, today).value.notices|
                        && Send(PaymentDue, users, plans, today).value.notices[k].user == u
  {
    var selected := Selection(PaymentDue, today).value;
    assert selected == DueOn(Format(AddDays(today, 1)));
    assert selected(u);
    RecipientsComplete(users, plans, selected, u);
    var rs := Recipients(users, plans, selected);
    var k :| 0 <= k < |rs| && rs[k].0 == u;
    assert Send(PaymentDue, users, plans, today).value.notices[k] == NoticeFor(PaymentDue, rs[k].0, rs[k].1);
  }

  /** The selection compares stored text with tomorrow's zero-padded date,
      so a due date written without padding is never reminded although it
      reads as tomorrow. */
  lemma UnpaddedDueDateMissed(u: User)
    requires u.paymentDue == "2025-1-5" && u.paymentStatus == PENDING
    ensures Parse(u.paymentDue) == Some(AddDays(Date(2025, 1, 4), 1))
    ensures !DueOn(Tomorrow(Date(2025, 1, 4)).value)(u)
  {
    ParseUnpadded();
    var t := Date(2025, 1, 5);
    AddDaysCharacterised(Date(2025, 1, 4), 1, t);
    FormatShape(t);
  }

  datatype Summary = Summary(success: bool, paymentDue: Run, expiring: Run, expired: Run)

  /** `send_all_notifications_with_payment_reminders`: the three runs in
      turn. It reports success whenever it returns; only the date overflow
      of the first run stops it, and then nothing is reported. */
  function SendAll(users: seq<User>, plans: seq<Plan>, today: Date): (r: Result<Summary>)
    requires InRange(today)
    ensures r.Ok? <==> Tomorrow(today).Some?
    ensures r.Ok? ==> r.value.success
    ensures r.Ok? ==> (
      && Ok(r.value.paymentDue) == Send(PaymentDue, users, plans, today)
      && Ok(r.value.expiring) == Send(ExpiringTomorrow, users, plans, today)
      && Ok(r.value.expired) == Send(Expired, users, plans, today))
  {
    match Send(PaymentDue, users, plans, today)
    case Err(e) => Err(e)
    case Ok(due) =>
      match Send(ExpiringTomorrow, users, plans, today)
      case Err(e) => Err(e)
      case Ok(expiring) => Ok(Summary(true, due, expiring, Send(Expired, users, plans, today).value))
  }

  // ---------------------------------------------------------------------
  // Reminders against the daily sweep

  /** A plan reminded as expiring tomorrow is not expired by today's sweep,
      and is expired by tomorrow's. */
  lemma ExpiringTomorrowSweptTomorrow(u: User, today: Date)
    requires InRange(today) && Tomorrow(today).Some?
    requires ExpiresOn(Tomorrow(today).value)(u)
    ensures !Selected(u, Format(today))
    ensures Selected(u, Tomorrow(today).value)
  {
    var t := AddDays(today, 1);
    AddDaysCharacterised(today, 1, t);
    SelectedByDate(u, t, today);
    SelectedByDate(u, t, t);
  }

  /** A plan that expires today is expired by today's sweep, but the
      expired notice does not reach it until tomorrow: the notice wants an
      expiry date strictly before the day of the run. */
  lemma ExpiredNoticeADayLate(u: User, today: Date, due: string)
    requires InRange(today) && Tomorrow(today).Some?
    requires u.isPlanActive && u.planExpiry == Format(today)
    ensures Selected(u, Format(today))
    ensures !LapsedBefore(Format(today))(Step(u, Format(today), due))
    ensures LapsedBefore(Tomorrow(today).value)(Step(u, Format(today), due))
  {
    var t := AddDays(today, 1);
    SelectedByDate(u, today, today);
    FormatOrder(today, today);
    AddDaysCharacterised(today, 1, t);
    FormatOrder(today, t);
  }
}

=== FILE: outcomes.dfy ===
/** Option and Result types shared by every module, and the error taxonomy of
    the back-office: each error is an HTTP status plus the reason the handler
    gives for it. */
module Outcomes {

  datatype Option<+T> = None | Some(value: T) {
    function GetOr(default: T): T {
      match this
      case Some(v) => v
      case None => default
    }
  }

  /** Why a request was refused; one constructor per distinct handler message. */
  datatype Reason =
    | ZeroMonths
    | ReduceBelowToday
    | PhoneFormat
    | PhoneTaken
    | MobileLength
    | MobilePrefix
    | PasswordTooShort
    | NameTooShort
    | AddressTooShort
    | FileTooLarge
    | NoPlans
    | PlanInUse
    | InvalidTaskStatus
    | ScheduledDateMissing
    | ScheduledDateFormat
    | SettingsExist
    | MissingHeader
    | HeaderFormat
    | BadCredentials
    | Suspended
    | NotActive
    | UnparsableDate        // strptime raised ValueError: unhandled, HTTP 500
    | DateOutOfRange        // a date before year 1: ValueError, HTTP 500
    | EmptyPlanName         // `plan.split()[0]` on a blank plan name: IndexError, HTTP 500
    | DuplicateKey          // a unique or primary-key constraint refused the commit

  datatype Error =
    | BadRequest(why: Reason)
    | Unauthorized(why: Reason)
    | Forbidden(why: Reason)
    | NotFound
    | Unprocessable         // the request body failed its schema
    | ServerError(why: Reason)
  {
    /** The HTTP status code the client sees. */
    function Code(): nat {
      match this
      case BadRequest(_) => 400
      case Unauthorized(_) => 401
      case Forbidden(_) => 403
      case NotFound => 404
      case Unprocessable => 422
      case ServerError(_) => 500
    }
  }

  datatype Result<+T> = Ok(value: T) | Err(error: Error) {
    /** The value, forgetting why there is none. */
    function ToOption(): Option<T> {
      match this
      case Ok(v) => Some(v)
      case Err(_) => None
    }
  }
}

=== FILE: plan_catalog.dfy ===
/** The public plan catalogue: each plan with its speed and data limit read
    as numbers where the stored text starts a number somewhere. */
module PlanCatalog {
  import opened Outcomes
  import opened Strings
  import opened Tables
  import opened Models

  /** The longest prefix of `s` made of digits. */
  function DigitRun(s: string): (r: string)
    ensures |r| <= |s| && r == s[..|r|]
    ensures forall i :: 0 <= i < |r| ==> IsDigit(r[i])
    ensures |r| == |s| || !IsDigit(s[|r|])
  {
    if |s| == 0 || !IsDigit(s[0]) then "" else [s[0]] + DigitRun(s[1..])
  }

  /** A run of digits followed by anything that does not continue it is
      the run itself. */
  lemma {:induction false} DigitRunConcat(a: string, b: string)
    requires forall i :: 0 <= i < |a| ==> IsDigit(a[i])
    requires |b| == 0 || !IsDigit(b[0])
    ensures DigitRun(a + b) == a
  {
    if |a| == 0 {
      assert a + b == b;
    } else {
      assert (a + b)[0] == a[0];
      assert (a + b)[1..] == a[1..] + b;
      DigitRunConcat(a[1..], b);
    }
  }

  /** `to_int`: nothing for an empty value or one without a digit,
      otherwise the value of the first maximal run of digits (the first
      match of `\d+`). */
  function ToInt(value: string): (r: Option<nat>)
    ensures |value| == 0 ==> r.None?
    ensures r.None? <==> forall i :: 0 <= i < |value| ==> !IsDigit(value[i])
    ensures r.Some? ==> exists i :: (
      && 0 <= i < |value| && IsDigit(value[i])
      && (forall k :: 0 <= k < i ==> !IsDigit(value[k]))
      && r.value == Value(DigitRun(value[i..])))
  {
    if |value| == 0 then None
    else match FirstIndex(value, IsDigit)
    case None => None
    case Some(i) => Some(Value(DigitRun(value[i..])))
  }

  /** A number written out and followed by a unit reads back as itself:
      "300 Mbps" gives 300. */
  lemma ToIntShow(n: nat, unit: string)
    requires |unit| == 0 || !IsDigit(unit[0])
    ensures ToInt(Show(n) + unit) == Some(n)
  {
    var s := Show(n) + unit;
    assert IsDigit(s[0]);
    DigitRunConcat(Show(n), unit);
    assert s[0..] == s;
    ShowValue(n);
  }

  /** Example (the general rule is `ToInt`'s contract): a speed with no
      digit has no number. */
  lemma ToIntNoDigitExample()
    ensures ToInt("Unlimited") == None
  {
    var u := "Unlimited";
    assert forall i :: 0 <= i < |u| ==> !IsDigit(u[i]);
  }

  /** The advertised speed: the number when there is one, else the text. */
  datatype Speed = Mbps(n: nat) | Text(text: string)

  /** One row of `GET /api/plans`; a missing data limit means unlimited. */
  datatype Listing = Listing(
    id: string, name: string, price: real, speed: Speed, dataLimitGb: Option<nat>, commitment: string)

  function ListPlan(p: Plan): (r: Listing)
    ensures r.id == p.id && r.name == p.name && r.price == p.price && r.commitment == p.commitment
    ensures r.speed.Text? <==> ToInt(p.speed).None?
    ensures r.speed.Text? ==> r.speed.text == p.speed
    ensures r.speed.Mbps? ==> Some(r.speed.n) == ToInt(p.speed)
    ensures r.dataLimitGb.None? <==> forall i :: 0 <= i < |p.dataLimit| ==> !IsDigit(p.dataLimit[i])
    ensures r.dataLimitGb == ToInt(p.dataLimit)
  {
    var speed := match ToInt(p.speed) case Some(n) => Mbps(n) case None => Text(p.speed);
    Listing(p.id, p.name, p.price, speed, ToInt(p.dataLimit), p.commitment)
  }

  /** `list_plans`: every plan, in storage order. */
  function ListPlans(plans: seq<Plan>): (r: seq<Listing>)
    ensures |r| == |plans|
    ensures forall k :: 0 <= k < |plans| ==> r[k] == ListPlan(plans[k])
  {
    if |plans| == 0 then [] else [ListPlan(plans[0])] + ListPlans(plans[1..])
  }
}

=== FILE: schemas.dfy ===
/** The request bodies the API validates before a handler runs (the pydantic
    models), and what each accepts. A `Field` constraint (length, bound) is
    checked first and a `@validator` only on a value that passed it; the
    body as a whole is accepted when every field is, otherwise the client
    gets 422. E-mail syntax (`EmailStr`) is not modelled. */
module Schemas {
  import opened Outcomes
  import opened Strings

  /** Python truthiness of an optional string: present and non-empty. */
  predicate Truthy(v: Option<string>) {
    v.Some? && v.value != ""
  }

  predicate AllDigitsOfLength(s: string, n: nat) {
    |s| == n && forall i :: 0 <= i < |s| ==> IsDigit(s[i])
  }

  // ---------------------------------------------------------------------
  // Plans

  datatype PlanForm = PlanForm(name: string, price: real, speed: string, dataLimit: string, commitment: string)

  /** `price: float = Field(..., gt=0)` then `validate_price`. */
  function PriceAccepted(v: real): (ok: bool)
    ensures ok <==> 0.0 < v <= 100000.0
  {
    if !(v > 0.0) then false        // Field(gt=0)
    else if v <= 0.0 then false     // 'Price must be greater than 0'
    else if v > 100000.0 then false // 'Price seems too high'
    else true
  }

  predicate PlanFormAccepted(f: PlanForm) {
    3 <= |f.name| <= 100 && PriceAccepted(f.price)
  }

  // ---------------------------------------------------------------------
  // Users

  datatype UserForm = UserForm(
    csId: string, name: string, phone: string, email: string, password: string,
    address: string, planId: string, planStart: Option<string>)

  /** `phone: str = Field(..., min_length=10, max_length=10)` then
      `phone_must_be_valid`. */
  function PhoneAccepted(v: string): (ok: bool)
    ensures ok <==> AllDigitsOfLength(v, 10)
  {
    if !(10 <= |v| <= 10) then false  // Field(min_length=10, max_length=10)
    else if !IsDigits(v) then false   // 'Phone must contain only digits'
    else if |v| != 10 then false      // 'Phone must be exactly 10 digits'
    else true
  }

  /** `re.match(r'\d+$', t)`: one or more digits then the end of the
      string, where `$` also matches just before a final newline. */
  function DigitsToEnd(t: string): (ok: bool)
    ensures ok <==> IsDigits(t) || (|t| >= 2 && t[|t| - 1] == '\n' && IsDigits(t[..|t| - 1]))
  {
    |t| >= 1 && IsDigit(t[0]) && MoreDigitsToEnd(t[1..])
  }

  /** `\d*$` */
  function MoreDigitsToEnd(t: string): (ok: bool)
    ensures ok <==> (forall i :: 0 <= i < |t| ==> IsDigit(t[i]))
                    || (|t| >= 1 && t[|t| - 1] == '\n' && forall i :: 0 <= i < |t| - 1 ==> IsDigit(t[i]))
  {
    if |t| == 0 then true
    else if t == "\n" then true
    else IsDigit(t[0]) && MoreDigitsToEnd(t[1..])
  }

  /** `cs_id_format`: `re.match(r'^CS_\d+$', v)`. */
  function CsIdPattern(v: string): (ok: bool)
    ensures ok <==> StartsWith(v, "CS_") && DigitsToEnd(v[3..])
  {
    |v| >= 3 && v[0] == 'C' && v[1] == 'S' && v[2] == '_' && DigitsToEnd(v[3..])
  }

  /** The `$` anchor lets one trailing newline through: "CS_12\n" passes. */
  lemma CsIdTrailingNewline()
    ensures CsIdPattern("CS_12\n")
    ensures !CsIdPattern("CS_")
    ensures !CsIdPattern("cs_12")
  {
    assert "CS_12\n"[3..] == "12\n";
    assert "12\n"[..2] == "12";
  }

  predicate UserFormAccepted(f: UserForm) {
    && 3 <= |f.csId| <= 20 && CsIdPattern(f.csId)
    && 2 <= |f.name| <= 100
    && PhoneAccepted(f.phone)
    && |f.password| >= 6
    && |f.address| >= 10
  }

  // ---------------------------------------------------------------------
  // Billing

  datatype BillingUpdateForm = BillingUpdateForm(
    planId: string,
    paymentStatus: string,
    oldPending: int,
    dueDate: string,
    planStart: Option<string>)

  predicate PaymentStatusAllowed(s: string) {
    s == "Pending" || s == "VerifiedByCash" || s == "VerifiedByUpi"
  }

  /** `old_pending_amount: int = Field(ge=0)` and `validate_payment_status`. */
  predicate BillingUpdateAccepted(f: BillingUpdateForm) {
    f.oldPending >= 0 && PaymentStatusAllowed(f.paymentStatus)
  }

  /** `PlanRenewalRequest.months`: `Field(..., ge=-12, le=12)`. */
  predicate RenewalMonthsAccepted(months: int) {
    -12 <= months <= 12
  }

  /** `InvoiceCreate.months`: `Field(..., ge=1, le=12)`. */
  predicate InvoiceMonthsAccepted(months: int) {
    1 <= months <= 12
  }

  // ---------------------------------------------------------------------
  // Engineers

  datatype EngineerForm = EngineerForm(
    name: string, mobile: string, password: string, email: Option<string>,
    specialization: Option<string>, status: string, joiningDate: Option<string>,
    address: Option<string>, emergencyContact: Option<string>)

  /** `mobile_must_be_valid`, shared by `mobile` and `emergency_contact`:
      an absent or empty value passes, anything else must be ten digits. */
  function MobileValidator(v: Option<string>): (ok: bool)
    ensures ok <==> !Truthy(v) || AllDigitsOfLength(v.value, 10)
  {
    if Truthy(v) && !IsDigits(v.value) then false   // 'Mobile must contain only digits'
    else if Truthy(v) && |v.value| != 10 then false // 'Mobile must be exactly 10 digits'
    else true
  }

  predicate EngineerFormAccepted(f: EngineerForm) {
    && 2 <= |f.name| <= 100
    && |f.mobile| == 10 && MobileValidator(Some(f.mobile))
    && |f.password| >= 6
    && MobileValidator(f.emergencyContact)
  }

  // ---------------------------------------------------------------------
  // Billing settings

  datatype Layout = Card | Stepper | FullWidth | Compact

  predicate LayoutAllowed(v: string) {
    v == "card" || v == "stepper" || v == "fullwidth" || v == "compact"
  }

  /** The character class the GSTIN pattern demands at position `i`:
      `\d{2}[A-Z]{5}\d{4}[A-Z][A-Z\d]Z[A-Z\d]`. */
  predicate GstinCharOk(i: int, c: char) {
    if i < 2 then IsDigit(c)
    else if i < 7 then IsUpper(c)
    else if i < 11 then IsDigit(c)
    else if i == 11 then IsUpper(c)
    else if i == 13 then c == 'Z'
    else IsUpper(c) || IsDigit(c)
  }

  /** The fifteen pattern positions from `i` on are satisfied by `v`. */
  function GstinFrom(v: string, i: nat): (ok: bool)
    requires i <= 15 <= |v|
    ensures ok <==> forall k :: i <= k < 15 ==> GstinCharOk(k, v[k])
    decreases 15 - i
  {
    if i == 15 then true else GstinCharOk(i, v[i]) && GstinFrom(v, i + 1)
  }

  /** `validate_gstin`: `re.match(r'^\d{2}[A-Z]{5}\d{4}[A-Z]{1}[A-Z\d]{1}[Z]{1}[A-Z\d]{1}$', v)`
      on a truthy value; `$` lets a final newline through. */
  function GstinValidator(v: Option<string>): (ok: bool)
    ensures ok <==> !Truthy(v) || ((|v.value| == 15 || (|v.value| == 16 && v.value[15] == '\n'))
                                    && forall k :: 0 <= k < 15 ==> GstinCharOk(k, v.value[k]))
  {
    if !Truthy(v) then true
    else if !(|v.value| == 15 || (|v.value| == 16 && v.value[15] == '\n')) then false
    else GstinFrom(v.value, 0)
  }

  /** `gstin: Optional[str] = Field(None, min_length=15, max_length=15)`
      then the validator: the length bound rules out the newline the
      pattern alone would let through, so an accepted GSTIN is exactly
      fifteen characters with 'Z' at position 13. */
  function GstinFieldAccepted(v: Option<string>): (ok: bool)
    ensures ok && v.Some? ==> |v.value| == 15 && v.value[13] == 'Z' && IsDigit(v.value[0])
    ensures ok <==> v.None? || (|v.value| == 15 && forall k :: 0 <= k < 15 ==> GstinCharOk(k, v.value[k]))
  {
    v.None? || (|v.value| == 15 && GstinValidator(v))
  }

  lemma GstinExample()
    ensures GstinFieldAccepted(Some("22AAAAA0000A1Z5"))
    ensures !GstinFieldAccepted(Some("22AAAAA0000A1X5"))
  {
    assert GstinCharOk(13, "22AAAAA0000A1X5"[13]) == false;
  }

  /** `pin_code` on create: `Field(..., min_length=6, max_length=6)` then
      `validate_pin_code`. */
  function PinAcceptedOnCreate(v: string): (ok: bool)
    ensures ok <==> AllDigitsOfLength(v, 6)
  {
    if !(6 <= |v| <= 6) then false
    else if !IsDigits(v) then false  // 'Pin code must contain only digits'
    else if |v| != 6 then false      // 'Pin code must be exactly 6 digits'
    else true
  }

  /** The update-time `validate_pin_code` alone: absent or empty passes. */
  function PinValidatorOnUpdate(v: Option<string>): (ok: bool)
    ensures ok <==> !Truthy(v) || AllDigitsOfLength(v.value, 6)
  {
    if Truthy(v) && !IsDigits(v.value) then false
    else if Truthy(v) && |v.value| != 6 then false
    else true
  }

  /** The whole update-time `pin_code` field: the length constraint of
      `Field(None, min_length=6, max_length=6)` applies to an empty string
      before the validator sees it, so only an absent pin passes without
      being six digits. */
  function PinAcceptedOnUpdate(v: Option<string>): (ok: bool)
    ensures ok <==> v.None? || AllDigitsOfLength(v.value, 6)
  {
    v.None? || (|v.value| == 6 && PinValidatorOnUpdate(v))
  }

  /** The validator alone would accept an empty pin on update; the field's
      length bound does not. */
  lemma EmptyPinOnUpdate()
    ensures PinValidatorOnUpdate(Some(""))
    ensures !PinAcceptedOnUpdate(Some(""))
  {
  }

  /** `contact_number`: `Field(None, min_length=10, max_length=10)` then
      `validate_contact`. */
  function ContactAccepted(v: Option<string>): (ok: bool)
    ensures ok <==> v.None? || AllDigitsOfLength(v.value, 10)
  {
    v.None? || (|v.value| == 10 && MobileValidator(v))
  }

  predicate OptionalLengthBetween(v: Option<string>, lo: nat, hi: nat) {
    v.None? || lo <= |v.value| <= hi
  }

  /** The body of a settings create; `None` is a field left out, so the
      default applies ("India", "card"). */
  datatype SettingsForm = SettingsForm(
    fullName: string, street: string, city: string, state: string,
    country: Option<string>, pinCode: string, gstin: Option<string>,
    contactNumber: Option<string>, upiId: Option<string>, uiLayout: Option<string>)

  predicate SettingsFormAccepted(f: SettingsForm) {
    && 2 <= |f.fullName| <= 100
    && 5 <= |f.street| <= 500
    && 2 <= |f.city| <= 100
    && 2 <= |f.state| <= 100
    && OptionalLengthBetween(f.country, 0, 100)
    && PinAcceptedOnCreate(f.pinCode)
    && GstinFieldAccepted(f.gstin)
    && ContactAccepted(f.contactNumber)
    && OptionalLengthBetween(f.upiId, 0, 100)
    && LayoutAllowed(f.uiLayout.GetOr("card"))
  }

  /** The body of a settings update; `None` is a field left out or sent as
      null, which the update treats alike. */
  datatype SettingsPatch = SettingsPatch(
    fullName: Option<string>, street: Option<string>, city: Option<string>,
    state: Option<string>, country: Option<string>, pinCode: Option<string>,
    gstin: Option<string>, contactNumber: Option<string>, upiId: Option<string>,
    uiLayout: Option<string>)

  /** `validate_layout` on update: absent or empty passes. */
  predicate LayoutAcceptedOnUpdate(v: Option<string>) {
    !Truthy(v) || LayoutAllowed(v.value)
  }

  predicate SettingsPatchAccepted(p: SettingsPatch) {
    && OptionalLengthBetween(p.fullName, 2, 100)
    && OptionalLengthBetween(p.street, 5, 500)
    && OptionalLengthBetween(p.city, 2, 100)
    && OptionalLengthBetween(p.state, 2, 100)
    && OptionalLengthBetween(p.country, 0, 100)
    && PinAcceptedOnUpdate(p.pinCode)
    && GstinFieldAccepted(p.gstin)
    && ContactAccepted(p.contactNumber)
    && OptionalLengthBetween(p.upiId, 0, 100)
    && LayoutAcceptedOnUpdate(p.uiLayout)
  }
}

=== FILE: strings.dfy ===
/** Character-level helpers with the semantics of the Python built-ins the
    back-office calls: `str.isdigit`, `int()` of a digit run, `str.strip`,
    `str.startswith`, `str.replace`, `str.split`, substring tests, and
    code-point ordering of strings. Digits are the ASCII digits '0'..'9'. */
module Strings {

  predicate IsDigit(c: char) {
    '0' <= c <= '9'
  }

  /** Python's `s.isdigit()`: false on the empty string. */
  predicate IsDigits(s: string) {
    |s| > 0 && forall i :: 0 <= i < |s| ==> IsDigit(s[i])
  }

  predicate IsUpper(c: char) {
    'A' <= c <= 'Z'
  }

  function DigitValue(c: char): nat
    requires IsDigit(c)
  {
    (c as int - '0' as int) as nat
  }

  function DigitChar(n: nat): (c: char)
    requires n < 10
    ensures IsDigit(c) && DigitValue(c) == n
  {
    ('0' as int + n) as char
  }

  /** The decimal value of a string of digits, most significant first. */
  function Value(s: string): nat
    requires forall i :: 0 <= i < |s| ==> IsDigit(s[i])
  {
    if |s| == 0 then 0 else Value(s[..|s| - 1]) * 10 + DigitValue(s[|s| - 1])
  }

  function Pow10(w: nat): (r: nat)
    ensures r >= 1
  {
    if w == 0 then 1 else 10 * Pow10(w - 1)
  }

  /** `n` written with exactly `w` digits, zero-padded on the left
      (`%0wd`, as `strftime` writes month and day). */
  function Pad(n: nat, w: nat): (r: string)
    ensures |r| == w
    ensures forall i :: 0 <= i < |r| ==> IsDigit(r[i])
  {
    if w == 0 then "" else Pad(n / 10, w - 1) + [DigitChar(n % 10)]
  }

  /** Reading back a zero-padded number gives it back when it fits. */
  lemma {:induction false} PadValue(n: nat, w: nat)
    requires n < Pow10(w)
    ensures Value(Pad(n, w)) == n
  {
    if w > 0 {
      var p := Pad(n, w);
      assert p[..|p| - 1] == Pad(n / 10, w - 1);
      PadValue(n / 10, w - 1);
    }
  }

  /** `str(n)` for a natural number: its decimal digits, no padding. */
  function Show(n: nat): (r: string)
    ensures IsDigits(r)
    ensures n >= 10 ==> r[0] != '0'
  {
    if n < 10 then [DigitChar(n)] else Show(n / 10) + [DigitChar(n % 10)]
  }

  /** Reading back `str(n)` gives `n`. */
  lemma {:induction false} ShowValue(n: nat)
    ensures Value(Show(n)) == n
  {
    if n >= 10 {
      var r := Show(n);
      assert r[..|r| - 1] == Show(n / 10);
      ShowValue(n / 10);
    }
  }

  /** Python's `<` on strings: lexicographic order of code points, a proper
      prefix coming first. SQLite's default BINARY collation agrees with it
      on ASCII text. */
  predicate Lt(a: string, b: string) {
    if |b| == 0 then false
    else if |a| == 0 then true
    else if a[0] != b[0] then a[0] < b[0]
    else Lt(a[1..], b[1..])
  }

  predicate Le(a: string, b: string) {
    Lt(a, b) || a == b
  }

  /** Comparing two concatenations whose first parts have the same length is
      deciding on the first parts, then on the second. */
  lemma {:induction false} LtConcat(x: string, u: string, y: string, v: string)
    requires |x| == |y|
    ensures Lt(x + u, y + v) <==> Lt(x, y) || (x == y && Lt(u, v))
  {
    if |x| > 0 {
      assert (x + u)[0] == x[0] && (y + v)[0] == y[0];
      assert (x + u)[1..] == x[1..] + u;
      assert (y + v)[1..] == y[1..] + v;
      LtConcat(x[1..], u, y[1..], v);
      if x[0] == y[0] {
        assert x == y <==> x[1..] == y[1..] by {
          if x[1..] == y[1..] {
            assert x == [x[0]] + x[1..];
            assert y == [y[0]] + y[1..];
          }
        }
      }
    } else {
      assert x + u == u && y + v == v;
    }
  }

  lemma LtSingle(c: char, d: char)
    ensures Lt([c], [d]) <==> c < d
  {
    assert [c][1..] == [];
  }

  /** On zero-padded numbers of one width, string order is numeric order. */
  lemma {:induction false} PadLt(n: nat, m: nat, w: nat)
    requires n < Pow10(w) && m < Pow10(w)
    ensures Lt(Pad(n, w), Pad(m, w)) <==> n < m
  {
    if w == 0 {
    } else {
      var cn, cm := DigitChar(n % 10), DigitChar(m % 10);
      LtConcat(Pad(n / 10, w - 1), [cn], Pad(m / 10, w - 1), [cm]);
      PadLt(n / 10, m / 10, w - 1);
      LtSingle(cn, cm);
      PadInjective(n / 10, m / 10, w - 1);
    }
  }

  lemma PadInjective(n: nat, m: nat, w: nat)
    requires n < Pow10(w) && m < Pow10(w)
    ensures Pad(n, w) == Pad(m, w) <==> n == m
  {
    if Pad(n, w) == Pad(m, w) {
      PadValue(n, w);
      PadValue(m, w);
    }
  }

  predicate StartsWith(s: string, prefix: string) {
    |prefix| <= |s| && s[..|prefix|] == prefix
  }

  /** `sub` occurs in `s` at position `i`. */
  predicate OccursAt(s: string, sub: string, i: int) {
    0 <= i && i + |sub| <= |s| && s[i..i + |sub|] == sub
  }

  /** Python's `sub in s`. */
  predicate Contains(s: string, sub: string) {
    exists i | 0 <= i <= |s| - |sub| :: OccursAt(s, sub, i)
  }

  /** Python's `s.replace(pat, rep)`: every non-overlapping occurrence of
      `pat`, scanning from the left, is replaced. */
  function ReplaceAll(s: string, pat: string, rep: string): (r: string)
    requires |pat| > 0
    ensures |rep| <= |pat| ==> |r| <= |s|
    ensures |rep| >= |pat| ==> |r| >= |s|
    ensures !StartsWith(s, pat) && |s| > 0 ==> |r| > 0 && r[0] == s[0]
    // an occurrence is replaced: a shorter replacement shortens the text
    ensures Contains(s, pat) && |rep| < |pat| ==> |r| < |s|
    decreases |s|
  {
    if |s| == 0 then ""
    else if StartsWith(s, pat) then rep + ReplaceAll(s[|pat|..], pat, rep)
    else
      assert Contains(s, pat) ==> Contains(s[1..], pat) by {
        if Contains(s, pat) {
          var i :| 0 <= i <= |s| - |pat| && OccursAt(s, pat, i);
          assert i != 0;
          assert s[1..][i - 1..i - 1 + |pat|] == s[i..i + |pat|];
          assert OccursAt(s[1..], pat, i - 1);
        }
      }
      [s[0]] + ReplaceAll(s[1..], pat, rep)
  }

  /** A leading occurrence is replaced and the scan goes on after it. */
  lemma ReplaceLeading(t: string, pat: string, rep: string)
    requires |pat| > 0
    ensures ReplaceAll(pat + t, pat, rep) == rep + ReplaceAll(t, pat, rep)
  {
    var s := pat + t;
    assert StartsWith(s, pat) && s[|pat|..] == t;
  }

  /** A prefix in which no occurrence of `pat` starts passes through
      unchanged, and what follows it is replaced on its own. */
  lemma {:induction false} ReplaceAfterClean(a: string, t: string, pat: string, rep: string)
    requires |pat| > 0
    requires forall p :: 0 <= p < |a| ==> !StartsWith((a + t)[p..], pat)
    ensures ReplaceAll(a + t, pat, rep) == a + ReplaceAll(t, pat, rep)
  {
    if |a| == 0 {
      assert a + t == t;
    } else {
      var s := a + t;
      assert !StartsWith(s[0..], pat) && s[0..] == s;
      assert s[1..] == a[1..] + t;
      forall p | 0 <= p < |a[1..]| ensures !StartsWith((a[1..] + t)[p..], pat) {
        assert (a[1..] + t)[p..] == s[p + 1..];
      }
      ReplaceAfterClean(a[1..], t, pat, rep);
      assert ReplaceAll(s, pat, rep) == [a[0]] + (a[1..] + ReplaceAll(t, pat, rep));
      assert [a[0]] + a[1..] == a;
    }
  }

  /** Removing a pattern from a string in which it does not occur leaves the
      string as it was. */
  lemma {:induction false} ReplaceAbsent(s: string, pat: string)
    requires |pat| > 0
    requires !Contains(s, pat)
    ensures ReplaceAll(s, pat, "") == s
  {
    if |s| > 0 {
      assert !OccursAt(s, pat, 0);
      assert !Contains(s[1..], pat) by {
        forall i | OccursAt(s[1..], pat, i) ensures false {
          assert s[1..][i..i + |pat|] == s[i + 1..i + 1 + |pat|];
          assert OccursAt(s, pat, i + 1);
        }
      }
      ReplaceAbsent(s[1..], pat);
      assert s == [s[0]] + s[1..];
    }
  }

  /** `re.sub(r"\D", "", s)`: the digits of `s`, in order. */
  function KeepDigits(s: string): (r: string)
    ensures |r| <= |s|
    ensures forall i :: 0 <= i < |r| ==> IsDigit(r[i])
  {
    if |s| == 0 then ""
    else (if IsDigit(s[0]) then [s[0]] else []) + KeepDigits(s[1..])
  }

  /** Dropping the non-digits of a string of digits leaves it as it was. */
  lemma {:induction false} KeepDigitsOfDigits(s: string)
    requires forall i :: 0 <= i < |s| ==> IsDigit(s[i])
    ensures KeepDigits(s) == s
  {
    if |s| > 0 {
      KeepDigitsOfDigits(s[1..]);
    }
  }

  /** Dropping non-digits works piece by piece. */
  lemma {:induction false} KeepDigitsConcat(a: string, b: string)
    ensures KeepDigits(a + b) == KeepDigits(a) + KeepDigits(b)
  {
    if |a| == 0 {
      assert a + b == b;
    } else {
      assert (a + b)[0] == a[0];
      assert (a + b)[1..] == a[1..] + b;
      KeepDigitsConcat(a[1..], b);
    }
  }

  /** One separator between two runs of digits is dropped. */
  lemma KeepDigitsAround(a: string, c: char, b: string)
    requires forall i :: 0 <= i < |a| ==> IsDigit(a[i])
    requires forall i :: 0 <= i < |b| ==> IsDigit(b[i])
    requires !IsDigit(c)
    ensures KeepDigits(a + [c] + b) == a + b
  {
    assert [c][1..] == [];
    assert KeepDigits([c]) == [];
    KeepDigitsConcat(a + [c], b);
    KeepDigitsConcat(a, [c]);
    KeepDigitsOfDigits(a);
    KeepDigitsOfDigits(b);
    assert a + [] == a;
  }

  function LowerChar(c: char): char {
    if 'A' <= c <= 'Z' then (c as int + 32) as char else c
  }

  /** ASCII lower-casing, the case folding SQLite's LIKE applies. */
  function LowerAscii(s: string): (r: string)
    ensures |r| == |s|
    ensures forall i :: 0 <= i < |s| ==> r[i] == LowerChar(s[i])
  {
    if |s| == 0 then "" else [LowerChar(s[0])] + LowerAscii(s[1..])
  }

  /** `sub` occurs in `s` at position `i` when ASCII case is ignored. */
  predicate OccursAtIgnoringCase(s: string, sub: string, i: int) {
    0 <= i && i + |sub| <= |s| && forall k | 0 <= k < |sub| :: LowerChar(s[i + k]) == LowerChar(sub[k])
  }

  /** `column LIKE '%sub%'` (SQLAlchemy's `contains`), with `sub` free of
      the wildcards `%` and `_`: a substring test ignoring ASCII case. */
  function LikeContains(s: string, sub: string): (b: bool)
    ensures b <==> exists i | 0 <= i <= |s| - |sub| :: OccursAtIgnoringCase(s, sub, i)
  {
    var ls, lsub := LowerAscii(s), LowerAscii(sub);
    assert forall i | 0 <= i <= |s| - |sub| :: OccursAt(ls, lsub, i) <==> OccursAtIgnoringCase(s, sub, i) by {
      forall i | 0 <= i <= |s| - |sub|
        ensures OccursAt(ls, lsub, i) <==> OccursAtIgnoringCase(s, sub, i)
      {
        if OccursAtIgnoringCase(s, sub, i) {
          assert ls[i..i + |sub|] == lsub;
        }
        if OccursAt(ls, lsub, i) {
          forall k | 0 <= k < |sub| ensures LowerChar(s[i + k]) == LowerChar(sub[k]) {
            assert ls[i..i + |sub|][k] == ls[i + k];
          }
        }
      }
    }
    Contains(ls, lsub)
  }

  /** The characters `str.isspace` accepts below U+0100. */
  predicate IsSpace(c: char) {
    c == ' ' || ('\t' <= c <= '\r') || ('\U{1C}' <= c <= '\U{1F}') || c == '\U{85}' || c == '\U{A0}'
  }

  function LStrip(s: string): (r: string)
    ensures |r| <= |s| && r == s[|s| - |r|..]
    ensures |r| > 0 ==> !IsSpace(r[0])
    ensures forall i :: 0 <= i < |s| - |r| ==> IsSpace(s[i])
  {
    if |s| > 0 && IsSpace(s[0]) then LStrip(s[1..]) else s
  }

  function RStrip(s: string): (r: string)
    ensures |r| <= |s| && r == s[..|r|]
    ensures |r| > 0 ==> !IsSpace(r[|r| - 1])
    ensures forall i :: |r| <= i < |s| ==> IsSpace(s[i])
  {
    if |s| > 0 && IsSpace(s[|s| - 1]) then RStrip(s[..|s| - 1]) else s
  }

  /** Python's `s.strip()`: the longest slice of `s` that neither starts nor
      ends with white space, everything cut off being white space. */
  function Strip(s: string): (r: string)
    ensures exists i :: TrimmedAt(s, r, i)
    ensures |r| > 0 ==> !IsSpace(r[0]) && !IsSpace(r[|r| - 1])
  {
    var l := LStrip(s);
    var r := RStrip(l);
    var i := |s| - |l|;
    assert TrimmedAt(s, r, i);
    r
  }

  /** `r` is the slice of `s` starting at `i`, and everything of `s` outside
      it is white space. */
  ghost predicate TrimmedAt(s: string, r: string, i: int) {
    && 0 <= i <= |s| - |r|
    && r == s[i..i + |r|]
    && (forall k :: 0 <= k < i ==> IsSpace(s[k]))
    && (forall k :: i + |r| <= k < |s| ==> IsSpace(s[k]))
  }

  /** A string that neither starts nor ends with white space is its own strip. */
  lemma StripTrimmed(s: string)
    requires |s| > 0 ==> !IsSpace(s[0]) && !IsSpace(s[|s| - 1])
    ensures Strip(s) == s
  {
  }

  /** The first word of Python's `s.split()`, when there is one. */
  function FirstWord(s: string): (r: string)
    ensures |r| <= |s|
    ensures forall i :: 0 <= i < |r| ==> !IsSpace(r[i])
    decreases |s|
  {
    if |s| == 0 then ""
    else if IsSpace(s[0]) then FirstWord(s[1..])
    else [s[0]] + Word(s[1..])
  }

  function Word(s: string): (r: string)
    ensures |r| <= |s| && r == s[..|r|]
    ensures forall i :: 0 <= i < |r| ==> !IsSpace(r[i])
    ensures |r| < |s| ==> IsSpace(s[|r|])
  {
    if |s| == 0 || IsSpace(s[0]) then "" else [s[0]] + Word(s[1..])
  }

  /** Python's `s.split()` is empty exactly when `s` is blank. */
  predicate IsBlank(s: string) {
    forall i :: 0 <= i < |s| ==> IsSpace(s[i])
  }

  /** The number of white-space characters that open `s`. */
  function LeadingSpaces(s: string): (n: nat)
    ensures n <= |s| && IsBlank(s[..n]) && (n < |s| ==> !IsSpace(s[n]))
    decreases |s|
  {
    if |s| > 0 && IsSpace(s[0]) then
      var m := LeadingSpaces(s[1..]);
      assert s[..m + 1] == [s[0]] + s[1..][..m];
      1 + m
    else 0
  }

  /** The first word is the word that starts where the leading white space
      ends. */
  lemma {:induction false} FirstWordAfterBlanks(s: string)
    ensures FirstWord(s) == Word(s[LeadingSpaces(s)..])
    ensures exists i :: 0 <= i <= |s| && IsBlank(s[..i]) && (i < |s| ==> !IsSpace(s[i])) && FirstWord(s) == Word(s[i..])
    decreases |s|
  {
    if |s| > 0 && IsSpace(s[0]) {
      FirstWordAfterBlanks(s[1..]);
      assert s[LeadingSpaces(s)..] == s[1..][LeadingSpaces(s[1..])..];
    } else {
      assert s[0..] == s;
    }
    var n := LeadingSpaces(s);
    assert IsBlank(s[..n]) && (n < |s| ==> !IsSpace(s[n])) && FirstWord(s) == Word(s[n..]);
  }

  lemma {:induction false} FirstWordNonEmpty(s: string)
    ensures FirstWord(s) == "" <==> IsBlank(s)
  {
    if |s| > 0 && IsSpace(s[0]) {
      FirstWordNonEmpty(s[1..]);
      assert IsBlank(s) <==> IsBlank(s[1..]) by {
        if IsBlank(s[1..]) {
          forall i | 0 <= i < |s| ensures IsSpace(s[i]) {
            if i > 0 { assert s[i] == s[1..][i - 1]; }
          }
        }
      }
    }
  }
}

=== FILE: tables.dfy ===
/** Rows of a database table in storage order. A query's `.first()` is the
    first row, in that order, that satisfies the filter; `.count()` is a
    count. */
module Tables {
  import opened Outcomes

  function FirstIndex<T>(s: seq<T>, p: T -> bool): (r: Option<nat>)
    ensures r.Some? ==> r.value < |s| && p(s[r.value])
    ensures r.Some? ==> forall j :: 0 <= j < r.value ==> !p(s[j])
    ensures r.None? <==> forall j :: 0 <= j < |s| ==> !p(s[j])
  {
    if |s| == 0 then None
    else if p(s[0]) then Some(0)
    else match FirstIndex(s[1..], p)
      case None => None
      case Some(k) => Some(k + 1)
  }

  function First<T>(s: seq<T>, p: T -> bool): (r: Option<T>)
    ensures r.Some? <==> exists j :: 0 <= j < |s| && p(s[j])
    ensures r.Some? ==> r.value in s && p(r.value)
  {
    match FirstIndex(s, p)
    case None => None
    case Some(k) => Some(s[k])
  }

  function Count<T(!new)>(s: seq<T>, p: T -> bool): (n: nat)
    ensures n <= |s|
    ensures n == 0 <==> forall j :: 0 <= j < |s| ==> !p(s[j])
  {
    if |s| == 0 then 0 else (if p(s[0]) then 1 else 0) + Count(s[1..], p)
  }

  /** Counting the rows that satisfy either of two exclusive filters. */
  lemma {:induction false} CountDisjoint<T(!new)>(s: seq<T>, p: T -> bool, q: T -> bool, pq: T -> bool)
    requires forall x :: !(p(x) && q(x))
    requires forall x :: pq(x) <==> p(x) || q(x)
    ensures Count(s, pq) == Count(s, p) + Count(s, q)
  {
    if |s| > 0 {
      CountDisjoint(s[1..], p, q, pq);
    }
  }

  /** Counting over two tables one after the other. */
  lemma {:induction false} CountAppend<T(!new)>(a: seq<T>, b: seq<T>, p: T -> bool)
    ensures Count(a + b, p) == Count(a, p) + Count(b, p)
  {
    if |a| == 0 {
      assert a + b == b;
    } else {
      assert (a + b)[0] == a[0];
      assert (a + b)[1..] == a[1..] + b;
      CountAppend(a[1..], b, p);
    }
  }

  /** `rest` is `s` without its first row satisfying `p`: every other row
      stays, in order. */
  predicate RemovesFirst<T(==)>(s: seq<T>, p: T -> bool, rest: seq<T>) {
    exists i :: 0 <= i < |s| && p(s[i]) && (forall j :: 0 <= j < i ==> !p(s[j])) && rest == s[..i] + s[i + 1..]
  }

  /** Every row of a table with pairwise distinct keys. */
  predicate KeysUnique<T, K(==)>(s: seq<T>, key: T -> K) {
    forall i, j :: 0 <= i < j < |s| ==> key(s[i]) != key(s[j])
  }
}
